=== FILE: README.md ===
# GitHub open-source analysis: a Dafny model of the collection pipeline

The Python project collects data about GitHub users located in Egypt, their
repositories and top repositories world-wide, and then enriches each
repository row with counts, a CI tool, detected databases, a documentation
score and the owner's profile. This Dafny project models the logic of that
pipeline:

- **GitHubApi** (`github_api.dfy`): the shared client. The token check, the
  transport retry policy (`Retry(total=5)` with its status force list and
  `Retry-After` statuses) and the status handler. The handler turns every
  HTTP status into "payload or None" plus a log severity. It raises on a 200
  whose body is not JSON, and on a 403 whose reset header `int()` cannot
  parse.
- **ReposExtractor** (`repos_extractor.dfy`): the owner/name split of a
  repository address and `base_url`. The recursive contents walk, with the
  answer of each directory request embedded in the tree. The contributor,
  commit, issue, pull-request, tag and dependency summaries. The CI detector,
  and `process_repo`'s inclusion gate and request order.
- **DataCollection** (`data_collection.dfy`):
  - The user search loop, with its page ceiling `total // 100 + 1`.
  - The resumable repository listing: skip `from_row - 1` users, and stop
    after the user with index 50000.
  - The top-repository loop, which never advances its page parameter.
  - The contributor filter by profile location.
- **DocAssessor** (`doc_assessor.dfy`): the documentation score. That is the
  README heading flags, API-documentation links, setup files, a docs entry,
  a contribution guide and a missing description, bounded by 23.
- **DatabaseExtractor** (`database_extractor.dfy`): first-match keyword search
  over configuration-file contents, topics and description, the exact
  language match, and the ordered merge in which later sources win.
- **UserExtractor** (`user_extractor.dfy`): the owner read from the
  repository address, and the nine-field renaming projection of the user
  answer.

Shared modules:

- **Wrappers** holds `Option`, and a `Result` that carries the Python
  exception class a raise would produce.
- **Text** covers `lower` on ASCII letters, and `in`, `startswith`, `split`,
  `join` and `strip`, the last with Python's whitespace set.
- **Json** holds decoded payloads and Python truthiness.

Every call to `_get` is an oracle. It is a map from the requested address or
page to the decoded answer, where an absent key means the request yielded
None. Every Python exception the model covers becomes an `Err` with the
exception class, so contracts state which inputs raise and what they raise;
the exceptions it does not cover are listed under "Left out".

`_get_dependencies` keeps the text after the last `:` of a package name, so
`pkg:pypi/foo` becomes `pypi/foo` (`ReposExtractor.DependencyNameExample`).

Two quirks are modelled as written:

- The user search's page ceiling `total // 100 + 1` is not a true ceiling. A
  total of 200 costs a third request, which writes nothing
  (`DataCollection.PageCountExamples`).
- The top-repository search's `page` counter is never written back into the
  request parameters.

## Model

| member | source | states |
|---|---|---|
| GitHubApi.NewClient | src/github_api.py:23-35 | A missing or empty token raises ValueError. Otherwise the client has exactly the Accept and Authorization headers, and Authorization carries the token after `token `. |
| GitHubApi.AnsweredAttempt | src/github_api.py:58-73 | The transport hands over the first attempt it does not retry. It retries 429/500/502/503/504, and also 413, 429 and 503 when they carry `Retry-After`. Every earlier attempt was retried. With the budget of 5 retries spent, the last response is returned rather than raised. |
| GitHubApi.TransportStatus | src/github_api.py:61-67 | A status outside both retry lists that reaches the handler is one the server gave on one of the at most six attempts, after only retried answers. |
| GitHubApi.PayloadTooLargeRetriedOnlyWithHeader | src/github_api.py:61-67 | A first answer 413 is retried iff it carries `Retry-After`: with the header the next answer reaches the handler, without it the 413 does. |
| GitHubApi.HandleApiErrors | src/github_api.py:75-121 | Raises on a 200 whose body is not JSON (ValueError), and on a 403 whose reset header is missing (KeyError with the lowered name `x-ratelimit-reset`, since requests' headers look names up in lower case) or not an `int()` literal (ValueError). Otherwise the payload is present iff the status is 200, and it is the decoded body. Severity is silent for 200, info for 204, warning for 403 and error for everything else. |
| GitHubApi.ClassifyPartition | src/github_api.py:80-121 | The status branches partition the integers. Each named code takes its own branch, and every other code falls into the generic error branch. |
| GitHubApi.ExhaustedRetriesReachHandler | src/github_api.py:61-67 | A server answering 503 on every attempt uses all 5 retries. The fetch then yields None with error severity and does not raise. |
| GitHubApi.NoRetryOnFinalStatus | src/github_api.py:61-67 | A first answer the transport does not retry is handled with no retry. |
| GitHubApi.DigitRunIsIntLiteral | src/github_api.py:84-85 | A digit run, bare or signed, is accepted by `int()` on the reset header. |
| GitHubApi.PaddedDigitRunIsIntLiteral | src/github_api.py:84-85 | A digit run padded on both sides by any Python whitespace character, such as 0x1C, is accepted by `int()`. |
| GitHubApi.BlankIsNotIntLiteral | src/github_api.py:84-85 | An empty or all-whitespace reset header is rejected by `int()`. |
| ReposExtractor.RepoCoordinates | src/repos_extractor.py:34-35 | IndexError iff the address has no `/`. Otherwise owner and name are `/`-free, and `owner/name` is a suffix of the address that starts at a `/` or at its beginning. |
| ReposExtractor.BaseUrl | src/repos_extractor.py:34-36 | `base_url` is the API repos prefix followed by a two-segment tail that ends the repository address. |
| Text.SecondToLastSegment | src/repos_extractor.py:34 | `split("/")[-2]` raises IndexError iff there is no separator, and its result contains no separator. |
| Text.LastSegment | src/repos_extractor.py:167 | `split(c)[-1]` contains no `c`, ends the string, and is the whole string when there is no `c`. |
| ReposExtractor.WalkRequests | src/repos_extractor.py:72 | The walk first requests the repository root. |
| ReposExtractor.WalkYieldsKeptFiles | src/repos_extractor.py:57-66 | Of `Walk`, the model of `_get_filenames`: a path is yielded iff it belongs to a visible file entry whose name does not end in an image or `.pyc` extension. |
| ReposExtractor.WalkRequestsEnteredDirectories | src/repos_extractor.py:65-66 | A path is requested iff it belongs to a visible directory not named images, imgs or `__pycache__`. |
| ReposExtractor.WalkConcat | src/repos_extractor.py:58-66 | Sibling entries are walked independently, in listing order. |
| ReposExtractor.FailedDirectoryContributesNothing | src/repos_extractor.py:57-70 | A directory whose request answers falsy adds no paths, and the walk goes on with its siblings. |
| ReposExtractor.CountIf | src/repos_extractor.py:106-108 | A `sum(1 for … if …)` count is at most the length. It equals the length iff all elements qualify, and is 0 iff none do. |
| ReposExtractor.CountIfDisjoint | src/repos_extractor.py:106-108 | Open and closed counts add up to at most the page length, with equality iff every entry is open or closed. |
| ReposExtractor.CountIfCountsIndices | src/repos_extractor.py:106-108 | The count is the number of positions whose element qualifies. |
| ReposExtractor.ContributorCount | src/repos_extractor.py:74-84 | None for a falsy answer, otherwise the number of contributors, which is at least 1. |
| ReposExtractor.CommitCount | src/repos_extractor.py:86-96 | 0 iff the answer is falsy, otherwise the number of commits. |
| ReposExtractor.CountIssues | src/repos_extractor.py:98-115 | None iff falsy. Otherwise `open` is the number of issues whose state is `open` and `closed` the number whose state is `closed`; together at most the page length, with equality iff every issue is open or closed. |
| ReposExtractor.CountPulls | src/repos_extractor.py:117-142 | None iff falsy. Otherwise `open` and `closed` count the pull requests in those states and `merged` those with a `merged_at`, each bounded by the page length; merged is 0 iff none has `merged_at`. |
| ReposExtractor.MergedIgnoresState | src/repos_extractor.py:129-130 | The merged count depends only on `merged_at`, never on `state`. |
| ReposExtractor.TagNames | src/repos_extractor.py:144-155 | None iff falsy. Otherwise the tag names, in order, one per tag. |
| ReposExtractor.Dependencies | src/repos_extractor.py:157-173 | None iff the request failed. Otherwise one entry per package after the first: the text after the last `:` of its name. |
| ReposExtractor.DependencyNameExample | src/repos_extractor.py:167 | `pkg:pypi/foo` is cut to `pypi/foo`. |
| ReposExtractor.CiTool | src/repos_extractor.py:175-193 | The detector as written answers None for no files. Otherwise it answers the tool the first filename names, compared in lower case, except that it never answers Jenkins. |
| ReposExtractor.CiToolOnlyInspectsFirst | src/repos_extractor.py:178-193 | The detector as written depends only on the first filename. |
| ReposExtractor.CiToolByPrecedence | src/repos_extractor.py:178-193 | The intended detector answers None iff no filename names a tool. Otherwise it answers the first configuration, in the order Travis, GitLab CI, Drone, CircleCI, GitHub Actions, Jenkins, that some lowered filename equals, and no earlier configuration is present. |
| ReposExtractor.PrecedenceFindsNamed | src/repos_extractor.py:178-193 | The precedence scan finds nothing iff no single filename names a tool. |
| ReposExtractor.CiToolAgreesOnOneFile | src/repos_extractor.py:178-193 | On a single filename the detector as written and the intended one agree, except that only the intended one reports Jenkins. |
| ReposExtractor.TravisTakesPrecedence | src/repos_extractor.py:180-181 | A Travis configuration anywhere in the list decides the intended detector. |
| ReposExtractor.PrecedenceOverFileOrder | src/repos_extractor.py:178-193 | For [".drone.yml", ".travis.yml"] the detector as written reports Drone CI and the intended one Travis CI. |
| ReposExtractor.CiToolMissesLaterConfiguration | src/repos_extractor.py:192-193 | A configuration after a non-configuration first filename is missed by the detector as written and found by the intended one. |
| ReposExtractor.JenkinsfileDetected | src/repos_extractor.py:190-191 | `Jenkinsfile` yields Jenkins in the intended detector and nothing in the detector as written. |
| ReposExtractor.FoldAgrees | src/repos_extractor.py:180-191 | For a name without upper-case letters, the table as written answers what the lower-cased table answers, except Jenkins, which it never matches. |
| ReposExtractor.ProcessRepo | src/repos_extractor.py:198 | `contributor_count` is always written, holding the contributor count, or None when the contributors answer is missing or empty. |
| ReposExtractor.ProcessRepoSkips | src/repos_extractor.py:198-217 | With at most one contributor or no count, the row gains only `contributor_count`, its other columns keep their values, and only the contributors request is issued. |
| ReposExtractor.ProcessRepoKeys | src/repos_extractor.py:198-217 | With more than one contributor, the row gains `contributor_count` and the seven enrichment columns, the columns outside those keep their values, and six requests are issued besides the walk's. |
| ReposExtractor.EnrichmentCalls | src/repos_extractor.py:198-211 | An included repository issues six requests besides the walk's: contributors first, then the walk's directory listings, then commits, issues, pulls, tags and the dependency graph. |
| ReposExtractor.ProcessRepoEnriches | src/repos_extractor.py:205-217 | Above the gate, `filenames` is the walk, `ci_cd_tool` is detected from that same list, and `commits_count` is the commit count. The requests are contributors, the walk, then commits, issues, pulls, tags and dependencies. |
| ReposExtractor.ProcessRepoSummaries | src/repos_extractor.py:205-215 | Above the gate, `issues_count`, `pull_requests_count`, `tags` and `dependencies` hold the issue counts, the pull-request counts, the tag names and the dependency names of their own answers. |
| ReposExtractor.EnrichmentValues | src/repos_extractor.py:205-211 | The seven enrichment cells hold the walk, the CI tool detected from that walk, the commit count, the issue counts, the pull-request counts, the tag names and the dependency names, each computed from its own answer. |
| DataCollection.Project | src/data_collection.py:70-72 | A written row keeps exactly the item's fields among the CSV columns, with their values. |
| DataCollection.UserRows | src/data_collection.py:69-72 | One row per item, in order, each projected onto `login` and `url`. |
| DataCollection.UserCrawl | src/data_collection.py:58-85 | The loop starts at the start page, and the rows written are the projections of the answered pages it requested. |
| DataCollection.CrawlStep | src/data_collection.py:76-85 | A None answer stops at once. An answered page continues iff the next page is within `total // 100 + 1`. |
| DataCollection.UserCrawlCursor | src/data_collection.py:58-85 | The cursor rises by one per request. Every request but the last was answered and stayed within its ceiling. The last one answered None or passed the ceiling. |
| DataCollection.WriteUserPage | src/data_collection.py:69-72 | Writing a page appends its projected rows to those already written. |
| DataCollection.ScrapeUsers | src/data_collection.py:33-85 | The loop requests exactly the pages of the crawl and writes exactly its rows. |
| DataCollection.FixedTotalPageCount | src/data_collection.py:79-81 | When every page answers the same total T, the loop makes max(1, T // 100 + 2 - start) requests. |
| DataCollection.PageCountExamples | src/data_collection.py:79-81 | A total of 150 costs two requests and a total of 200 costs three. |
| DataCollection.CompleteSearchWritesTotal | src/data_collection.py:61-83 | A complete search from page 1 writes exactly `total_count` rows. |
| DataCollection.SkipRows | src/data_collection.py:104-107 | No or zero `from_row` skips nothing. StopIteration iff more than the available rows would be skipped. Otherwise the result is exactly the rows after the first `from_row - 1`. |
| DataCollection.Field | src/data_collection.py:125-138 | `d[k]` is the field, or KeyError(k) iff the key is absent. |
| DataCollection.ListingLanguage | src/data_collection.py:129-133 | Jupyter Notebook is written as Python. Every other value is kept. |
| DataCollection.TopicsText | src/data_collection.py:134 | Joining succeeds iff the topics are a list of strings or a string. An empty list joins to "". Every other value, a dict included, raises TypeError. |
| DataCollection.JoinWithBlank | src/data_collection.py:134 | `", ".join` is `",".join` of the topics with a blank prefixed to all but the first. |
| DataCollection.TopicsSplitBack | src/data_collection.py:134 | Topics free of commas are recovered by splitting the written text at `,`, blanks included. |
| DataCollection.RepoRow | src/data_collection.py:124-144 | A repository row has exactly the eleven `REPO_COLS` columns, each holding the value it was given. |
| DataCollection.ListingLicense | src/data_collection.py:139-143 | A truthy `license` gives its `name`, or KeyError/TypeError when that cannot be read. A missing or falsy license gives None. |
| DataCollection.Require | src/data_collection.py:125-137 | Reading fields one after another succeeds iff every field is present. Otherwise it raises KeyError naming an absent field. |
| DataCollection.ListingRow | src/data_collection.py:124-144 | Succeeds iff every field read is present and the topics join. The row then has the `REPO_COLS` keys, the user's login, the Jupyter rename, the joined topics, the license, and the renamed fields verbatim. |
| DataCollection.OwnerLogin | src/data_collection.py:202 | `item["owner"]["login"]` succeeds iff the owner object holds a login. |
| DataCollection.SearchLicense | src/data_collection.py:215-216 | A truthy license that is not an object raises. Otherwise the license name, or None. |
| DataCollection.SearchRow | src/data_collection.py:204-217 | Succeeds iff owner login, name and html_url are readable and the topics join. The row has the `REPO_COLS` keys, with absent optional fields as None. |
| DataCollection.BuildRows | src/data_collection.py:122-146 | Rows are built in payload order. The first failing payload stops the loop with its exception, and the rows written so far are kept. |
| DataCollection.ListingStop | src/data_collection.py:114-153 | The listing reaches every user, unless there is a user at index 50000 whose listing is answered: then it stops right after that user, and only then does it stop early. |
| DataCollection.ListRepos | src/data_collection.py:114-155 | The loop does exactly the per-user runs of the users it reaches: requests, rows and the first exception, in order. |
| DataCollection.ScrapeReposFile | src/data_collection.py:87-155 | Skipping past the end of the users raises StopIteration before anything is written. Otherwise the remaining users are listed. |
| DataCollection.ListingRunRequests | src/data_collection.py:114-123 | Listings are requested one per user, in order. Without an exception every user's listing is requested. |
| DataCollection.ListingRunRows | src/data_collection.py:124-146 | Every row has the `REPO_COLS` keys, a login of a listed user, and never the language Jupyter Notebook. |
| DataCollection.WriteRound | src/data_collection.py:201-223 | One pass over the page's items appends rows in item order up to the target, keeping the rows written before, or stops at the failing item. |
| DataCollection.ScrapeTopRepos | src/data_collection.py:157-228 | Every request is for the start page. The rows repeat the first page's items cyclically. The run ends at the target, on a falsy answer, or at an exception. An empty first page under a positive target loops forever (`diverges`). |
| DataCollection.TopReposRepeatPage | src/data_collection.py:191-226 | With two items and a target of three, the third row repeats the first. |
| DataCollection.TopCrawlShape | src/data_collection.py:184-228 | The intended search requests consecutive pages from the start page, writes at most the target, requests nothing iff the target is not positive, and stops short of the target with nothing raised only at an unanswered page. |
| DataCollection.TopCrawlRows | src/data_collection.py:191-226 | The rows of the intended search are the built items of the requested pages, in page order: all of them up to the target when nothing raised, otherwise up to the item whose row raised that exception. |
| DataCollection.TopCrawlReadsNextPage | src/data_collection.py:191-226 | On pages [a, b] and [c] with target 3, the intended search writes a, b and c. |
| DataCollection.LocationMatches | src/data_collection.py:251-252 | A match iff the location is truthy and its lowered text contains `egypt`. A truthy non-string location raises AttributeError. |
| DataCollection.ProfileFailure | src/data_collection.py:249-252 | A profile request answering None raises AttributeError on `get`. An answered profile fails iff its location is truthy and not a string. Every failure is an AttributeError. |
| DataCollection.EgyptianLogins | src/data_collection.py:246-254 | A login is listed iff some contributor with that login has a matching profile. |
| DataCollection.EgyptianLoginsCount | src/data_collection.py:246-254 | The list holds as many logins as there are contributors with a matching profile. |
| DataCollection.EgyptianLoginsConcat | src/data_collection.py:246-254 | The matching logins of a concatenation are those of each part in order, and one contributor gives its login iff it matches, so the list is one login per matching contributor, in contributor order. |
| DataCollection.FirstProfileFailure | src/data_collection.py:246-251 | No failure iff every contributor's profile reads without raising. Otherwise it is the AttributeError of a contributor before which every profile read. |
| DataCollection.ContributorsUrl | src/data_collection.py:233-236 | The contributors address is `base_url` + `/contributors`, or IndexError without a `/`. |
| DataCollection.ScanAsWritten | src/data_collection.py:246-257 | The loop as written succeeds iff no profile read fails and every matching contributor carries `repo_html_url`, and then it returns the matching logins. Otherwise it raises AttributeError or KeyError on `repo_html_url`. |
| DataCollection.FilterPerContLoc | src/data_collection.py:230-259 | IndexError iff the address has no `/`. None iff the contributors answer is falsy. A returned list is the matching logins. |
| DataCollection.ScanAsWrittenNeverReportsMatches | src/data_collection.py:253 | Contributor entries lack `repo_html_url`, so the filter as written never returns a non-empty list. |
| DataCollection.ScanContributors | src/data_collection.py:246-257 | The intended loop fails iff some profile read fails, with the first failure. Otherwise it returns exactly the matching logins. |
| DataCollection.FilterEgyptianContributors | src/data_collection.py:230-259 | The intended filter returns None on a falsy answer, otherwise the matching logins or the first profile failure. |
| DataCollection.SampleLocation | src/data_collection.py:252 | "Cairo, Egypt" matches. |
| DataCollection.FilterMatchRaises | src/data_collection.py:252-253 | With one matching contributor, the filter as written raises KeyError and the intended one returns that login. |
| DocAssessor.FindAny | src/doc_assessor.py:101-106 | The early-exit keyword loop finds a hit iff some element qualifies. |
| DocAssessor.CheckReadmeGuidelines | src/doc_assessor.py:63-80 | The heading scan scores one point each for contribution, how-to-run and description headings anywhere in the README, 0 without a README answer. |
| DocAssessor.ReadmeUrlKeepsHost | src/doc_assessor.py:61 | `urljoin` with an absolute path keeps only the scheme and host of the base. |
| DocAssessor.ReadmeUrlDropsRepository | src/doc_assessor.py:61 | Every repository's README is looked up at `https://api.github.com/blob/master/<file>`. |
| DocAssessor.ReadmeFetchAsWritten | src/doc_assessor.py:62-68 | A truthy README answer raises AttributeError on `.content`. Only a falsy one scores 0. |
| DocAssessor.GuidelineScoreExample | src/doc_assessor.py:71-80 | Headings Description, Install and Contributing score 3. |
| DocAssessor.CheckApiDocumentation | src/doc_assessor.py:82-117 | A None answer raises TypeError. Otherwise 3 iff the page content has a link or file name mentioning an API-documentation keyword, else 0. |
| DocAssessor.ReadmeFile | src/doc_assessor.py:148-151 | The chosen README is the first file whose lowered name starts with `readme.`, and none is chosen iff there is no such file. |
| DocAssessor.CountInDistinct | src/doc_assessor.py:182 | Counting distinct names present counts the overlap set. |
| DocAssessor.SetupFilesDistinct | src/doc_assessor.py:169-181 | The eleven setup names are pairwise distinct. |
| DocAssessor.SetupCountIsOverlap | src/doc_assessor.py:169-182 | The setup count is the number of setup names present, at most 11. |
| DocAssessor.RowComponents | src/doc_assessor.py:148-189 | The row-based part of the score is the weighted sum of its flags and counts, at most 20. |
| DocAssessor.AssessDocumentation | src/doc_assessor.py:119-197 | Raises iff the address has no `/` or the repository answer is None. The score is 0 for no files, otherwise the weighted sum of its components, and never above 23. |
| DatabaseExtractor.FirstHit | src/database_extractor.py:65-74 | The first table entry with a matching keyword, and no earlier entry matches. None iff no entry matches. |
| DatabaseExtractor.SearchInContent | src/database_extractor.py:59-76 | {} for non-strings. Otherwise at most one entry: the first database, in table order, with a matching keyword, mapped to the key. {} iff none matches. |
| DatabaseExtractor.SearchInContentKeys | src/database_extractor.py:72-73 | Every reported key is a database of the table, labelled with the given key. |
| DatabaseExtractor.SearchInLanguage | src/database_extractor.py:103-111 | Non-empty iff the language is a string that is an exact member of `db_languages`. It then maps the language to itself. |
| DatabaseExtractor.SearchInDescription | src/database_extractor.py:89-97 | Non-empty iff the description is a string with a matching keyword. It then maps exactly the first table entry with a matching keyword to `repo_description`. |
| DatabaseExtractor.SearchInTopicsAsWritten | src/database_extractor.py:79-87 | TypeError iff the topics are a non-empty list. Otherwise {}. |
| DatabaseExtractor.UnionOfKeys | src/database_extractor.py:84-85 | A key is in the merged dict iff some update held it, and its value comes from the last such update. |
| DatabaseExtractor.SearchInTopics | src/database_extractor.py:79-87 | The intended topic search: {} for a non-list. Otherwise a database is reported iff some topic finds it, always labelled `repo_topics`. |
| DatabaseExtractor.FileHit | src/database_extractor.py:124-135 | Content is scanned only for an object with `content` and base64 `encoding`, and then the result is the keyword search of the decoded text, labelled with the file name. An object with `content` and no `encoding` raises KeyError('encoding'), and with base64 `encoding` a decoder failure is raised as it is. A list holding "content", a string containing it, or a truthy number or boolean raises TypeError. No other answer raises: a list without "content" or a string not containing it contributes nothing. |
| DatabaseExtractor.FilesScan | src/database_extractor.py:118-136 | The file loop, which `SearchInFiles` (`_search_in_files`) runs over the fixed list of configuration files. Every value is a configuration file present in the repository. A failure comes from a present file, and with no present file the result is {}. |
| DatabaseExtractor.FilesScanIgnoresAbsent | src/database_extractor.py:118-124 | Answers for files the repository lacks cannot change the result. |
| DatabaseExtractor.FilesScanLastWins | src/database_extractor.py:129-131 | A database is labelled with the last present file that found it. |
| DatabaseExtractor.DetectDatabaseTypeAsWritten | src/database_extractor.py:143-154 | Raises iff the file search raises or the topics are a non-empty list, the latter with TypeError. |
| DatabaseExtractor.DetectDatabaseType | src/database_extractor.py:143-154 | The intended detection raises iff the file search does. Every key is a database language mapped to itself, or a table database labelled with a source. |
| DatabaseExtractor.DetectPrecedence | src/database_extractor.py:149-152 | Keys are the union of the four sources, and each is labelled by the latest source in the order files, topics, description, language. |
| DatabaseExtractor.TopicsUpdateRaises | src/database_extractor.py:85 | On a non-empty topic list the version as written raises and the intended one answers. Otherwise the two agree. |
| UserExtractor.Owner | src/user_extractor.py:21 | IndexError iff the address has no `/`. The owner contains no `/`. |
| UserExtractor.UserUrl | src/user_extractor.py:21-22 | `user_url` is the users prefix followed by a single segment. |
| UserExtractor.OwnerOfRepositoryUrl | src/user_extractor.py:21-22 | The owner of `<prefix>/<owner>/<repo>` is `owner`, whatever the prefix. |
| UserExtractor.OwnerAgreesWithRepoCoordinates | src/user_extractor.py:21 | The user extractor and the repository extractor read the same owner. |
| UserExtractor.Project | src/user_extractor.py:29-39 | The profile has exactly the nine columns, each copied from its API field, None when missing. |
| UserExtractor.UserProfile | src/user_extractor.py:24-47 | None iff the answer is falsy. A truthy non-object raises AttributeError on `get`. Otherwise the profile is the answer's projection (`Project`): exactly the nine columns, each holding `get` of its API field. |
| UserExtractor.GetUserProfile | src/user_extractor.py:24-28 | IndexError without a `/`. None when the profile request fails, and otherwise the profile of the answer at `user_url`. |
| UserExtractor.ProfileReadsOnlySourceFields | src/user_extractor.py:29-39 | Answers agreeing on the nine source fields give the same profile, and a missing field reads as None. |
| UserExtractor.RenamedColumns | src/user_extractor.py:34-38 | `repos_num`, `gists_num` and `last_user_commit` come from `public_repos`, `public_gists` and `updated_at`. The API names are not columns. |

## Left out

- Logging, progress bars, CSV files and the log-file path are left out: side effects with no bearing on the data. Rows are maps and files are sequences of rows.
- Loading `.env` is left out: the token is a parameter.
- The wall clock, the 403 wait time (floating point) and retry back-off delays are left out. Network-level exceptions are too, because the transport only ever returns a response here.
- The query parameters of `_get` are left out. The oracle is keyed by the address, or by the page for the two search loops.
- `urllib.parse.quote` in the contents walk is left out: paths are used as given.
- HTML parsing is left out: a README is its list of heading texts and a repository page is a `LinkPage` of hrefs and navigation-link texts. Base64/UTF-8 decoding (`decode`), the whole-word regular expression (`matches`) and the keyword table are parameters.
- `ast.literal_eval` of a textual file list is left out: the parsed list is given, and malformed text raising is not modelled.
- Search answers are typed (`SearchPage`), so a `KeyError` on a missing `total_count` or `items` is not modelled. Contributor logins are typed strings for the same reason.
- Python's `str.lower` is modelled on ASCII letters only. `str.strip` uses Python's whitespace set.
- GitHubApi.HandleApiErrors: `int()` on the reset header is modelled for ASCII digits with single underscores, a sign and surrounding whitespace; non-ASCII digits, which `int()` also accepts, are treated as not a literal, and CPython's limit on the digit count is not modelled.
- GitHubApi.AnsweredAttempt: the `Retry-After` header is a flag per attempt; a malformed header value, which urllib3 rejects with an exception, is not modelled, and neither are the back-off and `Retry-After` waits.
- The component oracles (`RepoApi` and the maps of the crawl loops) only answer a payload or None. The exceptions HandleApiErrors raises on a non-JSON 200 or a bad 403 reset header are not propagated into the extractors and loops.
- The typed answers (contents `Entry`, `Issue`, `PullRequest`, `Tag`, `Sbom`) always carry their fields, so the KeyError on a missing `item["type"]`, `item["name"]`, `item["path"]`, `issue["state"]`, `pull_request["merged_at"]`, `tag["name"]`, `data["sbom"]["packages"]` or `package["name"]` is not modelled. Neither is the TypeError when a contents answer is an object rather than a list.
- DataCollection.TopicsText: `", ".join` of a dict joins its string keys in insertion order; a decoded object here is an unordered map, so the model raises TypeError for it instead.
- Missing row columns are not modelled: the extractors' rows are typed records, so a `KeyError` on a row column cannot occur.
- In `_search_in_files`, a decoder error is carried as whatever exception `decode` reports.
- `src/utils.py` and `src/__init__.py` are not part of this model.
- GitHubApi.TransportStatus: states only that a final status is one the server gave; the attempt number is in AnsweredAttempt.
- ReposExtractor.WalkRequests: states only that the root comes first; which paths are requested is in WalkRequestsEnteredDirectories.
- DocAssessor.AssessDocumentation models the README fetch as intended: headings of the README file, keyed by file name. The fetch as written is stated separately (see Findings).

## Findings

| source | as written | input that shows it | evidently intended | confidence | as-written member | corrected member |
|---|---|---|---|---|---|---|
| src/data_collection.py:253 | The log line for a matching contributor reads `cont['repo_html_url']`, which contributor objects do not carry, so a match raises KeyError. | One contributor whose profile location is "Cairo, Egypt" | Append the login and return the matches | not executed | DataCollection.FilterPerContLoc, DataCollection.FilterMatchRaises | DataCollection.FilterEgyptianContributors |
| src/data_collection.py:191-226 | `page` is incremented but never stored back into `params`, so every request asks for the start page. | A first page [a, b] and a target of 3: rows a, b, a | Request the next page each round | not executed | DataCollection.ScrapeTopRepos, DataCollection.TopReposRepeatPage | DataCollection.TopCrawl, DataCollection.TopCrawlShape, DataCollection.TopCrawlRows, DataCollection.TopCrawlReadsNextPage |
| src/doc_assessor.py:61-68 | `urljoin` with an absolute path drops owner and repository from the README address, and `.content` is read from a decoded JSON value. | Any repository with a README file | Fetch the repository's README and scan its headings | not executed | DocAssessor.ReadmeUrlDropsRepository, DocAssessor.ReadmeFetchAsWritten | DocAssessor.CheckReadmeGuidelines |
| src/database_extractor.py:85 | `db_type.update(result, 'repo_topics')` passes two positional arguments, so `update` raises TypeError. | A row whose topics are the list ["mysql"] | Label topic hits with `repo_topics` | not executed | DatabaseExtractor.SearchInTopicsAsWritten, DatabaseExtractor.DetectDatabaseTypeAsWritten | DatabaseExtractor.SearchInTopics, DatabaseExtractor.TopicsUpdateRaises |
| src/repos_extractor.py:178-193 | The loop returns on the first filename in every branch, and compares a lowered name with "Jenkinsfile". | Filenames ["setup.py", ".travis.yml"], [".drone.yml", ".travis.yml"], or ["Jenkinsfile"] | Compare every filename in lower case, and report the first configuration present in the precedence order Travis, GitLab CI, Drone, CircleCI, GitHub Actions, Jenkins | not executed | ReposExtractor.CiTool, ReposExtractor.CiToolMissesLaterConfiguration | ReposExtractor.CiToolByPrecedence, ReposExtractor.PrecedenceOverFileOrder, ReposExtractor.JenkinsfileDetected |

=== FILE: data_collection.dfy ===
/** The collectors: the paginated user search, the per-user repository
    listing with its resume offset, the target-count repository search, and
    the contributor location filter.

    The search endpoint is an oracle: a finite map from page number to the
    payload a request for that page answers; a page missing from the map is
    a request whose `_get` answered None. The CSV sink is the sequence of
    rows written, in order. */
module DataCollection {

  import opened Wrappers
  import opened Text
  import opened Json
  import ReposExtractor
  import GitHubApi

  type Row = Object

  /** `per_page` of both search loops. */
  const PerPage: nat := 100

  /** `EGY_USERS_COLS` */
  const UserColumns: set<string> := {"login", "url"}

  /** `REPO_COLS` */
  const RepoColumns: set<string> :=
    {"login", "repo_name", "repo_html_url", "language", "topics",
     "repo_description", "open_issues_count", "forks_count",
     "stargazers_count", "last_repo_commit_date", "license"}

  /** The dict comprehension handed to `writerow`: the item's own fields,
      restricted to the sink's columns. */
  function Project(item: Object, columns: set<string>): (r: Row)
    ensures r.Keys == item.Keys * columns
    ensures forall k :: k in r ==> r[k] == item[k]
  {
    map k | k in item && k in columns :: item[k]
  }

  // ---------------------------------------------------------------------
  // User search (`scrap_egy_contributors`)

  /** A truthy search answer: the reported total and this page's items. */
  datatype SearchPage = SearchPage(totalCount: int, items: seq<Object>)

  /** The pages requested and the rows written. */
  datatype Crawl = Crawl(pages: seq<int>, rows: seq<Row>)

  /** The loop's ceiling as written: `total_count // per_page + 1`. Floor
      division by a positive divisor agrees with Dafny's `/`. */
  function MaxPage(total: int): int {
    total / PerPage + 1
  }

  function UserRows(items: seq<Object>): (r: seq<Row>)
    ensures |r| == |items|
    ensures forall i :: 0 <= i < |items| ==> r[i] == Project(items[i], UserColumns)
  {
    seq(|items|, i requires 0 <= i < |items| => Project(items[i], UserColumns))
  }

  /** Rows contributed by the requested pages, in request order; a page
      that answered None contributes none. */
  function RowsOf(answers: map<int, SearchPage>, pages: seq<int>): seq<Row> {
    if |pages| == 0 then []
    else
      (if pages[0] in answers then UserRows(answers[pages[0]].items) else [])
      + RowsOf(answers, pages[1..])
  }

  /** Pages at or after `page` that the oracle answers: a finite set that
      loses `page` each time the cursor advances past an answered page. */
  function AnsweredFrom(answers: map<int, SearchPage>, page: int): set<int> {
    set k | k in answers && k >= page
  }

  lemma AnsweredFromShrinks(answers: map<int, SearchPage>, page: int)
    requires page in answers
    ensures |AnsweredFrom(answers, page + 1)| < |AnsweredFrom(answers, page)|
  {
    assert AnsweredFrom(answers, page + 1) == AnsweredFrom(answers, page) - {page};
  }

  /** The user-search loop from cursor `page`: the pages it requests and
      the rows it writes, every row coming from an answered page it
      requested. */
  function UserCrawl(answers: map<int, SearchPage>, page: int): (c: Crawl)
    ensures |c.pages| >= 1 && c.pages[0] == page
    ensures c.rows == RowsOf(answers, c.pages)
    decreases |AnsweredFrom(answers, page)|
  {
    if page !in answers then
      Crawl([page], [])
    else
      var rows := UserRows(answers[page].items);
      if page + 1 > MaxPage(answers[page].totalCount) then
        assert RowsOf(answers, [page]) == rows + RowsOf(answers, []);
        Crawl([page], rows)
      else
        AnsweredFromShrinks(answers, page);
        var rest := UserCrawl(answers, page + 1);
        var pages := [page] + rest.pages;
        assert pages[0] == page && pages[1..] == rest.pages;
        assert RowsOf(answers, pages) == rows + RowsOf(answers, rest.pages);
        Crawl(pages, rows + rest.rows)
  }

  /** One round of the loop, unfolded. */
  lemma CrawlStep(answers: map<int, SearchPage>, page: int)
    ensures page !in answers ==> UserCrawl(answers, page) == Crawl([page], [])
    ensures page in answers && page + 1 > MaxPage(answers[page].totalCount) ==>
              UserCrawl(answers, page) == Crawl([page], UserRows(answers[page].items))
    ensures page in answers && page + 1 <= MaxPage(answers[page].totalCount) ==>
              var rest := UserCrawl(answers, page + 1);
              UserCrawl(answers, page)
                == Crawl([page] + rest.pages, UserRows(answers[page].items) + rest.rows)
  {
  }

  /** The cursor rises by exactly one per request; every request but the
      last was answered and left the cursor within the ceiling computed from
      its own total; the last request either answered None (ending the loop
      with no further writes) or pushed the cursor past the ceiling. */
  lemma {:induction false} UserCrawlCursor(answers: map<int, SearchPage>, page: int)
    ensures var c := UserCrawl(answers, page);
      && (forall i :: 0 <= i < |c.pages| ==> c.pages[i] == page + i)
      && (forall i :: 0 <= i < |c.pages| - 1 ==>
            c.pages[i] in answers && c.pages[i] + 1 <= MaxPage(answers[c.pages[i]].totalCount))
      && var last := c.pages[|c.pages| - 1];
         last !in answers || last + 1 > MaxPage(answers[last].totalCount)
    decreases |AnsweredFrom(answers, page)|
  {
    CrawlStep(answers, page);
    if page in answers && page + 1 <= MaxPage(answers[page].totalCount) {
      AnsweredFromShrinks(answers, page);
      UserCrawlCursor(answers, page + 1);
      var rest := UserCrawl(answers, page + 1);
      var c := UserCrawl(answers, page);
      assert c.pages == [page] + rest.pages;
      forall i | 0 <= i < |c.pages|
        ensures c.pages[i] == page + i
        ensures i < |c.pages| - 1 ==>
                  c.pages[i] in answers && c.pages[i] + 1 <= MaxPage(answers[c.pages[i]].totalCount)
      {
        if i > 0 {
          assert c.pages[i] == rest.pages[i - 1];
        }
      }
      assert c.pages[|c.pages| - 1] == rest.pages[|rest.pages| - 1];
    } else {
      assert UserCrawl(answers, page).pages == [page];
    }
  }

  /** Writing one page: each item's projection is appended, in order. */
  method WriteUserPage(rows: seq<Row>, items: seq<Object>) returns (written: seq<Row>)
    ensures written == rows + UserRows(items)
  {
    written := rows;
    var j := 0;
    while j < |items|
      invariant 0 <= j <= |items|
      invariant written == rows + UserRows(items[..j])
    {
      assert UserRows(items[..j + 1]) == UserRows(items[..j]) + [Project(items[j], UserColumns)];
      written := written + [Project(items[j], UserColumns)];
      j := j + 1;
    }
    assert items[..j] == items;
  }

  /** `scrap_egy_contributors`: the loop as the source writes it, one row per
      item, written as soon as it is read. */
  method ScrapeUsers(answers: map<int, SearchPage>, startPage: int)
    returns (pages: seq<int>, rows: seq<Row>)
    ensures Crawl(pages, rows) == UserCrawl(answers, startPage)
  {
    pages := [];
    rows := [];
    var page := startPage;
    while true
      invariant UserCrawl(answers, startPage)
             == Crawl(pages + UserCrawl(answers, page).pages, rows + UserCrawl(answers, page).rows)
      decreases |AnsweredFrom(answers, page)|
    {
      CrawlStep(answers, page);
      ghost var pages0, rows0 := pages, rows;
      pages := pages + [page];
      if page !in answers {
        return;
      }
      var response := answers[page];
      rows := WriteUserPage(rows, response.items);
      AnsweredFromShrinks(answers, page);
      page := page + 1;
      if page > MaxPage(response.totalCount) {
        return;
      }
      ghost var rest := UserCrawl(answers, page);
      Associative(pages0, [page - 1], rest.pages);
      Associative(rows0, UserRows(response.items), rest.rows);
    }
  }

  /** With every page up to the ceiling answering the same total `T`, the
      loop requests max(1, T // 100 + 2 - page) pages. */
  lemma {:induction false} FixedTotalPageCount(answers: map<int, SearchPage>, page: int, total: int)
    requires page in answers && answers[page].totalCount == total
    requires forall p :: page <= p <= MaxPage(total) ==> p in answers && answers[p].totalCount == total
    ensures |UserCrawl(answers, page).pages| ==
              (if page >= MaxPage(total) then 1 else total / PerPage + 2 - page)
    decreases MaxPage(total) - page
  {
    if page < MaxPage(total) {
      FixedTotalPageCount(answers, page + 1, total);
    }
  }

  /** Total 150 from page 1: two requests. Total 200 from page 1: three
      requests, one more than the two pages that hold items, because the
      ceiling is not a true ceiling. */
  lemma PageCountExamples(answers: map<int, SearchPage>)
    ensures (forall p :: 1 <= p <= 2 ==> p in answers && answers[p].totalCount == 150) ==>
              |UserCrawl(answers, 1).pages| == 2
    ensures (forall p :: 1 <= p <= 3 ==> p in answers && answers[p].totalCount == 200) ==>
              |UserCrawl(answers, 1).pages| == 3
  {
    if forall p :: 1 <= p <= 2 ==> p in answers && answers[p].totalCount == 150 {
      FixedTotalPageCount(answers, 1, 150);
    }
    if forall p :: 1 <= p <= 3 ==> p in answers && answers[p].totalCount == 200 {
      FixedTotalPageCount(answers, 1, 200);
    }
  }

  /** Items a complete search returns on page `p` (counted from 1). */
  function PageSize(total: int, p: int): int {
    var left := total - (p - 1) * PerPage;
    if left <= 0 then 0 else if left >= PerPage then PerPage else left
  }

  /** When every page up to the ceiling answers a fixed total and holds its
      full share of items, crawling from page 1 writes exactly `T` rows. */
  lemma {:induction false} CompleteSearchWritesTotal(answers: map<int, SearchPage>, page: int, total: int)
    requires total >= 0 && 1 <= page <= MaxPage(total)
    requires forall p :: page <= p <= MaxPage(total) ==>
               p in answers && answers[p].totalCount == total
               && |answers[p].items| == PageSize(total, p)
    ensures |UserCrawl(answers, page).rows| == total - (page - 1) * PerPage
    decreases MaxPage(total) - page
  {
    if page < MaxPage(total) {
      CompleteSearchWritesTotal(answers, page + 1, total);
      FullPageStep(answers, page, total);
    } else {
      LastPageRows(answers, page, total);
    }
  }

  /** A page below the ceiling holds a full page of items, and the crawl
      carries on to the next page. */
  lemma FullPageStep(answers: map<int, SearchPage>, page: int, total: int)
    requires total >= 0 && 1 <= page < MaxPage(total)
    requires page in answers && answers[page].totalCount == total
    requires |answers[page].items| == PageSize(total, page)
    ensures |UserCrawl(answers, page).rows|
            == PerPage + |UserCrawl(answers, page + 1).rows|
    ensures (page + 1 - 1) * PerPage == (page - 1) * PerPage + PerPage
  {
    var q := total / PerPage;
    assert q * PerPage <= total;
    PagesScale(page, q);
    assert |UserRows(answers[page].items)| == PerPage;
    CrawlStep(answers, page);
  }

  /** The page at the ceiling holds what is left of the total. */
  lemma LastPageRows(answers: map<int, SearchPage>, page: int, total: int)
    requires total >= 0 && page == MaxPage(total)
    requires page in answers && answers[page].totalCount == total
    requires |answers[page].items| == PageSize(total, page)
    ensures |UserCrawl(answers, page).rows| == total - (page - 1) * PerPage
  {
    var q := total / PerPage;
    assert q * PerPage <= total < q * PerPage + PerPage;
    assert page - 1 == q;
    CrawlStep(answers, page);
  }

  /** Whole pages before `page`, and before the next one. */
  lemma PagesScale(page: int, q: int)
    requires page <= q
    ensures (page - 1) * PerPage + PerPage <= q * PerPage
    ensures (page + 1 - 1) * PerPage == (page - 1) * PerPage + PerPage
  {
  }

  // ---------------------------------------------------------------------
  // Resuming the repository listing (`scrap_repos_file`, `from_row`)

  /** The number of leading rows `from_row` asks to skip: `range(from_row - 1)`
      when `from_row` is truthy, nothing when it is None or 0. A negative
      `from_row` makes the range empty. */
  function SkipCount(fromRow: Option<int>): nat {
    if fromRow.None? || fromRow.value <= 1 then 0 else fromRow.value - 1
  }

  /** Advancing the reader `from_row - 1` times with `next`; running out of
      rows raises StopIteration. */
  method SkipRows<T>(rows: seq<T>, fromRow: Option<int>) returns (r: Result<seq<T>>)
    ensures fromRow.None? || fromRow.value == 0 ==> r == Ok(rows)
    ensures r.Err? <==> SkipCount(fromRow) > |rows|
    ensures r.Err? ==> r.error == StopIteration
    ensures r.Ok? ==> |r.value| + SkipCount(fromRow) == |rows|
    ensures r.Ok? ==> forall i :: 0 <= i < |r.value| ==> r.value[i] == rows[SkipCount(fromRow) + i]
  {
    var reader := 0;
    if fromRow.Some? && fromRow.value != 0 {
      var n := fromRow.value - 1;
      var k := 0;
      while k < n
        invariant 0 <= k <= if n < 0 then 0 else n
        invariant reader == k <= |rows|
      {
        if reader == |rows| {
          return Err(StopIteration);
        }
        reader := reader + 1;
        k := k + 1;
      }
    }
    r := Ok(rows[reader..]);
  }

  // ---------------------------------------------------------------------
  // Repository rows

  /** `d[k]`, which raises KeyError for a missing key. */
  function Field(d: Object, k: string): (r: Result<Value>)
    ensures r.Ok? <==> k in d
    ensures r.Ok? ==> r.value == d[k]
    ensures r.Err? ==> r.error == KeyError(k)
  {
    if k in d then Ok(d[k]) else Err(KeyError(k))
  }

  /** The language column of the per-user listing: "Jupyter Notebook" is
      recorded as Python, anything else verbatim. */
  function ListingLanguage(v: Value): (r: Value)
    ensures v != Str("Jupyter Notebook") ==> r == v
    ensures r == Str("Python") <==> v == Str("Jupyter Notebook") || v == Str("Python")
  {
    if v == Str("Jupyter Notebook") then Str("Python") else v
  }

  const TopicSeparator := ", "

  /** `", ".join(v)`: a list of strings is joined, a string is joined
      character by character, anything else raises TypeError. */
  function TopicsText(v: Value): (r: Result<string>)
    ensures r.Ok? <==> (v.List? && forall i :: 0 <= i < |v.items| ==> v.items[i].Str?) || v.Str?
    ensures r.Err? ==> r.error.TypeError?
    ensures v == List([]) ==> r == Ok("")
  {
    match v
    case Str(s) =>
      Ok(JoinWith(seq(|s|, i requires 0 <= i < |s| => [s[i]]), TopicSeparator))
    case List(xs) =>
      if forall i :: 0 <= i < |xs| ==> xs[i].Str? then
        Ok(JoinWith(seq(|xs|, i requires 0 <= i < |xs| => xs[i].s), TopicSeparator))
      else
        Err(TypeError("sequence item: expected str instance"))
    case _ => Err(TypeError("can only join an iterable"))
  }

  /** Each topic after the first, as it reappears when the joined text is
      split on ',': preceded by the blank of the separator. */
  function Padded(topics: seq<string>): (r: seq<string>)
    ensures |r| == |topics|
  {
    seq(|topics|, i requires 0 <= i < |topics| => if i == 0 then topics[0] else " " + topics[i])
  }

  /** Text put in front of the first part ends up in front of the join. */
  lemma JoinPrefixFirst(c: string, x: string, xs: seq<string>, sep: string)
    ensures JoinWith([c + x] + xs, sep) == c + JoinWith([x] + xs, sep)
  {
    var a, b := [c + x] + xs, [x] + xs;
    assert a[1..] == xs && b[1..] == xs;
    if |xs| > 0 {
      assert JoinWith(a, sep) == c + x + sep + JoinWith(xs, sep);
      assert JoinWith(b, sep) == x + sep + JoinWith(xs, sep);
    }
  }

  lemma {:induction false} JoinWithBlank(topics: seq<string>)
    ensures JoinWith(topics, TopicSeparator) == JoinWith(Padded(topics), ",")
    decreases |topics|
  {
    if |topics| >= 2 {
      var rest := topics[1..];
      JoinWithBlank(rest);
      var p := Padded(topics);
      var q := Padded(rest);
      assert p[1..] == [" " + q[0]] + q[1..];
      assert q == [q[0]] + q[1..];
      JoinPrefixFirst(" ", q[0], q[1..], ",");
      assert JoinWith(p, ",") == p[0] + "," + JoinWith(p[1..], ",");
    }
  }

  /** Topics never hold a comma, so splitting the joined column on ',' gives
      the topics back, each but the first carrying the separator's blank. */
  lemma TopicsSplitBack(topics: seq<string>)
    requires |topics| >= 1
    requires forall i :: 0 <= i < |topics| ==> ',' !in topics[i]
    ensures Split(JoinWith(topics, TopicSeparator), ',') == Padded(topics)
  {
    JoinWithBlank(topics);
    var p := Padded(topics);
    forall i | 0 <= i < |p|
      ensures ',' !in p[i]
    {
      if i > 0 {
        assert p[i] == " " + topics[i];
      }
    }
    JoinThenSplit(p, ',');
  }

  /** The eleven `REPO_COLS` cells of one repository row. */
  function RepoRow(login: Value, name: Value, htmlUrl: Value, description: Value,
                   language: Value, topics: string, stars: Value, forks: Value,
                   issues: Value, updated: Value, license: Value): (r: Row)
    ensures r.Keys == RepoColumns
    ensures r["login"] == login && r["language"] == language
    ensures r["topics"] == Str(topics) && r["license"] == license
    ensures r["repo_name"] == name && r["repo_html_url"] == htmlUrl
    ensures r["repo_description"] == description && r["open_issues_count"] == issues
    ensures r["forks_count"] == forks && r["stargazers_count"] == stars
    ensures r["last_repo_commit_date"] == updated
  {
    map[
      "login" := login,
      "repo_name" := name,
      "repo_html_url" := htmlUrl,
      "repo_description" := description,
      "language" := language,
      "topics" := Str(topics),
      "stargazers_count" := stars,
      "forks_count" := forks,
      "open_issues_count" := issues,
      "last_repo_commit_date" := updated,
      "license" := license]
  }

  /** The columns copied from a repository payload hold the API fields
      `field` reads: `repo_name` from `name`, `repo_html_url` from
      `html_url`, `repo_description` from `description`, the three counts
      under their own names, and `last_repo_commit_date` from `updated_at`. */
  predicate RenamedFrom(r: Row, field: string -> Value) {
    && "repo_name" in r && r["repo_name"] == field("name")
    && "repo_html_url" in r && r["repo_html_url"] == field("html_url")
    && "repo_description" in r && r["repo_description"] == field("description")
    && "stargazers_count" in r && r["stargazers_count"] == field("stargazers_count")
    && "forks_count" in r && r["forks_count"] == field("forks_count")
    && "open_issues_count" in r && r["open_issues_count"] == field("open_issues_count")
    && "last_repo_commit_date" in r && r["last_repo_commit_date"] == field("updated_at")
  }

  /** API fields the per-user listing reads with `repo[k]` before the
      topics are joined, and after, in the order it reads them. */
  const ListingHead: seq<string> := ["name", "html_url", "description", "language", "topics"]
  const ListingTail: seq<string> :=
    ["stargazers_count", "forks_count", "open_issues_count", "updated_at"]

  /** Every API field the per-user listing reads with `repo[k]`. */
  const ListingFields: set<string> :=
    {"name", "html_url", "description", "language", "topics",
     "stargazers_count", "forks_count", "open_issues_count", "updated_at"}

  /** The two reading phases together read exactly `ListingFields`. */
  lemma ListingFieldsRead(repo: Object)
    ensures ListingFields <= repo.Keys <==>
              Require(repo, ListingHead).Ok? && Require(repo, ListingTail).Ok?
    ensures forall k :: k in ListingHead || k in ListingTail ==> k in ListingFields
  {
    assert forall k :: k in ListingFields ==> k in ListingHead || k in ListingTail;
  }

  /** Reading `keys` from `d` one after another with `d[k]`: the first
      absent key raises KeyError. */
  function Require(d: Object, keys: seq<string>): (r: Result<bool>)
    ensures r.Ok? <==> forall k :: k in keys ==> k in d
    ensures r.Err? ==> r.error.KeyError? && r.error.key in keys && r.error.key !in d
  {
    if |keys| == 0 then Ok(true)
    else if keys[0] !in d then Err(KeyError(keys[0]))
    else Require(d, keys[1..])
  }

  /** `repo["license"]["name"] if "license" in repo and repo["license"] else
      None`: a truthy licence that is not an object cannot be subscripted by
      a string (TypeError); an object without "name" raises KeyError. */
  function ListingLicense(repo: Object): (r: Result<Value>)
    ensures r.Ok? <==>
              ("license" in repo && Truthy(repo["license"]) ==>
                 repo["license"].Dict? && "name" in repo["license"].fields)
    ensures r.Ok? && "license" in repo && Truthy(repo["license"]) ==>
              r.value == repo["license"].fields["name"]
    ensures r.Ok? && !("license" in repo && Truthy(repo["license"])) ==> r.value == Null
  {
    if "license" in repo && Truthy(repo["license"]) then
      match repo["license"]
      case Dict(f) => Field(f, "name")
      case _ => Err(TypeError("string indices must be integers"))
    else
      Ok(Null)
  }

  /** The row `scrap_repos_file` builds for one repository of `login`. */
  function ListingRow(login: string, repo: Object): (r: Result<Row>)
    ensures r.Ok? <==> ListingFields <= repo.Keys && TopicsText(repo["topics"]).Ok?
                       && ListingLicense(repo).Ok?
    ensures r.Err? ==> r.error.TypeError? || r.error == KeyError("name")
                       || (r.error.KeyError? && r.error.key in ListingFields && r.error.key !in repo)
    ensures r.Ok? ==> r.value.Keys == RepoColumns
    ensures r.Ok? ==> r.value["login"] == Str(login)
    ensures r.Ok? ==> r.value["language"] == ListingLanguage(repo["language"])
    ensures r.Ok? ==> r.value["topics"] == Str(TopicsText(repo["topics"]).value)
    ensures r.Ok? ==> r.value["license"] == ListingLicense(repo).value
    ensures r.Ok? ==> RenamedFrom(r.value, k => Get(repo, k))
  {
    var head :- Require(repo, ListingHead);
    var topics :- TopicsText(repo["topics"]);
    var tail :- Require(repo, ListingTail);
    var license :- ListingLicense(repo);
    ListingFieldsRead(repo);
    Ok(ListingCells(login, repo, topics, license))
  }

  /** The row built from a listed repository once every field is read. */
  function ListingCells(login: string, repo: Object, topics: string, license: Value): (r: Row)
    requires ListingFields <= repo.Keys
    ensures r.Keys == RepoColumns
    ensures r["login"] == Str(login) && r["language"] == ListingLanguage(repo["language"])
    ensures r["topics"] == Str(topics) && r["license"] == license
    ensures RenamedFrom(r, k => Get(repo, k))
  {
    RepoRow(Str(login), repo["name"], repo["html_url"], repo["description"],
            ListingLanguage(repo["language"]), topics, repo["stargazers_count"],
            repo["forks_count"], repo["open_issues_count"], repo["updated_at"], license)
  }

  /** `item["owner"]["login"]`: an owner that is not an object cannot be
      subscripted by a string (TypeError). */
  function OwnerLogin(item: Object): (r: Result<Value>)
    ensures r.Ok? <==> "owner" in item && item["owner"].Dict? && "login" in item["owner"].fields
    ensures r.Ok? ==> r.value == item["owner"].fields["login"]
  {
    var owner :- Field(item, "owner");
    match owner
    case Dict(f) => Field(f, "login")
    case _ => Err(TypeError("string indices must be integers"))
  }

  /** `item.get("license", {}).get("name") if item.get("license") else None`:
      a truthy licence that is not an object has no `get` (AttributeError);
      an object without "name" gives None. */
  function SearchLicense(item: Object): (r: Result<Value>)
    ensures r.Ok? <==> (Truthy(Get(item, "license")) ==> item["license"].Dict?)
    ensures r.Ok? && Truthy(Get(item, "license")) ==> r.value == Get(item["license"].fields, "name")
    ensures r.Ok? && !Truthy(Get(item, "license")) ==> r.value == Null
  {
    if Truthy(Get(item, "license")) then
      match item["license"]
      case Dict(f) => Ok(Get(f, "name"))
      case _ => Err(AttributeError("get"))
    else
      Ok(Null)
  }

  /** The row `scrap_non_egy_repos` builds for one search item. Unlike the
      per-user listing it keeps the language verbatim, reads the optional
      fields with `get`, and treats missing topics as an empty list. */
  function SearchRow(item: Object): (r: Result<Row>)
    ensures r.Ok? <==> OwnerLogin(item).Ok? && "name" in item && "html_url" in item
                       && ("topics" in item ==> TopicsText(item["topics"]).Ok?)
                       && SearchLicense(item).Ok?
    ensures r.Ok? ==> r.value.Keys == RepoColumns
    ensures r.Ok? ==> r.value["login"] == OwnerLogin(item).value
    ensures r.Ok? ==> r.value["language"] == Get(item, "language")
    ensures r.Ok? ==>
              r.value["topics"] == Str(if "topics" in item then TopicsText(item["topics"]).value else "")
    ensures r.Ok? ==> r.value["license"] == SearchLicense(item).value
    ensures r.Ok? ==> RenamedFrom(r.value, k => Get(item, k))
  {
    var owner :- OwnerLogin(item);
    var name :- Field(item, "name");
    var htmlUrl :- Field(item, "html_url");
    var topics :- if "topics" in item then TopicsText(item["topics"]) else Ok("");
    var license :- SearchLicense(item);
    Ok(SearchCells(item, owner, topics, license))
  }

  /** The cells of a search row once owner, topics and licence are read;
      every other cell is the item's field under its `get` default. */
  function SearchCells(item: Object, owner: Value, topics: string, license: Value): (r: Row)
    ensures r.Keys == RepoColumns
    ensures r["login"] == owner && r["language"] == Get(item, "language")
    ensures r["topics"] == Str(topics) && r["license"] == license
    ensures RenamedFrom(r, k => Get(item, k))
  {
    RepoRow(owner, Get(item, "name"), Get(item, "html_url"), Get(item, "description"),
            Get(item, "language"), topics, Get(item, "stargazers_count"),
            Get(item, "forks_count"), Get(item, "open_issues_count"),
            Get(item, "updated_at"), license)
  }

  // ---------------------------------------------------------------------
  // Per-user listing (`scrap_repos_file`)

  /** A row of the users file. */
  datatype UserRecord = UserRecord(login: string, url: string)

  /** What a run leaves behind: the URLs it requested, the rows it wrote,
      and the exception that ended it, if any. */
  datatype Written = Written(requests: seq<string>, rows: seq<Row>, raised: Option<Exception>)

  /** Running `a`, then `b` unless `a` raised. */
  function Then(a: Written, b: Written): Written {
    if a.raised.Some? then a
    else Written(a.requests + b.requests, a.rows + b.rows, b.raised)
  }

  lemma ThenAssociative(a: Written, b: Written, c: Written)
    ensures Then(Then(a, b), c) == Then(a, Then(b, c))
  {
    if a.raised.None? && b.raised.None? {
      Associative(a.requests, b.requests, c.requests);
      Associative(a.rows, b.rows, c.rows);
    }
  }

  /** The enumerate index at which the loop stops early, once that user's
      listing was answered. */
  const ListingCap: nat := 50000

  /** `row['url'] + "/repos"` */
  function ReposUrl(u: UserRecord): string {
    u.url + "/repos"
  }

  /** Writing one row per payload, in order, stopping at the first payload
      whose row cannot be built. */
  function BuildRows(payloads: seq<Object>, build: Object -> Result<Row>): (w: Written)
    ensures w.requests == []
    ensures |w.rows| <= |payloads|
    ensures w.raised.None? <==> forall i :: 0 <= i < |payloads| ==> build(payloads[i]).Ok?
    ensures w.raised.None? ==> |w.rows| == |payloads|
    ensures forall i :: 0 <= i < |w.rows| ==> build(payloads[i]) == Ok(w.rows[i])
    ensures w.raised.Some? ==> build(payloads[|w.rows|]) == Err(w.raised.value)
  {
    if |payloads| == 0 then Written([], [], None)
    else
      match build(payloads[0])
      case Err(e) => Written([], [], Some(e))
      case Ok(row) =>
        var rest := BuildRows(payloads[1..], build);
        assert forall i :: 1 <= i < |payloads| ==> payloads[1..][i - 1] == payloads[i];
        Written([], [row] + rest.rows, rest.raised)
  }

  /** The rows of one user's repositories. */
  function RepoRows(login: string, repos: seq<Object>): Written {
    BuildRows(repos, repo => ListingRow(login, repo))
  }

  /** One user: the request, and the rows of the listing when it answered. */
  function UserRun(u: UserRecord, answers: map<string, seq<Object>>): Written {
    var url := ReposUrl(u);
    if url in answers then Then(Written([url], [], None), RepoRows(u.login, answers[url]))
    else Written([url], [], None)
  }

  /** The users in order, stopping at the first exception. */
  function ListingRun(users: seq<UserRecord>, answers: map<string, seq<Object>>): Written {
    if |users| == 0 then Written([], [], None)
    else Then(UserRun(users[0], answers), ListingRun(users[1..], answers))
  }

  /** How many users the loop reaches: all of them, unless the user at
      index 50000 was answered, which ends the loop after that user. */
  function ListingStop(users: seq<UserRecord>, answers: map<string, seq<Object>>): (n: nat)
    ensures n <= |users|
    ensures |users| > ListingCap && ReposUrl(users[ListingCap]) in answers ==> n == ListingCap + 1
    ensures n < |users| ==> n == ListingCap + 1 && ReposUrl(users[ListingCap]) in answers
  {
    if |users| > ListingCap && ReposUrl(users[ListingCap]) in answers then ListingCap + 1
    else |users|
  }

  lemma ListingStep(users: seq<UserRecord>, answers: map<string, seq<Object>>, i: nat, stop: nat)
    requires i < stop <= |users|
    ensures ListingRun(users[i..stop], answers)
         == Then(UserRun(users[i], answers), ListingRun(users[i + 1..stop], answers))
  {
    assert users[i..stop][1..] == users[i + 1..stop];
  }

  lemma ThenNothing(w: Written)
    ensures Then(w, Written([], [], None)) == Written(w.requests, w.rows, if w.raised.Some? then w.raised else None)
  {
    assert w.requests + [] == w.requests && w.rows + [] == w.rows;
  }

  /** The for-loop over the (already advanced) reader. */
  method ListRepos(users: seq<UserRecord>, answers: map<string, seq<Object>>)
    returns (w: Written)
    ensures w == ListingRun(users[..ListingStop(users, answers)], answers)
  {
    var stop := ListingStop(users, answers);
    ghost var target := ListingRun(users[..stop], answers);
    assert users[..stop] == users[0..stop];
    w := Written([], [], None);
    var i := 0;
    while i < |users|
      invariant i <= stop
      invariant i > ListingCap ==> stop == |users|
      invariant w.raised.None?
      invariant Then(w, ListingRun(users[i..stop], answers)) == target
    {
      ghost var w0 := w;
      ghost var later := ListingRun(users[i + 1..stop], answers);
      ListingStep(users, answers, i, stop);
      var url := ReposUrl(users[i]);
      var run := UserRun(users[i], answers);
      ThenAssociative(w0, run, later);
      w := Then(w, run);
      if w.raised.Some? {
        assert Then(run, later) == run;
        assert w == target;
        return;
      }
      if url in answers && i == ListingCap {
        assert i + 1 == stop;
        assert users[i + 1..stop] == [];
        ThenNothing(w);
        assert w == target;
        return;
      }
      i := i + 1;
    }
    assert users[i..stop] == [];
    ThenNothing(w);
    assert w == target;
  }

  /** `scrap_repos_file`: skip `from_row - 1` users, then list the rest. */
  method ScrapeReposFile(users: seq<UserRecord>, fromRow: Option<int>,
                         answers: map<string, seq<Object>>)
    returns (w: Written)
    ensures SkipCount(fromRow) > |users| ==> w == Written([], [], Some(StopIteration))
    ensures SkipCount(fromRow) <= |users| ==>
              var rest := users[SkipCount(fromRow)..];
              w == ListingRun(rest[..ListingStop(rest, answers)], answers)
  {
    var skipped := SkipRows(users, fromRow);
    if skipped.Err? {
      return Written([], [], Some(skipped.error));
    }
    assert skipped.value == users[SkipCount(fromRow)..];
    w := ListRepos(skipped.value, answers);
  }

  /** A listing row: exactly the `REPO_COLS` columns, a language other
      than "Jupyter Notebook" and the login of one of `users`. */
  predicate ListedRow(row: Row, users: seq<UserRecord>) {
    && row.Keys == RepoColumns
    && "language" in row && row["language"] != Str("Jupyter Notebook")
    && exists j :: 0 <= j < |users| && row["login"] == Str(users[j].login)
  }

  /** The users' listings are requested one by one, in order, and all of
      them unless one raised. */
  lemma {:induction false} ListingRunRequests(users: seq<UserRecord>, answers: map<string, seq<Object>>)
    ensures var w := ListingRun(users, answers);
      && |w.requests| <= |users|
      && (w.raised.None? ==> |w.requests| == |users|)
      && (forall k :: 0 <= k < |w.requests| ==> w.requests[k] == ReposUrl(users[k]))
    decreases |users|
  {
    if |users| > 0 {
      ListingRunRequests(users[1..], answers);
      var rest := ListingRun(users[1..], answers);
      var mine := UserRun(users[0], answers);
      UserRunShape(users[0], answers);
      assert ListingRun(users, answers) == Then(mine, rest);
      forall k | 1 <= k < |rest.requests| + 1
        ensures ReposUrl(users[1..][k - 1]) == ReposUrl(users[k])
      {
      }
    }
  }

  /** Every listing row carries exactly the `REPO_COLS` columns, belongs to
      one of the users listed, and never records "Jupyter Notebook" as its
      language. */
  lemma {:induction false} ListingRunRows(users: seq<UserRecord>, answers: map<string, seq<Object>>)
    ensures forall row :: row in ListingRun(users, answers).rows ==> ListedRow(row, users)
    decreases |users|
  {
    if |users| > 0 {
      var u := users[0];
      ListingRunRows(users[1..], answers);
      var rest := ListingRun(users[1..], answers);
      assert forall row :: row in rest.rows ==> ListedRow(row, users[1..]);
      var mine := UserRun(u, answers);
      UserRunShape(u, answers);
      assert ListingRun(users, answers) == Then(mine, rest);
      forall row | row in mine.rows
        ensures ListedRow(row, users)
      {
        assert users[0] == u;
      }
      forall row | row in rest.rows
        ensures ListedRow(row, users)
      {
        ListedRowWiden(row, users);
      }
    }
  }

  /** A row of a later user is a row of the whole list. */
  lemma ListedRowWiden(row: Row, users: seq<UserRecord>)
    requires |users| > 0 && ListedRow(row, users[1..])
    ensures ListedRow(row, users)
  {
    var j :| 0 <= j < |users[1..]| && row["login"] == Str(users[1..][j].login);
    assert users[1..][j] == users[j + 1];
  }

  /** One user's run requests that user's repositories once and writes rows
      of that user only. */
  lemma UserRunShape(u: UserRecord, answers: map<string, seq<Object>>)
    ensures var w := UserRun(u, answers);
      && w.requests == [ReposUrl(u)]
      && forall i :: 0 <= i < |w.rows| ==>
           && w.rows[i].Keys == RepoColumns
           && w.rows[i]["language"] != Str("Jupyter Notebook")
           && w.rows[i]["login"] == Str(u.login)
  {
    var url := ReposUrl(u);
    if url in answers {
      var w := RepoRows(u.login, answers[url]);
      assert w.requests == [];
      assert UserRun(u, answers) == Written([url], w.rows, w.raised);
      forall i | 0 <= i < |w.rows|
        ensures w.rows[i].Keys == RepoColumns
        ensures w.rows[i]["language"] != Str("Jupyter Notebook")
        ensures w.rows[i]["login"] == Str(u.login)
      {
        ListingRowShape(u.login, answers[url][i], w.rows[i]);
      }
    }
  }

  lemma ListingRowShape(login: string, repo: Object, row: Row)
    requires ListingRow(login, repo) == Ok(row)
    ensures row.Keys == RepoColumns
    ensures row["language"] != Str("Jupyter Notebook")
    ensures row["login"] == Str(login)
  {
  }

  // ---------------------------------------------------------------------
  // Top repositories (`scrap_non_egy_repos`)

  /** The rows of a run that cycles through one page's items: the first
      round holds the items' rows in order, and every later row repeats the
      row one page earlier. Every request carries the same parameters, so
      every round reads the same page. */
  predicate CycledRows(items: seq<Object>, rows: seq<Row>, build: Object -> Result<Row>) {
    && (forall i :: 0 <= i < |rows| && i < |items| ==> build(items[i]) == Ok(rows[i]))
    && (forall i :: |items| <= i < |rows| ==> rows[i] == rows[i - |items|])
  }

  /** The last `|items|` rows are the page's items, in order. */
  predicate EndsWithRound(items: seq<Object>, rows: seq<Row>, build: Object -> Result<Row>) {
    |items| <= |rows|
    && forall j :: 0 <= j < |items| ==> build(items[j]) == Ok(rows[|rows| - |items| + j])
  }

  /** The inner `for item in response["items"]` loop: write rows until the
      target is met or the page is exhausted. */
  method WriteRound(items: seq<Object>, rows0: seq<Row>, totalCount: int, build: Object -> Result<Row>)
    returns (rows: seq<Row>, raised: Option<Exception>)
    requires |items| > 0 && |rows0| < totalCount
    requires CycledRows(items, rows0, build) && (|rows0| == 0 || EndsWithRound(items, rows0, build))
    ensures |rows0| <= |rows| <= totalCount && rows[..|rows0|] == rows0
    ensures CycledRows(items, rows, build)
    ensures raised.None? && |rows| < totalCount ==> |rows| == |rows0| + |items| && EndsWithRound(items, rows, build)
    ensures raised.Some? ==>
              |rows0| == 0 && |rows| < |items| && build(items[|rows|]) == Err(raised.value)
  {
    var added: seq<Row> := [];
    raised := None;
    var j := 0;
    while j < |items|
      invariant 0 <= j <= |items| && |added| == j && |rows0| + j < totalCount
      invariant forall k :: 0 <= k < j ==> build(items[k]) == Ok(added[k])
    {
      if |rows0| > 0 {
        assert build(items[j]) == Ok(rows0[|rows0| - |items| + j]);
      }
      var row := build(items[j]);
      if row.Err? {
        assert |rows0| == 0;
        RoundKeepsCycle(items, rows0, added, build);
        rows := rows0 + added;
        assert rows == added && |rows| == j;
        raised := Some(row.error);
        return;
      }
      ghost var prev := added;
      added := added + [row.value];
      assert forall k :: 0 <= k < j ==> added[k] == prev[k];
      if |rows0| + |added| >= totalCount {
        RoundKeepsCycle(items, rows0, added, build);
        rows := rows0 + added;
        return;
      }
      j := j + 1;
    }
    RoundKeepsCycle(items, rows0, added, build);
    rows := rows0 + added;
  }

  /** Rows written in item order after a run of whole rounds keep cycling. */
  lemma RoundKeepsCycle(items: seq<Object>, rows0: seq<Row>, added: seq<Row>, build: Object -> Result<Row>)
    requires |added| <= |items|
    requires CycledRows(items, rows0, build) && (|rows0| == 0 || EndsWithRound(items, rows0, build))
    requires forall k :: 0 <= k < |added| ==> build(items[k]) == Ok(added[k])
    ensures CycledRows(items, rows0 + added, build)
    ensures (rows0 + added)[..|rows0|] == rows0
    ensures |added| == |items| ==> EndsWithRound(items, rows0 + added, build)
  {
    RoundAppends(items, rows0, added, build);
    var r := rows0 + added;
    forall i | 0 <= i < |r| && i < |items|
      ensures build(items[i]) == Ok(r[i])
    {
      if i < |rows0| {
        assert r[i] == rows0[i];
      } else {
        assert r[i] == added[i - |rows0|];
      }
    }
    forall i | |items| <= i < |r|
      ensures r[i] == r[i - |items|]
    {
      if i >= |rows0| {
        var k := i - |rows0|;
        assert r[i] == added[k];
        assert build(items[k]) == Ok(rows0[|rows0| - |items| + k]);
      } else {
        assert r[i] == rows0[i] && r[i - |items|] == rows0[i - |items|];
      }
    }
  }

  /** Appending a round keeps the earlier rows as a prefix, and a full
      round ends the rows. */
  lemma RoundAppends(items: seq<Object>, rows0: seq<Row>, added: seq<Row>, build: Object -> Result<Row>)
    requires |added| <= |items|
    requires forall k :: 0 <= k < |added| ==> build(items[k]) == Ok(added[k])
    ensures (rows0 + added)[..|rows0|] == rows0
    ensures |added| == |items| ==> EndsWithRound(items, rows0 + added, build)
  {
    var r := rows0 + added;
    assert r[..|rows0|] == rows0;
    if |added| == |items| {
      assert forall k :: 0 <= k < |items| ==> r[|r| - |items| + k] == added[k];
    }
  }

  /** `scrap_non_egy_repos`. The search answer is requested with the same
      parameters every round (the page counter is never written back), so
      the oracle answers every request alike. A round whose page holds no
      items writes nothing and leaves the state as it found it, so the loop
      would repeat it forever: `diverges` reports that case in place of the
      endless run. */
  method ScrapeTopRepos(answer: Option<SearchPage>, startPage: int, totalCount: int)
    returns (requests: seq<int>, rows: seq<Row>, raised: Option<Exception>, diverges: bool)
    ensures forall k :: 0 <= k < |requests| ==> requests[k] == startPage
    ensures |requests| > 0 <==> totalCount > 0
    ensures |rows| <= if totalCount < 0 then 0 else totalCount
    ensures diverges <==> totalCount > 0 && answer.Some? && |answer.value.items| == 0
    ensures answer.None? ==> rows == [] && raised.None?
    ensures answer.Some? ==> CycledRows(answer.value.items, rows, SearchRow)
    ensures raised.Some? ==>
              answer.Some? && |rows| < |answer.value.items|
              && SearchRow(answer.value.items[|rows|]) == Err(raised.value)
    ensures answer.Some? && raised.None? && !diverges && totalCount > 0 ==> |rows| == totalCount
  {
    requests := [];
    rows := [];
    raised := None;
    diverges := false;
    var page := startPage;
    while |rows| < totalCount
      invariant |requests| > 0 ==> totalCount > 0
      invariant forall k :: 0 <= k < |requests| ==> requests[k] == startPage
      invariant raised.None? && !diverges
      invariant answer.None? ==> requests == [] && rows == []
      invariant answer.Some? ==> CycledRows(answer.value.items, rows, SearchRow)
      invariant answer.Some? && |answer.value.items| > 0 && |rows| < totalCount ==>
                  |rows| == 0 || EndsWithRound(answer.value.items, rows, SearchRow)
      invariant |rows| > 0 ==> |requests| > 0
      invariant answer.Some? && |answer.value.items| == 0 ==> rows == [] && requests == []
      invariant |rows| <= if totalCount < 0 then 0 else totalCount
      decreases totalCount - |rows|
    {
      requests := requests + [startPage];
      if answer.None? {
        return;
      }
      var items := answer.value.items;
      if |items| == 0 {
        diverges := true;
        return;
      }
      rows, raised := WriteRound(items, rows, totalCount, SearchRow);
      if raised.Some? {
        return;
      }
      page := page + 1;
    }
  }

  /** With a page of two items and a target of three, the third row
      written repeats the first: the page is read a second time. */
  lemma TopReposRepeatPage(items: seq<Object>, rows: seq<Row>)
    requires |items| == 2 && |rows| == 3
    requires CycledRows(items, rows, SearchRow)
    ensures SearchRow(items[0]) == Ok(rows[0]) && SearchRow(items[1]) == Ok(rows[1])
    ensures rows[2] == rows[0]
  {
  }

  /** The pages a repository search requested, the rows it wrote, and the
      exception that ended it, if any. */
  datatype TopRun = TopRun(pages: seq<int>, rows: seq<Row>, raised: Option<Exception>)

  /** The items a round reads from a page: all of them, or the first
      `need` when the page holds more. */
  function Take(items: seq<Object>, need: int): (t: seq<Object>)
    requires need > 0
    ensures |t| == if |items| <= need then |items| else need
    ensures t == items[..|t|]
  {
    if |items| <= need then items else items[..need]
  }

  /** The repository search as evidently intended, with `build` the row
      builder (`SearchRow`): each round requests the next page and writes
      its items until `need` rows are written; the loop ends on a falsy
      answer, on an exception, or at the target. Its shape is stated by
      `TopCrawlShape` and its rows by `TopCrawlRows`. */
  function TopCrawl(answers: map<int, SearchPage>, page: int, need: int, build: Object -> Result<Row>): TopRun
    decreases |AnsweredFrom(answers, page)|
  {
    if need <= 0 then TopRun([], [], None)
    else if page !in answers then TopRun([page], [], None)
    else
      var round := BuildRows(Take(answers[page].items, need), build);
      if round.raised.Some? then TopRun([page], round.rows, round.raised)
      else
        AnsweredFromShrinks(answers, page);
        var rest := TopCrawl(answers, page + 1, need - |round.rows|, build);
        TopRun([page] + rest.pages, round.rows + rest.rows, rest.raised)
  }

  /** The shape of a search run from `page`: at most `need` rows, no page
      requested iff the target is not positive, consecutive pages from
      `page`, and a stop short of the target with nothing raised only at an
      unanswered page. */
  predicate Shaped(w: TopRun, answers: map<int, SearchPage>, page: int, need: int) {
    && |w.rows| <= (if need < 0 then 0 else need)
    && (w.pages == [] <==> need <= 0)
    && (need <= 0 ==> w == TopRun([], [], None))
    && (w.raised.None? && |w.pages| > 0 && |w.rows| < need ==> page + |w.pages| - 1 !in answers)
    && (forall i :: 0 <= i < |w.pages| ==> w.pages[i] == page + i)
  }

  /** Every run of the intended search is shaped. */
  lemma {:induction false} TopCrawlShape(answers: map<int, SearchPage>, page: int, need: int,
                                         build: Object -> Result<Row>)
    ensures Shaped(TopCrawl(answers, page, need, build), answers, page, need)
    decreases |AnsweredFrom(answers, page)|, 1
  {
    if need > 0 && page in answers && BuildRows(Take(answers[page].items, need), build).raised.None? {
      TopCrawlShapeStep(answers, page, need, build);
    } else {
      TopCrawlShapeStop(answers, page, need, build);
    }
  }

  /** A round that writes all it reads continues with a shaped run. */
  lemma {:induction false} TopCrawlShapeStep(answers: map<int, SearchPage>, page: int, need: int,
                                             build: Object -> Result<Row>)
    requires need > 0 && page in answers
    requires BuildRows(Take(answers[page].items, need), build).raised.None?
    ensures Shaped(TopCrawl(answers, page, need, build), answers, page, need)
    decreases |AnsweredFrom(answers, page)|, 0
  {
    var round := BuildRows(Take(answers[page].items, need), build);
    AnsweredFromShrinks(answers, page);
    var rest := TopCrawl(answers, page + 1, need - |round.rows|, build);
    TopCrawlShape(answers, page + 1, need - |round.rows|, build);
    TopCrawlUnfold(answers, page, need, build);
    ShapedCons(rest, round.rows, answers, page, need);
  }

  /** A round of rows within the target, followed by a shaped run from the
      next page, is shaped. */
  lemma ShapedCons(rest: TopRun, rows: seq<Row>, answers: map<int, SearchPage>, page: int, need: int)
    requires need > 0 && |rows| <= need
    requires Shaped(rest, answers, page + 1, need - |rows|)
    ensures Shaped(TopRun([page] + rest.pages, rows + rest.rows, rest.raised), answers, page, need)
  {
    var pages := [page] + rest.pages;
    forall i | 1 <= i < |pages|
      ensures pages[i] == page + i
    {
      assert pages[i] == rest.pages[i - 1];
    }
  }

  /** The runs that end after at most one page are shaped. */
  lemma TopCrawlShapeStop(answers: map<int, SearchPage>, page: int, need: int, build: Object -> Result<Row>)
    requires !(need > 0 && page in answers && BuildRows(Take(answers[page].items, need), build).raised.None?)
    ensures Shaped(TopCrawl(answers, page, need, build), answers, page, need)
  {
    var w := TopCrawl(answers, page, need, build);
    if need <= 0 {
      assert w == TopRun([], [], None);
    } else if page !in answers {
      assert w == TopRun([page], [], None);
    } else {
      var round := BuildRows(Take(answers[page].items, need), build);
      assert w == TopRun([page], round.rows, round.raised);
    }
  }

  /** The rows of the intended search are the built items of the requested
      pages, in page order, cut at the target or at the failing item. */
  lemma {:induction false} TopCrawlRows(answers: map<int, SearchPage>, page: int, need: int,
                                        build: Object -> Result<Row>)
    ensures var w := TopCrawl(answers, page, need, build);
            RowsOfItems(ItemsOf(answers, w.pages), w.rows, w.raised, need, build)
    decreases |AnsweredFrom(answers, page)|, 1
  {
    if need > 0 && page in answers {
      if BuildRows(Take(answers[page].items, need), build).raised.None? {
        TopCrawlStep(answers, page, need, build);
      } else {
        TopCrawlRaised(answers, page, need, build);
      }
    } else if need > 0 {
      assert TopCrawl(answers, page, need, build) == TopRun([page], [], None);
      ItemsOfCons(answers, page, []);
    }
  }

  /** A round that writes all it reads, followed by the rest of the search. */
  lemma {:induction false} TopCrawlStep(answers: map<int, SearchPage>, page: int, need: int,
                                        build: Object -> Result<Row>)
    requires need > 0 && page in answers
    requires BuildRows(Take(answers[page].items, need), build).raised.None?
    ensures var w := TopCrawl(answers, page, need, build);
            RowsOfItems(ItemsOf(answers, w.pages), w.rows, w.raised, need, build)
    decreases |AnsweredFrom(answers, page)|, 0
  {
    var taken := Take(answers[page].items, need);
    var round := BuildRows(taken, build);
    AnsweredFromShrinks(answers, page);
    var rest := TopCrawl(answers, page + 1, need - |round.rows|, build);
    TopCrawlRows(answers, page + 1, need - |round.rows|, build);
    TopCrawlUnfold(answers, page, need, build);
    RowsCons(answers, page, taken, round, need, rest, build);
  }

  /** The rows of a round that wrote all it read, followed by the rows of
      the rest of the search, are the rows of the pages requested. */
  lemma RowsCons(answers: map<int, SearchPage>, page: int, taken: seq<Object>, round: Written, need: int,
                 rest: TopRun, build: Object -> Result<Row>)
    requires page in answers && need > 0 && taken == Take(answers[page].items, need)
    requires round == BuildRows(taken, build) && round.raised.None?
    requires need - |round.rows| <= 0 ==> rest == TopRun([], [], None)
    requires RowsOfItems(ItemsOf(answers, rest.pages), rest.rows, rest.raised, need - |round.rows|, build)
    ensures RowsOfItems(ItemsOf(answers, [page] + rest.pages), round.rows + rest.rows, rest.raised, need, build)
  {
    ItemsOfCons(answers, page, rest.pages);
    TopCrawlRound(answers[page].items, taken, round, need, rest, ItemsOf(answers, rest.pages), build);
  }

  /** One unfolding of the search past a round that wrote all it read. */
  lemma TopCrawlUnfold(answers: map<int, SearchPage>, page: int, need: int, build: Object -> Result<Row>)
    requires need > 0 && page in answers
    requires BuildRows(Take(answers[page].items, need), build).raised.None?
    ensures var round := BuildRows(Take(answers[page].items, need), build);
            var rest := TopCrawl(answers, page + 1, need - |round.rows|, build);
            && TopCrawl(answers, page, need, build)
               == TopRun([page] + rest.pages, round.rows + rest.rows, rest.raised)
            && (need - |round.rows| <= 0 ==> rest == TopRun([], [], None))
  {
  }

  /** A round whose row builder raised ends the search on that page. */
  lemma TopCrawlRaised(answers: map<int, SearchPage>, page: int, need: int, build: Object -> Result<Row>)
    requires need > 0 && page in answers
    requires BuildRows(Take(answers[page].items, need), build).raised.Some?
    ensures var w := TopCrawl(answers, page, need, build);
            RowsOfItems(ItemsOf(answers, w.pages), w.rows, w.raised, need, build)
  {
    var items := answers[page].items;
    var taken := Take(items, need);
    var round := BuildRows(taken, build);
    assert TopCrawl(answers, page, need, build) == TopRun([page], round.rows, round.raised);
    ItemsOfCons(answers, page, []);
    BuiltPrefix(taken, items, round.rows, build);
    assert items[|round.rows|] == taken[|round.rows|];
  }

  /** The items of the answered pages among `pages`, in page order; an
      unanswered page contributes none. */
  function ItemsOf(answers: map<int, SearchPage>, pages: seq<int>): seq<Object> {
    if |pages| == 0 then []
    else (if pages[0] in answers then answers[pages[0]].items else []) + ItemsOf(answers, pages[1..])
  }

  /** `rows` are the rows built from the first `|rows|` of `xs`, in order. */
  predicate Built(xs: seq<Object>, rows: seq<Row>, build: Object -> Result<Row>) {
    |rows| <= |xs| && forall i :: 0 <= i < |rows| ==> build(xs[i]) == Ok(rows[i])
  }

  /** `rows` are the rows of the items `xs` read, in order: all of them up
      to the target `need` when nothing raised, or up to the item whose row
      raised `raised`. */
  predicate RowsOfItems(xs: seq<Object>, rows: seq<Row>, raised: Option<Exception>, need: int,
                        build: Object -> Result<Row>) {
    && Built(xs, rows, build)
    && (raised.None? && need > 0 ==> |rows| == if |xs| < need then |xs| else need)
    && (raised.Some? ==> |rows| < |xs| && build(xs[|rows|]) == Err(raised.value))
  }

  /** One answered page followed by the rest of the search. */
  lemma TopCrawlRound(items: seq<Object>, taken: seq<Object>, round: Written, need: int,
                      rest: TopRun, ys: seq<Object>, build: Object -> Result<Row>)
    requires need > 0 && taken == Take(items, need)
    requires round == BuildRows(taken, build) && round.raised.None?
    requires need - |taken| <= 0 ==> rest == TopRun([], [], None) && ys == []
    requires RowsOfItems(ys, rest.rows, rest.raised, need - |taken|, build)
    ensures RowsOfItems(items + ys, round.rows + rest.rows, rest.raised, need, build)
  {
    if |items| <= need {
      BuiltConcat(items, round.rows, ys, rest.rows, build);
      if rest.raised.Some? {
        assert (items + ys)[|round.rows| + |rest.rows|] == ys[|rest.rows|];
      }
    } else {
      assert round.rows + rest.rows == round.rows && items + ys == items;
      BuiltPrefix(taken, items, round.rows, build);
    }
  }

  /** Rows built from two runs of items, the first complete, are built from
      the items joined. */
  lemma BuiltConcat(a: seq<Object>, ra: seq<Row>, b: seq<Object>, rb: seq<Row>, build: Object -> Result<Row>)
    requires Built(a, ra, build) && |ra| == |a| && Built(b, rb, build)
    ensures Built(a + b, ra + rb, build)
  {
    forall i | 0 <= i < |ra + rb|
      ensures build((a + b)[i]) == Ok((ra + rb)[i])
    {
      if i >= |ra| {
        assert (a + b)[i] == b[i - |a|] && (ra + rb)[i] == rb[i - |ra|];
      }
    }
  }

  /** Rows built from a prefix of `xs` are built from `xs`. */
  lemma BuiltPrefix(a: seq<Object>, xs: seq<Object>, rows: seq<Row>, build: Object -> Result<Row>)
    requires |a| <= |xs| && a == xs[..|a|] && Built(a, rows, build)
    ensures Built(xs, rows, build)
  {
    assert forall i :: 0 <= i < |rows| ==> xs[i] == a[i];
  }

  lemma ItemsOfCons(answers: map<int, SearchPage>, page: int, pages: seq<int>)
    ensures ItemsOf(answers, [page] + pages)
         == (if page in answers then answers[page].items else []) + ItemsOf(answers, pages)
  {
    assert ([page] + pages)[1..] == pages;
  }

  /** Two pages [a, b] and [c] with a target of three: the intended search
      writes the rows of a, b and c, where the search as written writes
      those of a, b and a again. */
  lemma TopCrawlReadsNextPage(a: Object, b: Object, c: Object, total: int)
    requires SearchRow(a).Ok? && SearchRow(b).Ok? && SearchRow(c).Ok?
    ensures var answers := map[1 := SearchPage(total, [a, b]), 2 := SearchPage(total, [c])];
            TopCrawl(answers, 1, 3, SearchRow).rows == [SearchRow(a).value, SearchRow(b).value, SearchRow(c).value]
  {
    TwoPagesInOrder(a, b, c, total, SearchRow);
  }

  lemma TwoPagesInOrder(a: Object, b: Object, c: Object, total: int, build: Object -> Result<Row>)
    requires build(a).Ok? && build(b).Ok? && build(c).Ok?
    ensures var answers := map[1 := SearchPage(total, [a, b]), 2 := SearchPage(total, [c])];
            TopCrawl(answers, 1, 3, build).rows == [build(a).value, build(b).value, build(c).value]
  {
    var answers := map[1 := SearchPage(total, [a, b]), 2 := SearchPage(total, [c])];
    assert [a, b][1..] == [b] && [b][1..] == [];
    var first := BuildRows([a, b], build);
    assert first.rows == [build(a).value, build(b).value] && first.raised.None?;
    assert [c][1..] == [];
    var second := BuildRows([c], build);
    assert second.rows == [build(c).value] && second.raised.None?;
    AnsweredFromShrinks(answers, 1);
    AnsweredFromShrinks(answers, 2);
    var third := TopCrawl(answers, 3, 0, build);
    assert third.rows == [];
    var mid := TopCrawl(answers, 2, 1, build);
    assert mid.rows == second.rows + third.rows;
    assert TopCrawl(answers, 1, 3, build).rows == first.rows + mid.rows;
  }

  // ---------------------------------------------------------------------
  // Contributor location filter (`filter_per_cont_loc`)

  /** A contributor entry: its login and whatever other fields it carries. */
  datatype Contributor = Contributor(login: string, fields: Object)

  function ProfileUrl(login: string): string {
    GitHubApi.ApiUsers + login
  }

  /** `location and 'egypt' in location.lower()` for
      `location = profile.get('location', '')`: a falsy location is no match,
      a truthy one that is not a string has no `lower` (AttributeError). */
  function LocationMatches(profile: Object): (r: Result<bool>)
    ensures r == Ok(true) <==>
              "location" in profile && profile["location"].Str?
              && Contains(Lower(profile["location"].s), "egypt")
    ensures r.Err? <==> Truthy(Get(profile, "location")) && !profile["location"].Str?
    ensures r.Err? ==> r.error == AttributeError("lower")
  {
    var location := Get(profile, "location");
    if !Truthy(location) then
      assert location.Str? ==> location.s == "" && !Contains(Lower(location.s), "egypt");
      Ok(false)
    else if location.Str? then Ok(Contains(Lower(location.s), "egypt"))
    else Err(AttributeError("lower"))
  }

  /** A contributor whose profile was answered and whose location matches. */
  predicate Egyptian(c: Contributor, profiles: map<string, Object>) {
    ProfileUrl(c.login) in profiles && LocationMatches(profiles[ProfileUrl(c.login)]) == Ok(true)
  }

  /** The exception the profile checks raise for one contributor, if any:
      a profile answered None has no `get`. */
  function ProfileFailure(c: Contributor, profiles: map<string, Object>): (r: Option<Exception>)
    ensures r.Some? ==> r.value.AttributeError?
    ensures ProfileUrl(c.login) !in profiles ==> r == Some(AttributeError("get"))
    ensures ProfileUrl(c.login) in profiles ==>
              (r.None? <==> !Truthy(Get(profiles[ProfileUrl(c.login)], "location"))
                            || profiles[ProfileUrl(c.login)]["location"].Str?)
  {
    var url := ProfileUrl(c.login);
    if url !in profiles then Some(AttributeError("get"))
    else match LocationMatches(profiles[url])
      case Err(e) => Some(e)
      case Ok(_) => None
  }

  /** The logins that match, in contributor order: what the filter is meant
      to return. */
  function EgyptianLogins(cs: seq<Contributor>, profiles: map<string, Object>): (r: seq<string>)
    ensures |r| <= |cs|
    ensures forall x :: x in r <==> exists i :: 0 <= i < |cs| && cs[i].login == x && Egyptian(cs[i], profiles)
  {
    if |cs| == 0 then []
    else
      var rest := EgyptianLogins(cs[1..], profiles);
      assert forall i :: 1 <= i < |cs| ==> cs[1..][i - 1] == cs[i];
      if Egyptian(cs[0], profiles) then [cs[0].login] + rest else rest
  }

  /** `Egyptian` as a function value, for counting. */
  function EgyptianIn(profiles: map<string, Object>): Contributor -> bool {
    c => Egyptian(c, profiles)
  }

  /** One login is listed per matching contributor. */
  lemma {:induction false} EgyptianLoginsCount(cs: seq<Contributor>, profiles: map<string, Object>)
    ensures |EgyptianLogins(cs, profiles)| == ReposExtractor.CountIf(cs, EgyptianIn(profiles))
  {
    if |cs| > 0 {
      EgyptianLoginsCount(cs[1..], profiles);
      assert EgyptianIn(profiles)(cs[0]) == Egyptian(cs[0], profiles);
    }
  }

  /** The matching logins of a concatenation are those of each part, in
      order: with the single-contributor case, this fixes the order and
      multiplicity of the result. */
  lemma {:induction false} EgyptianLoginsConcat(a: seq<Contributor>, b: seq<Contributor>,
                                                profiles: map<string, Object>)
    ensures EgyptianLogins(a + b, profiles) == EgyptianLogins(a, profiles) + EgyptianLogins(b, profiles)
    ensures EgyptianLogins(a[..0], profiles) == []
    ensures |a| == 1 ==>
              EgyptianLogins(a, profiles) == if Egyptian(a[0], profiles) then [a[0].login] else []
  {
    LoginsAppend(a, b, profiles);
    if |a| == 1 {
      assert a[1..] == [];
    }
  }

  lemma {:induction false} LoginsAppend(a: seq<Contributor>, b: seq<Contributor>,
                                        profiles: map<string, Object>)
    ensures EgyptianLogins(a + b, profiles) == EgyptianLogins(a, profiles) + EgyptianLogins(b, profiles)
    decreases |a|
  {
    if |a| > 0 {
      LoginsAppend(a[1..], b, profiles);
      assert (a + b)[1..] == a[1..] + b;
      assert (a + b)[0] == a[0];
      var head := if Egyptian(a[0], profiles) then [a[0].login] else [];
      assert EgyptianLogins(a, profiles) == head + EgyptianLogins(a[1..], profiles);
      assert EgyptianLogins(a + b, profiles) == head + EgyptianLogins(a[1..] + b, profiles);
      Associative(head, EgyptianLogins(a[1..], profiles), EgyptianLogins(b, profiles));
    } else {
      assert a + b == b;
    }
  }

  /** The first contributor whose profile check raises, with nothing before
      it raising. */
  function FirstProfileFailure(cs: seq<Contributor>, profiles: map<string, Object>): (r: Option<Exception>)
    ensures r.None? <==> forall i :: 0 <= i < |cs| ==> ProfileFailure(cs[i], profiles).None?
    ensures r.Some? ==> r.value.AttributeError?
    ensures r.Some? ==>
              exists i :: 0 <= i < |cs| && r == ProfileFailure(cs[i], profiles)
                && forall j :: 0 <= j < i ==> ProfileFailure(cs[j], profiles).None?
  {
    if |cs| == 0 then None
    else if ProfileFailure(cs[0], profiles).Some? then ProfileFailure(cs[0], profiles)
    else
      assert forall i :: 1 <= i < |cs| ==> cs[1..][i - 1] == cs[i];
      FirstProfileFailure(cs[1..], profiles)
  }

  /** `https://api.github.com/repos/{owner}/{name}/contributors`, the owner
      and name taken from the HTML URL as `ReposExtractor.BaseUrl` does. */
  function ContributorsUrl(htmlUrl: string): (r: Result<string>)
    ensures r.Err? <==> '/' !in htmlUrl
    ensures r.Ok? ==> r.value == ReposExtractor.BaseUrl(htmlUrl).value + "/contributors"
  {
    var base :- ReposExtractor.BaseUrl(htmlUrl);
    Ok(base + "/contributors")
  }

  /** The contributor loop as written. A match logs `cont['repo_html_url']`,
      a field contributor entries do not carry, so the first match raises
      KeyError before its login is appended. */
  function ScanAsWritten(cs: seq<Contributor>, profiles: map<string, Object>): (r: Result<seq<string>>)
    ensures r.Ok? ==> r.value == EgyptianLogins(cs, profiles)
    ensures r.Err? ==> r.error.AttributeError? || r.error == KeyError("repo_html_url")
    ensures FirstProfileFailure(cs, profiles).None?
            && (forall i :: 0 <= i < |cs| && Egyptian(cs[i], profiles) ==> "repo_html_url" in cs[i].fields)
            ==> r.Ok?
    ensures r.Ok? ==>
              && FirstProfileFailure(cs, profiles).None?
              && forall i :: 0 <= i < |cs| && Egyptian(cs[i], profiles) ==> "repo_html_url" in cs[i].fields
  {
    if |cs| == 0 then Ok([])
    else
      var c := cs[0];
      var url := ProfileUrl(c.login);
      if url !in profiles then Err(AttributeError("get"))
      else
        var isMatch :- LocationMatches(profiles[url]);
        assert forall i :: 1 <= i < |cs| ==> cs[1..][i - 1] == cs[i];
        if isMatch then
          if "repo_html_url" !in c.fields then Err(KeyError("repo_html_url"))
          else
            var rest :- ScanAsWritten(cs[1..], profiles);
            Ok([c.login] + rest)
        else
          ScanAsWritten(cs[1..], profiles)
  }

  /** `filter_per_cont_loc` as written: None when the contributors answer
      is falsy, else the scan. */
  function FilterPerContLoc(htmlUrl: string, contributors: map<string, seq<Contributor>>,
                            profiles: map<string, Object>): (r: Result<Option<seq<string>>>)
    ensures r == Err(IndexError) <==> '/' !in htmlUrl
    ensures '/' in htmlUrl ==>
              var url := ContributorsUrl(htmlUrl).value;
              (r == Ok(None) <==> url !in contributors || |contributors[url]| == 0)
    ensures r.Ok? && r.value.Some? ==>
              r.value.value == EgyptianLogins(contributors[ContributorsUrl(htmlUrl).value], profiles)
  {
    var url :- ContributorsUrl(htmlUrl);
    if url !in contributors || |contributors[url]| == 0 then Ok(None)
    else
      var logins :- ScanAsWritten(contributors[url], profiles);
      Ok(Some(logins))
  }

  /** Contributor entries never carry `repo_html_url`, and then the filter as
      written cannot return a non-empty list: whenever some contributor
      matches, it raises instead. */
  lemma {:induction false} ScanAsWrittenNeverReportsMatches(cs: seq<Contributor>, profiles: map<string, Object>)
    requires forall i :: 0 <= i < |cs| ==> "repo_html_url" !in cs[i].fields
    ensures ScanAsWritten(cs, profiles).Ok? ==> EgyptianLogins(cs, profiles) == []
  {
    if |cs| > 0 && ScanAsWritten(cs, profiles).Ok? {
      assert !Egyptian(cs[0], profiles);
      ScanAsWrittenNeverReportsMatches(cs[1..], profiles);
    }
  }

  /** The contributor loop as evidently intended: the same checks and the
      same failures on a missing profile or a non-string location, with the
      matching login appended instead of a log line reading an absent
      field. */
  function ScanContributors(cs: seq<Contributor>, profiles: map<string, Object>): (r: Result<seq<string>>)
    ensures r.Ok? <==> FirstProfileFailure(cs, profiles).None?
    ensures r.Err? ==> r.error == FirstProfileFailure(cs, profiles).value
    ensures r.Ok? ==> r.value == EgyptianLogins(cs, profiles)
  {
    if |cs| == 0 then Ok([])
    else
      var c := cs[0];
      var url := ProfileUrl(c.login);
      if url !in profiles then Err(AttributeError("get"))
      else
        var isMatch :- LocationMatches(profiles[url]);
        var rest :- ScanContributors(cs[1..], profiles);
        Ok(if isMatch then [c.login] + rest else rest)
  }

  /** `filter_per_cont_loc` as evidently intended. */
  function FilterEgyptianContributors(htmlUrl: string, contributors: map<string, seq<Contributor>>,
                                      profiles: map<string, Object>): (r: Result<Option<seq<string>>>)
    ensures r == Err(IndexError) <==> '/' !in htmlUrl
    ensures '/' in htmlUrl ==>
              var url := ContributorsUrl(htmlUrl).value;
              && (r == Ok(None) <==> url !in contributors || |contributors[url]| == 0)
              && (url in contributors && |contributors[url]| > 0 ==>
                    match FirstProfileFailure(contributors[url], profiles)
                    case None => r == Ok(Some(EgyptianLogins(contributors[url], profiles)))
                    case Some(e) => r == Err(e))
  {
    var url :- ContributorsUrl(htmlUrl);
    if url !in contributors || |contributors[url]| == 0 then Ok(None)
    else
      var logins :- ScanContributors(contributors[url], profiles);
      Ok(Some(logins))
  }

  /** "Cairo, Egypt" is a matching location. */
  lemma SampleLocation()
    ensures Contains(Lower("Cairo, Egypt"), "egypt")
  {
    var loc := Lower("Cairo, Egypt");
    assert loc == "cairo, egypt";
    assert StartsWith(loc[7..], "egypt");
  }

  /** One contributor whose profile location matches (for instance
      "Cairo, Egypt"): the filter as written raises KeyError where the
      contributor's login was meant to be returned. */
  lemma FilterMatchRaises(htmlUrl: string, login: string, location: string)
    requires '/' in htmlUrl && Contains(Lower(location), "egypt")
    ensures var cs := map[ContributorsUrl(htmlUrl).value := [Contributor(login, map[])]];
      var ps := map[ProfileUrl(login) := map["location" := Str(location)]];
      && FilterPerContLoc(htmlUrl, cs, ps) == Err(KeyError("repo_html_url"))
      && FilterEgyptianContributors(htmlUrl, cs, ps) == Ok(Some([login]))
  {
    var cs := [Contributor(login, map[])];
    var ps := map[ProfileUrl(login) := map["location" := Str(location)]];
    assert cs[1..] == [];
    assert LocationMatches(ps[ProfileUrl(login)]) == Ok(true);
    assert ScanAsWritten(cs, ps) == Err(KeyError("repo_html_url"));
    assert ScanContributors(cs[1..], ps) == Ok([]);
    assert [login] + [] == [login];
    assert ScanContributors(cs, ps) == Ok([login]);
  }
}

=== FILE: database_extractor.dfy ===
/** Database detection for one repository row: keyword search in the
    contents of well-known configuration files, in the topics, in the
    description, and an exact match of the primary language, merged into one
    map from database name to where it was found.

    The whole-word, case-insensitive regular-expression search is a foreign
    call: `matches(keyword, text)` stands for it. The keyword table read from
    a JSON file is a parameter, as a sequence of (database, keywords) pairs
    in the file's order. Base64 and UTF-8 decoding is the parameter
    `decode`, which may fail with the exception the decoder raises. */
module DatabaseExtractor {

  import opened Wrappers
  import opened Text
  import opened Json
  import ReposExtractor

  /** `db_files` */
  const DbFiles: seq<string> := [
    "requirements.txt", "schema.sql", "pom.xml", "Pipfile", "database.yml",
    ".env", ".env.example", "database.config", "config.yml",
    "pyproject.toml", "package.json", "docker-compose.yml", "Gemfile",
    "go.mod", "build.gradle", "settings.py", "init.sql"]

  /** `db_languages` */
  const DbLanguages: seq<string> := [
    "SQL", "TSQL", "PLSQL", "PL/pgSQL",
    "MongoDB", "Cypher", "CQL", "NoSQL", "DynamoDB"]

  /** The source labels the topic and description searches attach. */
  const TopicsKey := "repo_topics"
  const DescriptionKey := "repo_description"

  /** The keyword table: database names with their keywords, in file order. */
  type Keywords = seq<(string, seq<string>)>

  /** The whole-word match of `keyword` in `text`. */
  type Matcher = (string, string) -> bool

  /** The row fields the extractor reads, with `filenames` already parsed
      from its textual list form. */
  datatype DbRow = DbRow(login: string, repoName: string, filenames: seq<string>,
                         topics: Value, description: Value, language: Value)

  // ---------------------------------------------------------------------
  // Keyword search (`_search_in_content`)

  /** Some keyword of `words` matches `text`. */
  predicate Hits(words: seq<string>, text: string, matches: Matcher) {
    exists k :: 0 <= k < |words| && matches(words[k], text)
  }

  /** The first table entry at or after `start` with a matching keyword. */
  function FirstHit(keywords: Keywords, text: string, matches: Matcher, start: nat): (r: Option<nat>)
    requires start <= |keywords|
    ensures r.None? <==> forall i :: start <= i < |keywords| ==> !Hits(keywords[i].1, text, matches)
    ensures r.Some? ==> start <= r.value < |keywords| && Hits(keywords[r.value].1, text, matches)
    ensures r.Some? ==> forall j :: start <= j < r.value ==> !Hits(keywords[j].1, text, matches)
    decreases |keywords| - start
  {
    if start == |keywords| then None
    else if Hits(keywords[start].1, text, matches) then Some(start)
    else FirstHit(keywords, text, matches, start + 1)
  }

  /** `_search_in_content(content, key)`: nothing for a non-string; else the
      first database, in table order, one of whose keywords matches,
      mapped to `key`; the search stops there. */
  function SearchInContent(content: Value, key: string, keywords: Keywords, matches: Matcher)
    : (r: map<string, string>)
    ensures |r| <= 1
    ensures !content.Str? ==> r == map[]
    ensures r == map[] <==>
              !content.Str? || forall i :: 0 <= i < |keywords| ==> !Hits(keywords[i].1, content.s, matches)
    ensures r != map[] ==>
              exists i :: 0 <= i < |keywords| && r == map[keywords[i].0 := key]
                && Hits(keywords[i].1, content.s, matches)
                && forall j :: 0 <= j < i ==> !Hits(keywords[j].1, content.s, matches)
  {
    if !content.Str? then map[]
    else match FirstHit(keywords, content.s, matches, 0)
      case None => map[]
      case Some(i) =>
        var r := map[keywords[i].0 := key];
        assert keywords[i].0 in r;
        r
  }

  /** A key the content search reports is a database name of the table. */
  predicate IsDatabase(keywords: Keywords, db: string) {
    exists i :: 0 <= i < |keywords| && keywords[i].0 == db
  }

  lemma SearchInContentKeys(content: Value, key: string, keywords: Keywords, matches: Matcher)
    ensures forall db :: db in SearchInContent(content, key, keywords, matches) ==>
              IsDatabase(keywords, db) && SearchInContent(content, key, keywords, matches)[db] == key
  {
  }

  // ---------------------------------------------------------------------
  // Language and description

  /** `_search_in_language` */
  function SearchInLanguage(language: Value): (r: map<string, string>)
    ensures r != map[] <==> language.Str? && language.s in DbLanguages
    ensures forall k :: k in r ==> k in DbLanguages && r[k] == k && language == Str(k)
  {
    if language.Str? && language.s in DbLanguages then
      var r := map[language.s := language.s];
      assert language.s in r;
      r
    else map[]
  }

  /** `_search_in_description`: the description's first database, labelled
      with the description key. */
  function SearchInDescription(description: Value, keywords: Keywords, matches: Matcher)
    : (r: map<string, string>)
    ensures |r| <= 1
    ensures forall k :: k in r ==> r[k] == DescriptionKey && IsDatabase(keywords, k)
    ensures r != map[] <==>
              description.Str? && exists i :: 0 <= i < |keywords| && Hits(keywords[i].1, description.s, matches)
    ensures r != map[] ==>
              var first := FirstHit(keywords, description.s, matches, 0);
              first.Some? && r == map[keywords[first.value].0 := DescriptionKey]
  {
    SearchInContentKeys(description, DescriptionKey, keywords, matches);
    if description.Str? then SearchInContent(description, DescriptionKey, keywords, matches) else map[]
  }

  // ---------------------------------------------------------------------
  // Topics (`_search_in_topics`)

  /** `_search_in_topics` as written: every topic's search result is passed
      to `dict.update` together with a second positional argument, which
      `update` rejects with TypeError. So a topic list either is empty or
      raises; a non-list contributes nothing. */
  function SearchInTopicsAsWritten(topics: Value): (r: Result<map<string, string>>)
    ensures r.Err? <==> topics.List? && |topics.items| > 0
    ensures r.Err? ==> r.error.TypeError?
    ensures r.Ok? ==> r.value == map[]
  {
    if topics.List? && |topics.items| > 0 then Err(TypeError("update expected at most 1 argument, got 2"))
    else Ok(map[])
  }

  /** `update` of an empty dict with `search(x)` for each `x` in turn:
      a later result overrides an earlier one on the same key. */
  function UnionOf<T>(items: seq<T>, search: T -> map<string, string>): map<string, string>
    decreases |items|
  {
    if |items| == 0 then map[]
    else UnionOf(items[..|items| - 1], search) + search(items[|items| - 1])
  }

  /** A key is in the union exactly when some item's result holds it, and
      its value is the one from the last such item. */
  lemma {:induction false} UnionOfKeys<T>(items: seq<T>, search: T -> map<string, string>, k: string)
    ensures k in UnionOf(items, search) <==> exists i :: 0 <= i < |items| && k in search(items[i])
    ensures k in UnionOf(items, search) ==>
              exists i :: 0 <= i < |items| && k in search(items[i])
                && UnionOf(items, search)[k] == search(items[i])[k]
                && forall j :: i < j < |items| ==> k !in search(items[j])
    decreases |items|
  {
    if |items| > 0 {
      var front := items[..|items| - 1];
      UnionOfKeys(front, search, k);
      assert forall i :: 0 <= i < |front| ==> front[i] == items[i];
    }
  }

  /** The topic search as intended: each topic's first database, labelled
      with the topics key, later topics overriding earlier ones. */
  function TopicSearch(keywords: Keywords, matches: Matcher): Value -> map<string, string> {
    v => SearchInContent(v, TopicsKey, keywords, matches)
  }

  /** `_search_in_topics` with the label passed to the content search, as
      the other searches do: a database is reported exactly when some topic
      finds it, always labelled with the topics key. */
  function SearchInTopics(topics: Value, keywords: Keywords, matches: Matcher): (r: map<string, string>)
    ensures !topics.List? ==> r == map[]
    ensures forall k :: k in r ==> r[k] == TopicsKey && IsDatabase(keywords, k)
    ensures topics.List? ==> forall k :: k in r <==>
              exists i :: 0 <= i < |topics.items| && k in SearchInContent(topics.items[i], TopicsKey, keywords, matches)
  {
    if topics.List? then
      var search := TopicSearch(keywords, matches);
      var r := UnionOf(topics.items, search);
      forall k | k in r
        ensures r[k] == TopicsKey && IsDatabase(keywords, k)
      {
        UnionOfKeys(topics.items, search, k);
        var i :| 0 <= i < |topics.items| && k in search(topics.items[i]) && r[k] == search(topics.items[i])[k];
        SearchInContentKeys(topics.items[i], TopicsKey, keywords, matches);
      }
      forall k
        ensures k in r <==>
          exists i :: 0 <= i < |topics.items| && k in SearchInContent(topics.items[i], TopicsKey, keywords, matches)
      {
        UnionOfKeys(topics.items, search, k);
      }
      r
    else map[]
  }

  // ---------------------------------------------------------------------
  // Files (`_search_in_files`)

  /** `file_name.lower() in [filename.lower() for filename in filenames]` */
  predicate Present(file: string, names: seq<string>) {
    exists i :: 0 <= i < |names| && Lower(names[i]) == Lower(file)
  }

  /** `base_url`, built from the row's owner and repository name. */
  function RowBaseUrl(row: DbRow): string {
    ReposExtractor.ApiRepos + row.login + "/" + row.repoName
  }

  /** The download address of one configuration file. */
  function ContentsUrl(row: DbRow, file: string): string {
    RowBaseUrl(row) + "/contents/" + file
  }

  /** What one fetched file contributes. A falsy answer contributes
      nothing; a payload with a `content` field is scanned only when its
      `encoding` is "base64" (a missing `encoding` raises KeyError); the
      `in` test on a list or a string and the indexing that follows behave
      as Python's do, and on a number or boolean `in` raises TypeError. */
  function FileHit(file: string, data: Option<Value>, decode: Value -> Result<string>,
                   keywords: Keywords, matches: Matcher): (r: Result<map<string, string>>)
    ensures r.Err? ==> data.Some? && Truthy(data.value)
    ensures r.Err? && data.value.Dict? ==>
              "content" in data.value.fields
              && (("encoding" !in data.value.fields && r.error == KeyError("encoding"))
                  || ("encoding" in data.value.fields && data.value.fields["encoding"] == Str("base64")
                      && decode(data.value.fields["content"]).Err?
                      && r.error == decode(data.value.fields["content"]).error))
    ensures r.Ok? ==> |r.value| <= 1 && forall k :: k in r.value ==> r.value[k] == file && IsDatabase(keywords, k)
    ensures r.Ok? && r.value != map[] ==>
              data.Some? && data.value.Dict? && "content" in data.value.fields
              && Get(data.value.fields, "encoding") == Str("base64")
    ensures data.Some? && data.value.Dict? && "content" in data.value.fields
            && Get(data.value.fields, "encoding") == Str("base64")
            && decode(data.value.fields["content"]).Ok? ==>
              r == Ok(SearchInContent(Str(decode(data.value.fields["content"]).value), file, keywords, matches))
    ensures data.Some? && data.value.Dict? && "content" in data.value.fields
            && "encoding" !in data.value.fields ==>
              r == Err(KeyError("encoding"))
    ensures data.Some? && data.value.Dict? && "content" in data.value.fields
            && Get(data.value.fields, "encoding") == Str("base64")
            && decode(data.value.fields["content"]).Err? ==>
              r == Err(decode(data.value.fields["content"]).error)
    ensures data.Some? && data.value.List? && Str("content") in data.value.items ==>
              r.Err? && r.error.TypeError?
    ensures data.Some? && data.value.Str? && Contains(data.value.s, "content") ==>
              r.Err? && r.error.TypeError?
    ensures data.Some? && (data.value.Bool? || data.value.Int?) && Truthy(data.value) ==>
              r.Err? && r.error.TypeError?
    ensures r.Err? && data.value.List? ==> Str("content") in data.value.items
    ensures r.Err? && data.value.Str? ==> Contains(data.value.s, "content")
  {
    if data.None? || !Truthy(data.value) then Ok(map[])
    else match data.value
      case Dict(o) =>
        if "content" !in o then Ok(map[])
        else if "encoding" !in o then Err(KeyError("encoding"))
        else if o["encoding"] != Str("base64") then Ok(map[])
        else
          var text :- decode(o["content"]);
          SearchInContentKeys(Str(text), file, keywords, matches);
          Ok(SearchInContent(Str(text), file, keywords, matches))
      case List(xs) =>
        if Str("content") in xs then Err(TypeError("list indices must be integers or slices, not str"))
        else Ok(map[])
      case Str(s) =>
        if Contains(s, "content") then Err(TypeError("string indices must be integers"))
        else Ok(map[])
      case _ => Err(TypeError("argument of type is not iterable"))
  }

  /** The answer `_get` gives for a file's address: None when absent. */
  function Answer(answers: map<string, Value>, url: string): Option<Value> {
    if url in answers then Some(answers[url]) else None
  }

  /** The file loop over `files`, in order: a file `present` rejects is
      skipped, a present file's `hit` overrides the earlier ones, and the
      first failing hit ends the loop. */
  function ScanFiles(files: seq<string>, present: string -> bool,
                     hit: string -> Result<map<string, string>>): (r: Result<map<string, string>>)
    ensures r.Ok? ==> forall k :: k in r.value ==>
              exists i :: 0 <= i < |files| && present(files[i]) && hit(files[i]).Ok?
                && k in hit(files[i]).value && r.value[k] == hit(files[i]).value[k]
    ensures r.Err? ==> exists i :: 0 <= i < |files| && present(files[i]) && hit(files[i]).Err?
    ensures (forall i :: 0 <= i < |files| ==> !present(files[i])) ==> r == Ok(map[])
    decreases |files|
  {
    if |files| == 0 then Ok(map[])
    else
      var front := files[..|files| - 1];
      var file := files[|files| - 1];
      assert forall i :: 0 <= i < |front| ==> front[i] == files[i];
      var found :- ScanFiles(front, present, hit);
      if present(file) then
        var h :- hit(file);
        Ok(found + h)
      else Ok(found)
  }

  /** The file loop of `_search_in_files` over `files`. */
  function FilesScan(row: DbRow, files: seq<string>, answers: map<string, Value>,
                     decode: Value -> Result<string>, keywords: Keywords, matches: Matcher)
    : (r: Result<map<string, string>>)
    ensures r.Ok? ==> forall k :: k in r.value ==>
              r.value[k] in files && Present(r.value[k], row.filenames) && IsDatabase(keywords, k)
    ensures r.Err? ==>
              exists i :: 0 <= i < |files| && Present(files[i], row.filenames)
                && FileHit(files[i], Answer(answers, ContentsUrl(row, files[i])), decode, keywords, matches).Err?
    ensures (forall i :: 0 <= i < |files| ==> !Present(files[i], row.filenames)) ==> r == Ok(map[])
  {
    ScanLabels(row, files, answers, decode, keywords, matches);
    ScanFiles(files, PresentIn(row), HitIn(row, answers, decode, keywords, matches))
  }

  /** Every label the scan keeps names the present file that found it. */
  lemma ScanLabels(row: DbRow, files: seq<string>, answers: map<string, Value>,
                   decode: Value -> Result<string>, keywords: Keywords, matches: Matcher)
    ensures var r := ScanFiles(files, PresentIn(row), HitIn(row, answers, decode, keywords, matches));
            r.Ok? ==> forall k :: k in r.value ==>
              r.value[k] in files && Present(r.value[k], row.filenames) && IsDatabase(keywords, k)
  {
    var present := PresentIn(row);
    var hit := HitIn(row, answers, decode, keywords, matches);
    var r := ScanFiles(files, present, hit);
    if r.Ok? {
      forall k | k in r.value
        ensures r.value[k] in files && Present(r.value[k], row.filenames) && IsDatabase(keywords, k)
      {
        var i :| 0 <= i < |files| && present(files[i]) && hit(files[i]).Ok?
                 && k in hit(files[i]).value && r.value[k] == hit(files[i]).value[k];
        var h := FileHit(files[i], Answer(answers, ContentsUrl(row, files[i])), decode, keywords, matches);
        assert hit(files[i]) == h;
      }
    }
  }

  function PresentIn(row: DbRow): string -> bool {
    file => Present(file, row.filenames)
  }

  function HitIn(row: DbRow, answers: map<string, Value>, decode: Value -> Result<string>,
                 keywords: Keywords, matches: Matcher): string -> Result<map<string, string>> {
    file => FileHit(file, Answer(answers, ContentsUrl(row, file)), decode, keywords, matches)
  }

  /** `_search_in_files` */
  function SearchInFiles(row: DbRow, answers: map<string, Value>, decode: Value -> Result<string>,
                         keywords: Keywords, matches: Matcher): Result<map<string, string>> {
    FilesScan(row, DbFiles, answers, decode, keywords, matches)
  }

  /** Only present files are fetched: a file the repository lacks has no
      influence, whatever its address would answer. */
  lemma FilesScanIgnoresAbsent(row: DbRow, files: seq<string>, answers: map<string, Value>,
                               other: map<string, Value>, decode: Value -> Result<string>,
                               keywords: Keywords, matches: Matcher)
    requires forall i :: 0 <= i < |files| && Present(files[i], row.filenames) ==>
               Answer(answers, ContentsUrl(row, files[i])) == Answer(other, ContentsUrl(row, files[i]))
    ensures FilesScan(row, files, answers, decode, keywords, matches)
         == FilesScan(row, files, other, decode, keywords, matches)
  {
    ScanIgnoresAbsent(files, PresentIn(row), HitIn(row, answers, decode, keywords, matches),
                      HitIn(row, other, decode, keywords, matches));
  }

  lemma {:induction false} ScanIgnoresAbsent(files: seq<string>, present: string -> bool,
                                            hit: string -> Result<map<string, string>>,
                                            other: string -> Result<map<string, string>>)
    requires forall i :: 0 <= i < |files| && present(files[i]) ==> hit(files[i]) == other(files[i])
    ensures ScanFiles(files, present, hit) == ScanFiles(files, present, other)
    decreases |files|
  {
    if |files| > 0 {
      var front := files[..|files| - 1];
      assert forall i :: 0 <= i < |front| ==> front[i] == files[i];
      ScanIgnoresAbsent(front, present, hit, other);
    }
  }

  /** A database is labelled with the last present file whose content
      finds it. */
  lemma FilesScanLastWins(row: DbRow, files: seq<string>, answers: map<string, Value>,
                          decode: Value -> Result<string>, keywords: Keywords,
                          matches: Matcher, i: nat, db: string)
    requires i < |files| && Present(files[i], row.filenames)
    requires FilesScan(row, files, answers, decode, keywords, matches).Ok?
    requires var h := FileHit(files[i], Answer(answers, ContentsUrl(row, files[i])), decode, keywords, matches);
             h.Ok? && db in h.value
    requires forall j :: i < j < |files| && Present(files[j], row.filenames) ==>
               var h := FileHit(files[j], Answer(answers, ContentsUrl(row, files[j])), decode, keywords, matches);
               h.Ok? ==> db !in h.value
    ensures var r := FilesScan(row, files, answers, decode, keywords, matches);
            db in r.value && r.value[db] == files[i]
  {
    var hit := HitIn(row, answers, decode, keywords, matches);
    ScanLastWins(files, PresentIn(row), hit, i, db);
    assert hit(files[i]).value[db] == files[i];
  }

  lemma {:induction false} ScanLastWins(files: seq<string>, present: string -> bool,
                                       hit: string -> Result<map<string, string>>, i: nat, db: string)
    requires i < |files| && present(files[i])
    requires ScanFiles(files, present, hit).Ok?
    requires hit(files[i]).Ok? && db in hit(files[i]).value
    requires forall j :: i < j < |files| && present(files[j]) && hit(files[j]).Ok? ==>
               db !in hit(files[j]).value
    ensures var r := ScanFiles(files, present, hit);
            db in r.value && r.value[db] == hit(files[i]).value[db]
    decreases |files|
  {
    var n := |files|;
    var front := files[..n - 1];
    var file := files[n - 1];
    assert forall j :: 0 <= j < |front| ==> front[j] == files[j];
    var rest := ScanFiles(front, present, hit);
    if i < n - 1 {
      ScanLastWins(front, present, hit, i, db);
    }
  }

  // ---------------------------------------------------------------------
  // Merge (`detect_database_type`)

  /** The merge of the four searches, in the order files, topics,
      description, language: a later source overrides an earlier one. */
  function Merge(files: Result<map<string, string>>, topics: Result<map<string, string>>,
                 row: DbRow, keywords: Keywords, matches: Matcher): Result<map<string, string>> {
    var f :- files;
    var t :- topics;
    Ok(f + t + SearchInDescription(row.description, keywords, matches) + SearchInLanguage(row.language))
  }

  /** `detect_database_type` as written: a nonempty topic list raises. */
  function DetectDatabaseTypeAsWritten(row: DbRow, answers: map<string, Value>, decode: Value -> Result<string>,
                                       keywords: Keywords, matches: Matcher): (r: Result<map<string, string>>)
    ensures r.Err? <==> SearchInFiles(row, answers, decode, keywords, matches).Err?
                        || (row.topics.List? && |row.topics.items| > 0)
    ensures (SearchInFiles(row, answers, decode, keywords, matches).Ok? && row.topics.List?
               && |row.topics.items| > 0) ==> r.error.TypeError?
  {
    Merge(SearchInFiles(row, answers, decode, keywords, matches), SearchInTopicsAsWritten(row.topics),
          row, keywords, matches)
  }

  /** `detect_database_type` with the corrected topic search. */
  function DetectDatabaseType(row: DbRow, answers: map<string, Value>, decode: Value -> Result<string>,
                              keywords: Keywords, matches: Matcher): (r: Result<map<string, string>>)
    ensures r.Err? <==> SearchInFiles(row, answers, decode, keywords, matches).Err?
    ensures r.Ok? ==> forall k :: k in r.value ==>
              (k in DbLanguages && r.value[k] == k)
              || (IsDatabase(keywords, k)
                  && (r.value[k] in {DescriptionKey, TopicsKey} || r.value[k] in DbFiles))
  {
    var files := SearchInFiles(row, answers, decode, keywords, matches);
    var topics := SearchInTopics(row.topics, keywords, matches);
    if files.Err? then Err(files.error)
    else
      MergedLabels(files.value, topics, SearchInDescription(row.description, keywords, matches),
                   SearchInLanguage(row.language), keywords);
      Merge(files, Ok(topics), row, keywords, matches)
  }

  /** Labels survive the merge: each key keeps the label of the source it
      was last found in. */
  lemma MergedLabels(f: map<string, string>, t: map<string, string>, d: map<string, string>,
                     l: map<string, string>, keywords: Keywords)
    requires forall k :: k in f ==> IsDatabase(keywords, k) && f[k] in DbFiles
    requires forall k :: k in t ==> IsDatabase(keywords, k) && t[k] == TopicsKey
    requires forall k :: k in d ==> IsDatabase(keywords, k) && d[k] == DescriptionKey
    requires forall k :: k in l ==> k in DbLanguages && l[k] == k
    ensures forall k :: k in f + t + d + l ==>
              (k in DbLanguages && (f + t + d + l)[k] == k)
              || (IsDatabase(keywords, k)
                  && ((f + t + d + l)[k] in {DescriptionKey, TopicsKey} || (f + t + d + l)[k] in DbFiles))
  {
  }

  /** The merge keeps every key any source found, and labels it with the
      last source, in the order files, topics, description, language, that
      found it. */
  lemma DetectPrecedence(row: DbRow, answers: map<string, Value>, decode: Value -> Result<string>,
                         keywords: Keywords, matches: Matcher, k: string)
    requires SearchInFiles(row, answers, decode, keywords, matches).Ok?
    ensures var r := DetectDatabaseType(row, answers, decode, keywords, matches).value;
            var files := SearchInFiles(row, answers, decode, keywords, matches).value;
            var topics := SearchInTopics(row.topics, keywords, matches);
            var desc := SearchInDescription(row.description, keywords, matches);
            var lang := SearchInLanguage(row.language);
            && (k in r <==> k in files || k in topics || k in desc || k in lang)
            && (k in lang ==> r[k] == k)
            && (k in desc && k !in lang ==> r[k] == DescriptionKey)
            && (k in topics && k !in desc && k !in lang ==> r[k] == TopicsKey)
            && (k in files && k !in topics && k !in desc && k !in lang ==> r[k] == files[k])
  {
  }

  /** The two versions agree unless the topics are a nonempty list; on a
      nonempty list the version as written raises and the corrected one
      answers. */
  lemma TopicsUpdateRaises(row: DbRow, answers: map<string, Value>, decode: Value -> Result<string>,
                           keywords: Keywords, matches: Matcher)
    requires SearchInFiles(row, answers, decode, keywords, matches).Ok?
    ensures row.topics.List? && |row.topics.items| > 0 ==>
              DetectDatabaseTypeAsWritten(row, answers, decode, keywords, matches).Err?
              && DetectDatabaseType(row, answers, decode, keywords, matches).Ok?
    ensures !(row.topics.List? && |row.topics.items| > 0) ==>
              DetectDatabaseTypeAsWritten(row, answers, decode, keywords, matches)
              == DetectDatabaseType(row, answers, decode, keywords, matches)
  {
    if !(row.topics.List? && |row.topics.items| > 0) {
      assert SearchInTopics(row.topics, keywords, matches) == map[];
    }
  }
}

=== FILE: doc_assessor.dfy ===
/** The documentation score of one repository row: a bounded sum of flags
    and counts taken from its file list, its description and topics, the
    headings of its README and the links of its repository page.

    HTML parsing is a foreign call: a README is given by the texts of its
    headings, and a repository page by the `href`s of its links and the
    texts of its file-navigation links, as the parser would produce them. */
module DocAssessor {

  import opened Wrappers
  import opened Text
  import opened Json
  import ReposExtractor

  /** `API_DOC_KEYWORDS` */
  const ApiDocKeywords: seq<string> := [
    "swagger", "openapi", "postman", "api docs", "rest api", "documentation",
    "endpoints", "swagger.json", "openapi.json", "postman_collection.json",
    "api-docs", "api-spec"]

  /** Words of a heading that announce how to run the project. */
  const HowToRunWords: seq<string> := ["install", "run", "start", "venv"]

  /** The setup files `assess_documentation` counts. */
  const SetupFiles: seq<string> := [
    "setup.py", "requirements.txt", "package.json", "environment.yml",
    "Pipfile", "setup.cfg", "config", ".gitignore", "LICENCE",
    "SUPPORT.md", "SECURITY.md"]

  function Flag(b: bool): nat {
    if b then 1 else 0
  }

  /** `any(word in text for word in words)` */
  predicate MentionsAny(text: string, words: seq<string>) {
    exists i :: 0 <= i < |words| && Contains(text, words[i])
  }

  /** Some element of `xs` satisfies `p`. */
  predicate Any(xs: seq<string>, p: string -> bool) {
    exists i :: 0 <= i < |xs| && p(xs[i])
  }

  lemma AnyExtend(xs: seq<string>, i: nat, p: string -> bool)
    requires i < |xs|
    ensures Any(xs[..i + 1], p) <==> Any(xs[..i], p) || p(xs[i])
  {
    assert forall k :: 0 <= k < i ==> xs[..i + 1][k] == xs[..i][k];
    assert xs[..i + 1][i] == xs[i];
  }

  /** Scan `xs` for an element satisfying `p`, stopping at the first. */
  method FindAny(xs: seq<string>, p: string -> bool) returns (found: bool)
    ensures found <==> Any(xs, p)
  {
    var i := 0;
    while i < |xs|
      invariant 0 <= i <= |xs|
      invariant !Any(xs[..i], p)
    {
      AnyExtend(xs, i, p);
      if p(xs[i]) {
        return true;
      }
      i := i + 1;
    }
    assert xs[..i] == xs;
    return false;
  }

  // ---------------------------------------------------------------------
  // README guidelines (`check_readme_guidelines`)

  /** The lowered heading contains `word`. */
  predicate HeadingHas(word: string, heading: string) {
    Contains(Lower(heading), word)
  }

  /** The lowered heading contains one of the how-to-run words. */
  predicate HeadingExplainsRunning(heading: string) {
    MentionsAny(Lower(heading), HowToRunWords)
  }

  /** One point each for contribution guidelines, how-to-run instructions
      and a description, wherever among the headings they appear. */
  function GuidelineScore(headings: seq<string>): nat {
    Flag(Any(headings, h => HeadingHas("contribut", h)))
    + Flag(Any(headings, HeadingExplainsRunning))
    + Flag(Any(headings, h => HeadingHas("description", h)))
  }

  /** The heading scan of `check_readme_guidelines`; `readme` is None when
      the fetch answered falsy. Every heading is tested for all three
      flags, and a flag once set stays set. */
  method CheckReadmeGuidelines(readme: Option<seq<string>>) returns (score: nat)
    ensures score <= 3
    ensures readme.None? ==> score == 0
    ensures readme.Some? ==> score == GuidelineScore(readme.value)
  {
    var contribution, howToRun, description := 0, 0, 0;
    if readme.Some? {
      var headings := readme.value;
      ghost var isContribution := h => HeadingHas("contribut", h);
      ghost var isDescription := h => HeadingHas("description", h);
      var i := 0;
      while i < |headings|
        invariant 0 <= i <= |headings|
        invariant contribution == Flag(Any(headings[..i], isContribution))
        invariant howToRun == Flag(Any(headings[..i], HeadingExplainsRunning))
        invariant description == Flag(Any(headings[..i], isDescription))
      {
        AnyExtend(headings, i, isContribution);
        AnyExtend(headings, i, HeadingExplainsRunning);
        AnyExtend(headings, i, isDescription);
        var text := Lower(headings[i]);
        if Contains(text, "contribut") {
          contribution := 1;
        }
        if Contains(text, "description") {
          description := 1;
        }
        if MentionsAny(text, HowToRunWords) {
          howToRun := 1;
        }
        i := i + 1;
      }
      assert headings[..i] == headings;
    }
    score := contribution + howToRun + description;
  }

  const ApiHost := "api.github.com"

  /** The README address as written: `urljoin` with the absolute path
      `/blob/master/<file>` keeps only the scheme and host of the base. */
  function ReadmeUrl(baseUrl: string, filename: string): string {
    var host := if StartsWith(baseUrl, "https://") then Split(baseUrl[8..], '/')[0] else "";
    "https://" + host + "/blob/master/" + filename
  }

  /** `urljoin` of an absolute path onto `https://<host>/<anything>`
      keeps the host alone. */
  lemma ReadmeUrlKeepsHost(host: string, rest: string, filename: string)
    requires '/' !in host
    requires |rest| > 0 && rest[0] == '/'
    ensures ReadmeUrl("https://" + host + rest, filename) == "https://" + host + "/blob/master/" + filename
  {
    var base := "https://" + host + rest;
    assert StartsWith(base, "https://");
    assert base[8..] == host + rest;
    SplitAfterRun(host, rest, '/');
    assert Split(rest, '/')[0] == "";
    assert host + "" == host;
  }

  /** Every repository's README is looked up at the same address, which
      names neither the owner nor the repository. */
  lemma ReadmeUrlDropsRepository(htmlUrl: string, filename: string)
    requires ReposExtractor.BaseUrl(htmlUrl).Ok?
    ensures ReadmeUrl(ReposExtractor.BaseUrl(htmlUrl).value, filename)
         == "https://" + ApiHost + "/blob/master/" + filename
  {
    ReadmeUrlUnderApiRepos(ReposExtractor.BaseUrl(htmlUrl).value, filename);
  }

  lemma ReadmeUrlUnderApiRepos(base: string, filename: string)
    requires StartsWith(base, ReposExtractor.ApiRepos)
    ensures ReadmeUrl(base, filename) == "https://" + ApiHost + "/blob/master/" + filename
  {
    var tail := base[|ReposExtractor.ApiRepos|..];
    assert base == ReposExtractor.ApiRepos + tail;
    ApiReposOnHost();
    assert base == "https://" + ApiHost + ("/repos/" + tail);
    ReadmeUrlKeepsHost(ApiHost, "/repos/" + tail, filename);
  }

  lemma ApiReposOnHost()
    ensures ReposExtractor.ApiRepos == "https://" + ApiHost + "/repos/"
  {
  }

  /** The README fetch as written: the decoded JSON payload is used as a
      response object, and reading its `.content` raises AttributeError
      whenever the payload is truthy. */
  function ReadmeFetchAsWritten(answer: Option<Value>): (r: Result<nat>)
    ensures r == Ok(0) <==> answer.None? || !Truthy(answer.value)
    ensures r.Err? ==> r.error == AttributeError("content")
  {
    if answer.Some? && Truthy(answer.value) then Err(AttributeError("content")) else Ok(0)
  }

  /** A README with a description, an installation section and
      contribution guidelines earns the full three points. */
  lemma GuidelineScoreExample()
    ensures GuidelineScore(["Description", "Install", "Contributing"]) == 3
  {
    var h := ["Description", "Install", "Contributing"];
    assert Lower(h[0]) == "description";
    assert StartsWith(Lower(h[0])[0..], "description");
    assert Lower(h[1]) == "install";
    assert StartsWith(Lower(h[1])[0..], HowToRunWords[0]);
    assert Lower(h[2]) == "contributing";
    assert StartsWith(Lower(h[2])[0..], "contribut");
  }

  // ---------------------------------------------------------------------
  // API documentation (`check_api_documentation`)

  /** What the HTML parser yields for a page: the `href` of every link, and
      the text of every file-navigation link. */
  datatype LinkPage = LinkPage(hrefs: seq<string>, navigationLinks: seq<string>)

  /** The lowered link target mentions an API-documentation keyword. */
  predicate ApiHref(href: string) {
    MentionsAny(Lower(href), ApiDocKeywords)
  }

  /** The stripped, lowered file name mentions an API-documentation keyword. */
  predicate ApiFileLink(text: string) {
    MentionsAny(Lower(Strip(text)), ApiDocKeywords)
  }

  /** The repository answer carries page content, and one of its links or
      file names mentions an API-documentation keyword. */
  predicate ApiDocsFound(answer: Object, parse: Value -> LinkPage) {
    && "content" in answer && answer["content"] != Null
    && var page := parse(answer["content"]);
       Any(page.hrefs, ApiHref) || Any(page.navigationLinks, ApiFileLink)
  }

  /** `check_api_documentation`: 3 when API documentation is linked, else
      0. A request answered None makes the `in` test raise TypeError. */
  method CheckApiDocumentation(answer: Option<Object>, parse: Value -> LinkPage)
    returns (r: Result<nat>)
    ensures r.Err? <==> answer.None?
    ensures r.Err? ==> r.error.TypeError?
    ensures r.Ok? ==> r.value == 3 * Flag(ApiDocsFound(answer.value, parse))
  {
    if answer.None? {
      return Err(TypeError("argument of type 'NoneType' is not iterable"));
    }
    var repo := answer.value;
    if "content" !in repo || repo["content"] == Null {
      return Ok(0);
    }
    var page := parse(repo["content"]);
    var found := FindAny(page.hrefs, ApiHref);
    if !found {
      found := FindAny(page.navigationLinks, ApiFileLink);
    }
    r := Ok(if found then 3 else 0);
  }

  // ---------------------------------------------------------------------
  // The total (`assess_documentation`)

  /** The row's `filenames` cell: the text of a list (with the list
      `ast.literal_eval` reads from it), or a list already. */
  datatype FilenamesCell = Serialized(raw: string, parsed: seq<string>) | Names(names: seq<string>)

  function ParsedNames(cell: FilenamesCell): seq<string> {
    match cell
    case Serialized(_, parsed) => parsed
    case Names(names) => names
  }

  /** `x in row["filenames"]`: a substring test on the text, an element test
      on a list. */
  predicate CellHas(cell: FilenamesCell, x: string) {
    match cell
    case Serialized(raw, _) => Contains(raw, x)
    case Names(names) => x in names
  }

  datatype DocRow = DocRow(htmlUrl: string, filenames: FilenamesCell, description: Value, topics: Value)

  /** The first file whose lowered name starts with "readme.". */
  function ReadmeFile(names: seq<string>): (r: Option<string>)
    ensures r.None? <==> forall i :: 0 <= i < |names| ==> !StartsWith(Lower(names[i]), "readme.")
    ensures r.Some? ==>
              exists i :: 0 <= i < |names| && names[i] == r.value
                && StartsWith(Lower(names[i]), "readme.")
                && forall k :: 0 <= k < i ==> !StartsWith(Lower(names[k]), "readme.")
  {
    if |names| == 0 then None
    else if StartsWith(Lower(names[0]), "readme.") then Some(names[0])
    else
      var r := ReadmeFile(names[1..]);
      assert forall i :: 1 <= i < |names| ==> names[1..][i - 1] == names[i];
      if r.Some? then
        var i :| 0 <= i < |names[1..]| && names[1..][i] == r.value
                 && StartsWith(Lower(names[1..][i]), "readme.")
                 && forall k :: 0 <= k < i ==> !StartsWith(Lower(names[1..][k]), "readme.");
        assert names[i + 1] == r.value;
        r
      else r
  }

  /** The README score: the guideline score of the first README's
      headings, 0 when there is none or its fetch answered falsy. */
  function ReadmeScore(names: seq<string>, readmes: map<string, seq<string>>): nat {
    match ReadmeFile(names)
    case None => 0
    case Some(f) => if f in readmes then GuidelineScore(readmes[f]) else 0
  }

  /** How many of `xs` occur in `names`. */
  function CountIn(xs: seq<string>, names: seq<string>): nat {
    ReposExtractor.CountIf(xs, f => f in names)
  }

  /** `sum(1 for file in setup_files if file in filenames)` */
  function SetupCount(names: seq<string>): nat {
    CountIn(SetupFiles, names)
  }

  /** Over distinct elements, the count is the size of the overlap. */
  lemma {:induction false} CountInDistinct(xs: seq<string>, names: seq<string>)
    requires forall i, j :: 0 <= i < j < |xs| ==> xs[i] != xs[j]
    ensures CountIn(xs, names) == |set x | x in xs && x in names|
  {
    if |xs| > 0 {
      var tail := xs[1..];
      CountInDistinct(tail, names);
      var all := set x | x in xs && x in names;
      var rest := set x | x in tail && x in names;
      assert forall i :: 1 <= i < |xs| ==> xs[i] == tail[i - 1];
      assert xs[0] !in tail;
      if xs[0] in names {
        assert all == rest + {xs[0]};
      } else {
        assert all == rest;
      }
    }
  }

  /** The setup count is the number of distinct setup names present, so it
      lies between 0 and 11. */
  lemma SetupCountIsOverlap(names: seq<string>)
    ensures SetupCount(names) == |set x | x in SetupFiles && x in names|
    ensures SetupCount(names) <= 11
  {
    SetupFilesDistinct();
    CountInDistinct(SetupFiles, names);
  }

  lemma SetupFilesDistinct()
    ensures forall i, j :: 0 <= i < j < |SetupFiles| ==> SetupFiles[i] != SetupFiles[j]
  {
    forall i, j | 0 <= i < j < |SetupFiles|
      ensures SetupFiles[i] != SetupFiles[j]
    {
      var a, b := SetupFiles[i], SetupFiles[j];
      assert (|a|, a[0], a[1], a[|a| - 1]) != (|b|, b[0], b[1], b[|b| - 1]);
    }
  }

  /** The components of `assess_documentation` read from the row itself:
      contribution guide, README guidelines, setup files, documentation
      folder and a missing description. */
  method RowComponents(row: DocRow, readmes: map<string, seq<string>>) returns (score: nat)
    ensures score <= 20
    ensures score == 2 * Flag(CellHas(row.filenames, "CONTRIBUTING.md"))
                   + ReadmeScore(ParsedNames(row.filenames), readmes)
                   + |set x | x in SetupFiles && x in ParsedNames(row.filenames)|
                   + 3 * Flag(CellHas(row.filenames, "doc"))
                   + Flag(!Truthy(row.description) && !Truthy(row.topics))
  {
    var names := ParsedNames(row.filenames);
    var readmeScore := ReadmeComponent(names, readmes);
    var repoDesc := Flag(!Truthy(row.description) && !Truthy(row.topics));
    var docs := 3 * Flag(CellHas(row.filenames, "doc"));
    var contribution := 2 * Flag(CellHas(row.filenames, "CONTRIBUTING.md"));
    var setup := SetupCount(names);
    SetupCountIsOverlap(names);
    score := contribution + readmeScore + setup + docs + repoDesc;
  }

  /** The README points: the guideline score of the first README file, 0
      when there is none or its headings are unknown. */
  method ReadmeComponent(names: seq<string>, readmes: map<string, seq<string>>) returns (score: nat)
    ensures score <= 3
    ensures score == ReadmeScore(names, readmes)
  {
    score := 0;
    var readme := ReadmeFile(names);
    if readme.Some? {
      score := CheckReadmeGuidelines(
        if readme.value in readmes then Some(readmes[readme.value]) else None);
    }
  }

  /** `assess_documentation`, starting from the row the assessor is built
      from: the owner/name split of the constructor, then the API check,
      then the file-based components. */
  method AssessDocumentation(row: DocRow, repoAnswer: Option<Object>, parse: Value -> LinkPage,
                             readmes: map<string, seq<string>>)
    returns (r: Result<nat>)
    ensures r.Err? <==> '/' !in row.htmlUrl || repoAnswer.None?
    ensures r.Ok? ==> r.value <= 23
    ensures r.Ok? && |ParsedNames(row.filenames)| == 0 ==> r.value == 0
    ensures r.Ok? && |ParsedNames(row.filenames)| > 0 ==>
              r.value == 2 * Flag(CellHas(row.filenames, "CONTRIBUTING.md"))
                       + ReadmeScore(ParsedNames(row.filenames), readmes)
                       + |set x | x in SetupFiles && x in ParsedNames(row.filenames)|
                       + 3 * Flag(CellHas(row.filenames, "doc"))
                       + Flag(!Truthy(row.description) && !Truthy(row.topics))
                       + 3 * Flag(ApiDocsFound(repoAnswer.value, parse))
  {
    var base :- ReposExtractor.BaseUrl(row.htmlUrl);
    var api :- CheckApiDocumentation(repoAnswer, parse);
    if |ParsedNames(row.filenames)| == 0 {
      return Ok(0);
    }
    var fromRow := RowComponents(row, readmes);
    r := Ok(fromRow + api);
  }
}

=== FILE: github_api.dfy ===
/** The shared GitHub client: credential check, the transport retry policy,
    and the mapping from an HTTP status to "payload or None" together with
    the severity of the log line each status produces.

    The client never sleeps across a quota response and never re-raises an
    HTTP failure: every status becomes a returned value, with two
    exceptions, where the handler itself raises — a 200 whose body is not
    JSON, and a 403 whose `X-RateLimit-Reset` header is missing or is not an
    integer literal. */
module GitHubApi {

  import opened Wrappers
  import opened Text

  // ---------------------------------------------------------------------
  // Construction

  const TokenVariable := "YOUR_GITHUB_TOKEN"

  /** The users endpoint; a profile lives at this prefix plus the login. */
  const ApiUsers := "https://api.github.com/users/"

  datatype Client = Client(headers: map<string, string>)

  /** The constructor: the token comes from the environment; a missing or
      empty token raises ValueError before any request can be issued. */
  function NewClient(token: Option<string>): (r: Result<Client>)
    ensures r.Err? <==> token.None? || token.value == ""
    ensures r.Err? ==> r.error.ValueError?
    ensures r.Ok? ==> r.value.headers.Keys == {"Accept", "Authorization"}
    ensures r.Ok? ==> r.value.headers["Authorization"] == "token " + token.value
  {
    if token.None? || token.value == "" then
      Err(ValueError("GitHub token not provided"))
    else
      Ok(Client(map[
        "Accept" := "application/vnd.github+json",
        "Authorization" := "token " + token.value]))
  }

  // ---------------------------------------------------------------------
  // Transport retries

  /** Retries allowed after the first attempt (`Retry(total=5)`). */
  const MaxRetries: nat := 5

  /** Statuses the transport retries on its own (`status_forcelist`). */
  const RetryStatuses: set<int> := {429, 500, 502, 503, 504}

  /** Statuses urllib3 also retries when the response carries a
      `Retry-After` header (`Retry.RETRY_AFTER_STATUS_CODES`), honoured
      because of `respect_retry_after_header=True`. */
  const RetryAfterStatuses: set<int> := {413, 429, 503}

  /** Whether the transport retries a response with this status, given
      whether it carried a `Retry-After` header. */
  predicate Retried(status: int, hasRetryAfter: bool) {
    status in RetryStatuses || (hasRetryAfter && status in RetryAfterStatuses)
  }

  /** The attempt, counted from 0, whose response the transport hands to the
      status handler when the server answers attempt `i` with status
      `server(i)`, carrying a `Retry-After` header iff `retryAfter(i)`.
      Retrying stops at the first response the transport does not retry or
      after the last allowed retry; since `raise_on_status=False`, an
      exhausted retry budget returns the last response instead of raising.
      Back-off and `Retry-After` delays and network-level errors are not
      represented. */
  function AnsweredAttempt(server: nat -> int, retryAfter: nat -> bool, attempt: nat): (r: nat)
    requires attempt <= MaxRetries
    ensures attempt <= r <= MaxRetries
    ensures forall i :: attempt <= i < r ==> Retried(server(i), retryAfter(i))
    ensures Retried(server(r), retryAfter(r)) ==> r == MaxRetries
    decreases MaxRetries - attempt
  {
    if Retried(server(attempt), retryAfter(attempt)) && attempt < MaxRetries then
      AnsweredAttempt(server, retryAfter, attempt + 1)
    else
      attempt
  }

  /** The status that reaches `_handle_api_errors`. */
  function TransportStatus(server: nat -> int, retryAfter: nat -> bool): (status: int)
    ensures status !in RetryStatuses + RetryAfterStatuses ==>
              exists k :: 0 <= k <= MaxRetries && server(k) == status
                && forall i :: 0 <= i < k ==> Retried(server(i), retryAfter(i))
  {
    var k := AnsweredAttempt(server, retryAfter, 0);
    server(k)
  }

  /** A 413 is retried only when it carries `Retry-After`: with the header
      the next answer is handed over, without it the 413 itself. */
  lemma PayloadTooLargeRetriedOnlyWithHeader(server: nat -> int, retryAfter: nat -> bool)
    requires server(0) == 413 && !Retried(server(1), retryAfter(1))
    ensures TransportStatus(server, retryAfter) == (if retryAfter(0) then server(1) else 413)
  {
  }

  // ---------------------------------------------------------------------
  // Status handling

  /** A response as the handler sees it: the status, the body decoded as
      JSON (None when the body is not valid JSON) and the
      `X-RateLimit-Reset` header, if present. */
  datatype Response<T> = Response(status: int, body: Option<T>, rateLimitReset: Option<string>)

  /** The branch of `_handle_api_errors` a status takes, in the source's
      test order. */
  datatype Outcome =
    | Success
    | RateLimited
    | NotFound
    | LegallyUnavailable
    | Unauthorized
    | NoContent
    | Conflict
    | OtherError(status: int)

  datatype Level = Silent | Info | Warning | Error

  datatype Handled<T> = Handled(payload: Option<T>, level: Level)

  function Classify(status: int): Outcome {
    if status == 200 then Success
    else if status == 403 then RateLimited
    else if status == 404 then NotFound
    else if status == 451 then LegallyUnavailable
    else if status == 401 then Unauthorized
    else if status == 204 then NoContent
    else if status == 409 then Conflict
    else OtherError(status)
  }

  function Severity(o: Outcome): Level {
    match o
    case Success => Silent
    case RateLimited => Warning
    case NoContent => Info
    case NotFound => Error
    case LegallyUnavailable => Error
    case Unauthorized => Error
    case Conflict => Error
    case OtherError(_) => Error
  }

  predicate IsDigit(c: char) {
    '0' <= c <= '9'
  }

  /** Digits, with single underscores allowed between two digits. */
  predicate DigitRun(s: string) {
    && |s| > 0
    && IsDigit(s[0])
    && IsDigit(s[|s| - 1])
    && forall i :: 0 < i < |s| - 1 ==>
         IsDigit(s[i]) || (s[i] == '_' && IsDigit(s[i - 1]) && IsDigit(s[i + 1]))
  }

  /** The strings `int(s)` accepts in base 10: surrounding whitespace, an
      optional sign, then a digit run. */
  predicate IsIntLiteral(s: string) {
    var t := Strip(s);
    DigitRun(t) || (|t| > 0 && (t[0] == '+' || t[0] == '-') && DigitRun(t[1..]))
  }

  /** `_handle_api_errors`: only 200 yields the decoded body, and raises
      when the body is not JSON; every other status yields None with a fixed
      severity; a 403 first parses the reset header with `int()` and raises
      if it cannot. The headers are requests' case-insensitive dict, which
      looks a name up in lower case, so a missing header raises KeyError with
      the lowered name. The wait time computed from that header and the wall
      clock only feeds the log line and is not represented. */
  function HandleApiErrors<T>(resp: Response<T>): (r: Result<Handled<T>>)
    ensures r.Err? <==>
              || (resp.status == 200 && resp.body.None?)
              || (resp.status == 403 &&
                  (resp.rateLimitReset.None? || !IsIntLiteral(resp.rateLimitReset.value)))
    ensures r.Err? && resp.status == 403 && resp.rateLimitReset.None? ==>
              r.error == KeyError("x-ratelimit-reset")
    ensures r.Err? && !(resp.status == 403 && resp.rateLimitReset.None?) ==> r.error.ValueError?
    ensures r.Ok? ==> (r.value.payload.Some? <==> resp.status == 200)
    ensures r.Ok? && r.value.payload.Some? ==> r.value.payload == resp.body
    ensures r.Ok? && resp.status == 200 ==> r.value.level == Silent
    ensures r.Ok? && resp.status == 204 ==> r.value.level == Info
    ensures r.Ok? && resp.status == 403 ==> r.value.level == Warning
    ensures r.Ok? && resp.status !in {200, 204, 403} ==> r.value.level == Error
  {
    var outcome := Classify(resp.status);
    if outcome.RateLimited? && resp.rateLimitReset.None? then
      Err(KeyError("x-ratelimit-reset"))
    else if outcome.RateLimited? && !IsIntLiteral(resp.rateLimitReset.value) then
      Err(ValueError("invalid literal for int() with base 10"))
    else if outcome.Success? && resp.body.None? then
      Err(ValueError("response body is not valid JSON"))
    else if outcome.Success? then
      Ok(Handled(resp.body, Severity(outcome)))
    else
      Ok(Handled(None, Severity(outcome)))
  }

  /** Each status takes exactly one branch: the variants partition the
      integers, and the codes the source names map to their own variant. */
  lemma ClassifyPartition(status: int)
    ensures Classify(status).OtherError? <==>
              status !in {200, 403, 404, 451, 401, 204, 409}
    ensures Classify(status).OtherError? ==> Classify(status).status == status
    ensures Classify(status) == Success <==> status == 200
    ensures Classify(status) == NotFound <==> status == 404
    ensures Classify(status) == Conflict <==> status == 409
  {
  }

  /** `_get`: one GET through the retrying transport, then the handler. */
  function Fetch<T>(server: nat -> int, retryAfter: nat -> bool, body: Option<T>, reset: Option<string>)
    : Result<Handled<T>>
  {
    HandleApiErrors(Response(TransportStatus(server, retryAfter), body, reset))
  }

  /** A server failing with a retryable status on every attempt exhausts
      the budget of five retries; the last response then reaches the handler
      and comes back as None with error severity, not as an exception. */
  lemma ExhaustedRetriesReachHandler<T>(server: nat -> int, retryAfter: nat -> bool, body: Option<T>,
                                        reset: Option<string>)
    requires forall i: nat :: i <= MaxRetries ==> server(i) == 503
    ensures AnsweredAttempt(server, retryAfter, 0) == MaxRetries
    ensures Fetch(server, retryAfter, body, reset) == Ok(Handled(None, Error))
  {
  }

  /** A first answer the transport does not retry is handled without any
      retry. */
  lemma NoRetryOnFinalStatus(server: nat -> int, retryAfter: nat -> bool)
    requires !Retried(server(0), retryAfter(0))
    ensures AnsweredAttempt(server, retryAfter, 0) == 0
  {
  }

  /** A digit run, signed or not, is accepted as it stands: it has no
      surrounding whitespace to strip. */
  lemma DigitRunIsIntLiteral(d: string)
    requires DigitRun(d)
    ensures IsIntLiteral(d)
    ensures IsIntLiteral("-" + d) && IsIntLiteral("+" + d)
  {
    StripKeepsUnpadded(d);
    var neg, pos := "-" + d, "+" + d;
    assert neg[|neg| - 1] == d[|d| - 1] && neg[1..] == d;
    assert pos[|pos| - 1] == d[|d| - 1] && pos[1..] == d;
    StripKeepsUnpadded(neg);
    StripKeepsUnpadded(pos);
  }

  /** A digit run padded on both sides with a whitespace character, such as
      the information separator 0x1C, is still accepted: `int()` strips
      Python whitespace, not only the ASCII blanks. */
  lemma PaddedDigitRunIsIntLiteral(d: string, w: char)
    requires DigitRun(d) && IsSpace(w)
    ensures IsIntLiteral([w] + d + [w])
  {
    StripPadded(d, w);
  }

  lemma StripPadded(t: string, w: char)
    requires |t| > 0 && !IsSpace(t[0]) && !IsSpace(t[|t| - 1]) && IsSpace(w)
    ensures Strip([w] + t + [w]) == t
  {
    TrimStartPadded(t, w);
    TrimEndPadded(t, w);
  }

  lemma TrimStartPadded(t: string, w: char)
    requires |t| > 0 && !IsSpace(t[0]) && IsSpace(w)
    ensures TrimStart([w] + t + [w]) == t + [w]
  {
    var u := t + [w];
    assert [w] + t + [w] == [w] + u;
    TrimStartSkipsOne(u, w);
    assert u[0] == t[0];
  }

  lemma TrimStartSkipsOne(u: string, w: char)
    requires |u| > 0 && !IsSpace(u[0]) && IsSpace(w)
    ensures TrimStart([w] + u) == u
  {
    var s := [w] + u;
    assert s[0] == w && s[1..] == u;
  }

  lemma TrimEndPadded(t: string, w: char)
    requires |t| > 0 && !IsSpace(t[|t| - 1]) && IsSpace(w)
    ensures TrimEnd(t + [w]) == t
  {
    var u := t + [w];
    assert u[..|u| - 1] == t;
  }

  lemma StripKeepsUnpadded(t: string)
    requires |t| > 0 && !IsSpace(t[0]) && !IsSpace(t[|t| - 1])
    ensures Strip(t) == t
  {
    assert TrimStart(t) == t;
  }

  /** An empty or all-whitespace header is rejected by `int()`. */
  lemma BlankIsNotIntLiteral(s: string)
    requires forall i :: 0 <= i < |s| ==> IsSpace(s[i])
    ensures !IsIntLiteral(s)
  {
    assert Strip(s) == "" by {
      AllSpaceTrims(s);
    }
  }

  lemma {:induction false} AllSpaceTrims(s: string)
    requires forall i :: 0 <= i < |s| ==> IsSpace(s[i])
    ensures TrimStart(s) == ""
    decreases |s|
  {
    if |s| > 0 {
      AllSpaceTrims(s[1..]);
    }
  }
}

=== FILE: json.dfy ===
/** Decoded JSON payloads and Python truthiness.

    `response.json()` yields dicts, lists, strings, numbers, booleans and
    None; the modelled code tests those values with `if data:` and reads
    fields with `d[k]` or `d.get(k)`. Floating-point numbers do not occur in
    any field the model reads and are not represented. */
module Json {

  import opened Wrappers

  datatype Value =
    | Null
    | Bool(b: bool)
    | Int(i: int)
    | Str(s: string)
    | List(items: seq<Value>)
    | Dict(fields: map<string, Value>)

  /** A JSON object, as Python's `dict` with string keys. */
  type Object = map<string, Value>

  /** Python's `bool(v)`: None, False, 0 and empty containers are false. */
  predicate Truthy(v: Value) {
    match v
    case Null => false
    case Bool(b) => b
    case Int(i) => i != 0
    case Str(s) => |s| > 0
    case List(xs) => |xs| > 0
    case Dict(m) => |m| > 0
  }

  /** Truthiness of a `_get` result whose payload is a JSON list: None
      (a failed request) and the empty list are both false. */
  predicate Filled<T>(data: Option<seq<T>>) {
    data.Some? && |data.value| > 0
  }

  /** `d.get(k)`: the field, or None when the key is absent. */
  function Get(d: Object, k: string): Value {
    if k in d then d[k] else Null
  }

  /** `Optional[str]` as stored in a row: a string or None. */
  function OptStr(s: Option<string>): Value {
    match s
    case Some(t) => Str(t)
    case None => Null
  }

  function OptInt(n: Option<int>): Value {
    match n
    case Some(k) => Int(k)
    case None => Null
  }

  function StrList(xs: seq<string>): (v: Value)
    ensures v.List? && |v.items| == |xs|
    ensures forall i :: 0 <= i < |xs| ==> v.items[i] == Str(xs[i])
  {
    List(seq(|xs|, i requires 0 <= i < |xs| => Str(xs[i])))
  }
}

=== FILE: repos_extractor.dfy ===
/** The repository aggregator: one repository row is enriched with the
    answers of a fixed set of GitHub endpoints, but only when the repository
    has more than one contributor.

    Every endpoint answer is the value `_get` returned for it (the decoded
    body, or None after a failed request); `RepoApi` gathers them, so the
    aggregation is a pure function of the row and those answers. The
    repository file tree is given as a tree of entries in which each
    directory carries what a fetch of its own contents answers. */
module ReposExtractor {

  import opened Wrappers
  import opened Text
  import opened Json

  // ---------------------------------------------------------------------
  // Repository coordinates

  const ApiRepos := "https://api.github.com/repos/"

  /** `repo_html_url.split("/")[-2]` and `[-1]`: the owner and the name.
      A URL without any '/' makes the `[-2]` index raise IndexError. */
  function RepoCoordinates(htmlUrl: string): (r: Result<(string, string)>)
    ensures r.Err? <==> '/' !in htmlUrl
    ensures r.Err? ==> r.error == IndexError
    ensures r.Ok? ==> '/' !in r.value.0 && '/' !in r.value.1
    ensures r.Ok? ==> var t := r.value.0 + "/" + r.value.1;
              EndsWith(htmlUrl, t) && (|t| < |htmlUrl| ==> htmlUrl[|htmlUrl| - |t| - 1] == '/')
  {
    if '/' !in htmlUrl then
      Err(IndexError)
    else
      LastTwoSegments(htmlUrl, '/');
      var p := Split(htmlUrl, '/');
      Ok((p[|p| - 2], p[|p| - 1]))
  }

  /** `base_url` of the constructor: the API prefix followed by exactly the
      last two '/'-separated segments of the HTML URL. */
  function BaseUrl(htmlUrl: string): (r: Result<string>)
    ensures r.Err? <==> '/' !in htmlUrl
    ensures r.Ok? ==> StartsWith(r.value, ApiRepos)
    ensures r.Ok? ==> var tail := r.value[|ApiRepos|..];
              && EndsWith(htmlUrl, tail)
              && |Split(tail, '/')| == 2
              && (|tail| < |htmlUrl| ==> htmlUrl[|htmlUrl| - |tail| - 1] == '/')
  {
    match RepoCoordinates(htmlUrl)
    case Err(e) => Err(e)
    case Ok((owner, name)) =>
      var tail := owner + "/" + name;
      JoinThenSplit([owner, name], '/');
      assert JoinWith([owner, name], "/") == tail;
      assert (ApiRepos + tail)[|ApiRepos|..] == tail;
      Ok(ApiRepos + tail)
  }

  // ---------------------------------------------------------------------
  // File tree walk (`_get_filenames` / `_fetch_recursive`)

  /** One item of a contents listing. `listing` is what fetching this
      entry's `path` answers; the walk consults it only for directories. */
  datatype Entry = Entry(kind: string, name: string, path: string, listing: Listing)

  /** What a contents request answers: a failure (None) or the items. */
  datatype Listing = Failed | Listed(items: seq<Entry>)

  /** `if data:` on a listing: a failed request and an empty list are both
      false. */
  predicate Truthful(l: Listing) {
    l.Listed? && |l.items| > 0
  }

  const ExcludedExtensions: seq<string> := [".pyc", ".png", ".jpg", ".jpeg", ".gif"]
  const ExcludedDirectories: seq<string> := ["images", "imgs", "__pycache__"]

  predicate HasExcludedExtension(name: string) {
    exists i :: 0 <= i < |ExcludedExtensions| && EndsWith(Lower(name), ExcludedExtensions[i])
  }

  /** A file entry whose path the walk yields. */
  predicate KeptFile(e: Entry) {
    e.kind == "file" && !HasExcludedExtension(e.name)
  }

  /** A directory entry the walk descends into. */
  predicate EnteredDirectory(e: Entry) {
    e.kind == "dir" && Lower(e.name) !in ExcludedDirectories
  }

  /** The paths yielded for one listing, depth first in listing order. */
  function WalkItems(items: seq<Entry>): seq<string>
    decreases items
  {
    if |items| == 0 then []
    else
      var e := items[0];
      (if KeptFile(e) then [e.path]
       else if EnteredDirectory(e) && Truthful(e.listing) then WalkItems(e.listing.items)
       else [])
      + WalkItems(items[1..])
  }

  /** The contents paths requested while walking one listing: each entered
      directory is requested, whether or not its listing then fails. */
  function RequestedItems(items: seq<Entry>): seq<string>
    decreases items
  {
    if |items| == 0 then []
    else
      var e := items[0];
      (if EnteredDirectory(e) then
         [e.path] + (if Truthful(e.listing) then RequestedItems(e.listing.items) else [])
       else [])
      + RequestedItems(items[1..])
  }

  /** `_get_filenames`: the walk from the repository root. A falsy root
      listing (failed request or empty repository) yields nothing. */
  function Walk(root: Listing): seq<string> {
    if Truthful(root) then WalkItems(root.items) else []
  }

  /** The contents paths requested by `_get_filenames`, root ("") first. */
  function WalkRequests(root: Listing): (r: seq<string>)
    ensures |r| >= 1 && r[0] == ""
  {
    [""] + (if Truthful(root) then RequestedItems(root.items) else [])
  }

  /** Entries the walk can see: the items of a listing, and recursively the
      items of every entered directory whose listing is truthy. */
  ghost predicate Reachable(items: seq<Entry>, e: Entry)
    decreases items
  {
    && |items| > 0
    && (|| items[0] == e
        || (EnteredDirectory(items[0]) && Truthful(items[0].listing)
            && Reachable(items[0].listing.items, e))
        || Reachable(items[1..], e))
  }

  /** The walk yields exactly the paths of the kept files it can see: no
      file with an excluded extension, nothing below an excluded directory
      at any depth, and nothing of any kind other than "file" and "dir". */
  lemma {:induction false} WalkYieldsKeptFiles(items: seq<Entry>, p: string)
    ensures p in WalkItems(items) <==>
              exists e :: Reachable(items, e) && KeptFile(e) && e.path == p
    decreases items
  {
    if |items| > 0 {
      var x := items[0];
      var tail := items[1..];
      WalkYieldsKeptFiles(tail, p);
      var head := if KeptFile(x) then [x.path]
                  else if EnteredDirectory(x) && Truthful(x.listing) then WalkItems(x.listing.items)
                  else [];
      assert WalkItems(items) == head + WalkItems(tail);
      if EnteredDirectory(x) && Truthful(x.listing) {
        WalkYieldsKeptFiles(x.listing.items, p);
      }
      if p in WalkItems(items) {
        if p in head {
          if KeptFile(x) {
            assert Reachable(items, x);
          } else {
            var e :| Reachable(x.listing.items, e) && KeptFile(e) && e.path == p;
            assert Reachable(items, e);
          }
        } else {
          var e :| Reachable(tail, e) && KeptFile(e) && e.path == p;
          assert Reachable(items, e);
        }
      }
      if exists e :: Reachable(items, e) && KeptFile(e) && e.path == p {
        var e :| Reachable(items, e) && KeptFile(e) && e.path == p;
        if e == x {
          assert p in head;
        } else if EnteredDirectory(x) && Truthful(x.listing) && Reachable(x.listing.items, e) {
          assert p in head;
        } else {
          assert Reachable(tail, e);
          assert p in WalkItems(tail);
        }
      }
    }
  }

  /** The walk requests exactly the paths of the directories it can see and
      does not exclude by name: an excluded directory is never fetched. */
  lemma {:induction false} WalkRequestsEnteredDirectories(items: seq<Entry>, p: string)
    ensures p in RequestedItems(items) <==>
              exists e :: Reachable(items, e) && EnteredDirectory(e) && e.path == p
    decreases items
  {
    if |items| > 0 {
      var x := items[0];
      var tail := items[1..];
      WalkRequestsEnteredDirectories(tail, p);
      var below := if Truthful(x.listing) then RequestedItems(x.listing.items) else [];
      var head := if EnteredDirectory(x) then [x.path] + below else [];
      assert RequestedItems(items) == head + RequestedItems(tail);
      if EnteredDirectory(x) && Truthful(x.listing) {
        WalkRequestsEnteredDirectories(x.listing.items, p);
      }
      if p in RequestedItems(items) {
        if p in head {
          if p == x.path {
            assert Reachable(items, x);
          } else {
            assert p in below;
            var e :| Reachable(x.listing.items, e) && EnteredDirectory(e) && e.path == p;
            assert Reachable(items, e);
          }
        } else {
          var e :| Reachable(tail, e) && EnteredDirectory(e) && e.path == p;
          assert Reachable(items, e);
        }
      }
      if exists e :: Reachable(items, e) && EnteredDirectory(e) && e.path == p {
        var e :| Reachable(items, e) && EnteredDirectory(e) && e.path == p;
        if e == x {
          assert p in head;
        } else if EnteredDirectory(x) && Truthful(x.listing) && Reachable(x.listing.items, e) {
          assert p in below;
          assert p in head;
        } else {
          assert Reachable(tail, e);
          assert p in RequestedItems(tail);
        }
      }
    }
  }

  /** Siblings are walked independently and in listing order. */
  lemma {:induction false} WalkConcat(a: seq<Entry>, b: seq<Entry>)
    ensures WalkItems(a + b) == WalkItems(a) + WalkItems(b)
    decreases a
  {
    if |a| > 0 {
      var x := a[0];
      WalkConcat(a[1..], b);
      var head := if KeptFile(x) then [x.path]
                  else if EnteredDirectory(x) && Truthful(x.listing) then WalkItems(x.listing.items)
                  else [];
      assert (a + b)[0] == x;
      assert (a + b)[1..] == a[1..] + b;
      assert WalkItems(a + b) == head + (WalkItems(a[1..]) + WalkItems(b));
      assert WalkItems(a) == head + WalkItems(a[1..]);
      Associative(head, WalkItems(a[1..]), WalkItems(b));
    } else {
      assert a + b == b;
    }
  }

  /** A directory whose listing is falsy contributes nothing, and the walk
      carries on with its siblings. */
  lemma FailedDirectoryContributesNothing(a: seq<Entry>, d: Entry, b: seq<Entry>)
    requires d.kind == "dir" && !Truthful(d.listing)
    ensures WalkItems(a + [d] + b) == WalkItems(a) + WalkItems(b)
  {
    WalkConcat(a + [d], b);
    WalkConcat(a, [d]);
    FailedDirectoryWalksNothing(d);
  }

  lemma FailedDirectoryWalksNothing(d: Entry)
    requires d.kind == "dir" && !Truthful(d.listing)
    ensures WalkItems([d]) == []
  {
    assert d.kind[0] == 'd' != 'f' == "file"[0];
    assert !KeptFile(d);
    assert [d][1..] == [];
    assert WalkItems([d]) == [] + WalkItems([]);
  }

  // ---------------------------------------------------------------------
  // Counts

  /** Number of elements satisfying `p`. */
  function CountIf<T>(xs: seq<T>, p: T -> bool): (n: nat)
    ensures n <= |xs|
    ensures n == |xs| <==> forall i :: 0 <= i < |xs| ==> p(xs[i])
    ensures n == 0 <==> forall i :: 0 <= i < |xs| ==> !p(xs[i])
  {
    if |xs| == 0 then 0
    else
      var rest := CountIf(xs[1..], p);
      assert forall i :: 1 <= i < |xs| ==> xs[i] == xs[1..][i - 1];
      (if p(xs[0]) then 1 else 0) + rest
  }

  /** Two predicates that never hold together count at most `|xs|` between
      them, and exactly `|xs|` when every element satisfies one of them. */
  lemma {:induction false} CountIfDisjoint<T>(xs: seq<T>, p: T -> bool, q: T -> bool)
    requires forall x :: !(p(x) && q(x))
    ensures CountIf(xs, p) + CountIf(xs, q) <= |xs|
    ensures CountIf(xs, p) + CountIf(xs, q) == |xs| <==>
              forall i :: 0 <= i < |xs| ==> p(xs[i]) || q(xs[i])
  {
    if |xs| > 0 {
      CountIfDisjoint(xs[1..], p, q);
      assert forall i :: 1 <= i < |xs| ==> xs[i] == xs[1..][i - 1];
    }
  }

  /** The positions of `xs` whose element satisfies `p`. */
  function Positions<T>(xs: seq<T>, p: T -> bool): set<int> {
    set i | 0 <= i < |xs| && p(xs[i])
  }

  /** The count is the number of positions whose element satisfies `p`. */
  lemma {:induction false} CountIfCountsIndices<T>(xs: seq<T>, p: T -> bool)
    ensures CountIf(xs, p) == |Positions(xs, p)|
    decreases |xs|
  {
    if |xs| > 0 {
      var ys, x := xs[..|xs| - 1], xs[|xs| - 1];
      assert xs == ys + [x];
      CountIfCountsIndices(ys, p);
      CountIfSnoc(ys, x, p);
      var before := Positions(ys, p);
      var after := Positions(xs, p);
      if p(x) {
        assert after == before + {|ys|};
      } else {
        assert after == before;
      }
    }
  }

  /** Counting an appended element adds one exactly when it qualifies. */
  lemma {:induction false} CountIfSnoc<T>(ys: seq<T>, x: T, p: T -> bool)
    ensures CountIf(ys + [x], p) == CountIf(ys, p) + (if p(x) then 1 else 0)
    decreases |ys|
  {
    if |ys| > 0 {
      CountIfSnoc(ys[1..], x, p);
      assert (ys + [x])[1..] == ys[1..] + [x];
    } else {
      assert ys + [x] == [x];
    }
  }

  /** `_get_contributors_count`: None for a falsy answer (including an empty
      list), else the number of contributors on the answered page. */
  function ContributorCount<T>(data: Option<seq<T>>): (r: Option<nat>)
    ensures r.None? <==> !Filled(data)
    ensures r.Some? ==> r.value == |data.value| && r.value >= 1
  {
    if Filled(data) then Some(|data.value|) else None
  }

  /** `_get_commits_count`: 0 for a falsy answer, else the number of commits
      on the first answered page. */
  function CommitCount<T>(data: Option<seq<T>>): (r: nat)
    ensures r == 0 <==> !Filled(data)
    ensures Filled(data) ==> r == |data.value|
  {
    if Filled(data) then |data.value| else 0
  }

  datatype Issue = Issue(state: string)

  datatype PullRequest = PullRequest(state: string, mergedAt: Option<string>)

  datatype IssueCounts = IssueCounts(open: nat, closed: nat)

  datatype PullCounts = PullCounts(open: nat, closed: nat, merged: nat)

  predicate IssueOpen(i: Issue) { i.state == "open" }
  predicate IssueClosed(i: Issue) { i.state == "closed" }
  predicate PullOpen(p: PullRequest) { p.state == "open" }
  predicate PullClosed(p: PullRequest) { p.state == "closed" }
  predicate PullMerged(p: PullRequest) { p.mergedAt.Some? }

  /** `_get_issues_count`: open and closed counts of the answered page; an
      issue in any other state is counted in neither. */
  function CountIssues(data: Option<seq<Issue>>): (r: Option<IssueCounts>)
    ensures r.None? <==> !Filled(data)
    ensures r.Some? ==> r.value.open == |Positions(data.value, IssueOpen)|
    ensures r.Some? ==> r.value.closed == |Positions(data.value, IssueClosed)|
    ensures r.Some? ==> r.value.open + r.value.closed <= |data.value|
    ensures r.Some? ==> (r.value.open + r.value.closed == |data.value| <==>
              forall i :: 0 <= i < |data.value| ==> data.value[i].state in {"open", "closed"})
  {
    if Filled(data) then
      var xs := data.value;
      CountIfDisjoint(xs, IssueOpen, IssueClosed);
      CountIfCountsIndices(xs, IssueOpen);
      CountIfCountsIndices(xs, IssueClosed);
      Some(IssueCounts(CountIf(xs, IssueOpen), CountIf(xs, IssueClosed)))
    else
      None
  }

  /** `_get_pull_requests_count`: open, closed and merged counts of the
      answered page; merged counts a non-null `merged_at` whatever the
      state. */
  function CountPulls(data: Option<seq<PullRequest>>): (r: Option<PullCounts>)
    ensures r.None? <==> !Filled(data)
    ensures r.Some? ==> r.value.open == |Positions(data.value, PullOpen)|
    ensures r.Some? ==> r.value.closed == |Positions(data.value, PullClosed)|
    ensures r.Some? ==> r.value.merged == |Positions(data.value, PullMerged)|
    ensures r.Some? ==> r.value.open + r.value.closed <= |data.value|
    ensures r.Some? ==> r.value.merged <= |data.value|
    ensures r.Some? ==> (r.value.merged == 0 <==>
              forall i :: 0 <= i < |data.value| ==> data.value[i].mergedAt.None?)
  {
    if Filled(data) then
      var xs := data.value;
      CountIfDisjoint(xs, PullOpen, PullClosed);
      CountIfCountsIndices(xs, PullOpen);
      CountIfCountsIndices(xs, PullClosed);
      CountIfCountsIndices(xs, PullMerged);
      Some(PullCounts(CountIf(xs, PullOpen), CountIf(xs, PullClosed), CountIf(xs, PullMerged)))
    else
      None
  }

  /** The merged count ignores `state`: two pages that agree on every
      `merged_at` have the same merged count. */
  lemma {:induction false} MergedIgnoresState(a: seq<PullRequest>, b: seq<PullRequest>)
    requires |a| == |b|
    requires forall i :: 0 <= i < |a| ==> a[i].mergedAt == b[i].mergedAt
    ensures CountIf(a, PullMerged) == CountIf(b, PullMerged)
  {
    if |a| > 0 {
      MergedIgnoresState(a[1..], b[1..]);
    }
  }

  datatype Tag = Tag(name: string)

  /** `_get_tags`: the tag names of the answered page, in order. */
  function TagNames(data: Option<seq<Tag>>): (r: Option<seq<string>>)
    ensures r.None? <==> !Filled(data)
    ensures r.Some? ==> |r.value| == |data.value|
    ensures r.Some? ==> forall i :: 0 <= i < |r.value| ==> r.value[i] == data.value[i].name
  {
    if Filled(data) then
      Some(seq(|data.value|, i requires 0 <= i < |data.value| => data.value[i].name))
    else
      None
  }

  /** The dependency-graph answer: the names listed under
      `sbom.packages`. The answer is a non-empty object, so it is truthy
      whenever the request succeeded. */
  datatype Sbom = Sbom(packageNames: seq<string>)

  /** `_get_dependencies`: every name cut to the text after its last ':',
      then the first (the repository itself) dropped. */
  function Dependencies(data: Option<Sbom>): (r: Option<seq<string>>)
    ensures r.None? <==> data.None?
    ensures r.Some? ==> var names := data.value.packageNames;
              |r.value| == (if |names| == 0 then 0 else |names| - 1)
              && forall i :: 0 <= i < |r.value| ==> AfterLast(names[i + 1], r.value[i], ':')
  {
    match data
    case None => None
    case Some(sbom) =>
      var names := sbom.packageNames;
      if |names| == 0 then Some([])
      else Some(seq(|names| - 1, i requires 0 <= i < |names| - 1 => LastSegment(names[i + 1], ':')))
  }

  /** A purl-style name keeps everything after its last ':'. */
  lemma DependencyNameExample()
    ensures LastSegment("pkg:pypi/foo", ':') == "pypi/foo"
  {
    JoinThenSplit(["pkg", "pypi/foo"], ':');
    assert JoinWith(["pkg", "pypi/foo"], ":") == "pkg:pypi/foo";
  }

  // ---------------------------------------------------------------------
  // CI/CD detection (`_get_ci_cd_tool`)

  /** The configuration names the detector compares against, in its test
      order, with the tool each one names. The GitHub Actions entry names a
      directory; the walk yields only file paths, so no filename can equal
      it. */
  const CiConfigurations: seq<(string, string)> := [
    (".travis.yml", "Travis CI"),
    (".gitlab-ci.yml", "GitLab CI"),
    (".drone.yml", "Drone CI"),
    (".circleci/config.yml", "CircleCI"),
    (".github/workflows", "GitHub Actions"),
    ("Jenkinsfile", "Jenkins")
  ]

  /** The table as intended: the Jenkins file name in the lower case the
      lowered filename is compared in. */
  const FoldedConfigurations: seq<(string, string)> :=
    CiConfigurations[..5] + [("jenkinsfile", "Jenkins")]

  /** The tool of the first entry of `table`, from index `from` on, whose
      name equals `lowered`. */
  function ConfigTool(lowered: string, table: seq<(string, string)>, from: nat): (r: Option<string>)
    requires from <= |table|
    ensures r.None? <==> forall k :: from <= k < |table| ==> lowered != table[k].0
    ensures r.Some? ==> exists k :: from <= k < |table| && lowered == table[k].0 && r.value == table[k].1
    decreases |table| - from
  {
    if from == |table| then None
    else if lowered == table[from].0 then Some(table[from].1)
    else ConfigTool(lowered, table, from + 1)
  }

  /** The tool a single filename names, compared case-insensitively. */
  function NamedTool(filename: string): Option<string> {
    ConfigTool(Lower(filename), FoldedConfigurations, 0)
  }

  /** An answer of "Jenkins" suppressed. */
  function WithoutJenkins(t: Option<string>): Option<string> {
    if t == Some("Jenkins") then None else t
  }

  /** The detector as written: its loop returns on the first filename in
      every branch, so only that name is ever compared, and a lowered name
      never equals "Jenkinsfile". It answers what the first filename names,
      except Jenkins. */
  function CiTool(filenames: seq<string>): (r: Option<string>)
    ensures |filenames| == 0 ==> r.None?
    ensures |filenames| > 0 ==> r == WithoutJenkins(NamedTool(filenames[0]))
  {
    if |filenames| == 0 then None
    else
      var lowered := Lower(filenames[0]);
      LowerHasNoUpper(filenames[0]);
      FoldAgrees(lowered, 0);
      ConfigTool(lowered, CiConfigurations, 0)
  }

  /** The two tables differ only in the Jenkins entry: for a name without
      upper-case letters, the table as written answers what the folded
      table answers, except that it never answers Jenkins. */
  lemma {:induction false} FoldAgrees(lowered: string, from: nat)
    requires from <= |CiConfigurations|
    requires forall i :: 0 <= i < |lowered| ==> !IsUpper(lowered[i])
    ensures ConfigTool(lowered, CiConfigurations, from)
         == WithoutJenkins(ConfigTool(lowered, FoldedConfigurations, from))
    decreases |CiConfigurations| - from
  {
    if from < 5 {
      assert FoldedConfigurations[from] == CiConfigurations[from];
      FoldAgrees(lowered, from + 1);
      assert CiConfigurations[from].1[0] != 'J';
    } else if from == 5 {
      NotJenkinsfile(lowered);
    }
  }

  /** A name without upper-case letters is not "Jenkinsfile". */
  lemma NotJenkinsfile(lowered: string)
    requires forall i :: 0 <= i < |lowered| ==> !IsUpper(lowered[i])
    ensures lowered != CiConfigurations[5].0
  {
    if |lowered| > 0 {
      assert !IsUpper(lowered[0]);
      assert IsUpper(CiConfigurations[5].0[0]);
    }
  }

  /** Some filename, lowered, is `name`. */
  predicate Present(filenames: seq<string>, name: string) {
    exists i :: 0 <= i < |filenames| && Lower(filenames[i]) == name
  }

  /** The detector as intended: every filename is compared in lower case,
      and the configurations are tried in the fixed precedence order Travis,
      GitLab CI, Drone, CircleCI, GitHub Actions, Jenkins; the first one
      present decides. */
  function CiToolByPrecedence(filenames: seq<string>): (r: Option<string>)
    ensures r.None? <==> forall i :: 0 <= i < |filenames| ==> NamedTool(filenames[i]).None?
    ensures r.Some? ==>
              exists k :: 0 <= k < |FoldedConfigurations|
                && r.value == FoldedConfigurations[k].1
                && Present(filenames, FoldedConfigurations[k].0)
                && forall j :: 0 <= j < k ==> !Present(filenames, FoldedConfigurations[j].0)
  {
    PrecedenceFindsNamed(filenames);
    PrecedenceFrom(filenames, 0)
  }

  /** The precedence scan finds nothing exactly when no filename names a
      tool. */
  lemma PrecedenceFindsNamed(filenames: seq<string>)
    ensures PrecedenceFrom(filenames, 0).None? <==>
              forall i :: 0 <= i < |filenames| ==> NamedTool(filenames[i]).None?
  {
    if PrecedenceFrom(filenames, 0).None? {
      forall i | 0 <= i < |filenames|
        ensures NamedTool(filenames[i]).None?
      {
        UnnamedWhenAbsent(filenames, i);
      }
    } else {
      var k :| 0 <= k < |FoldedConfigurations| && Present(filenames, FoldedConfigurations[k].0);
      NamedWhenPresent(filenames, k);
    }
  }

  /** With no configuration present, filename `i` names no tool. */
  lemma UnnamedWhenAbsent(filenames: seq<string>, i: int)
    requires 0 <= i < |filenames|
    requires forall j :: 0 <= j < |FoldedConfigurations| ==> !Present(filenames, FoldedConfigurations[j].0)
    ensures NamedTool(filenames[i]).None?
  {
    forall k | 0 <= k < |FoldedConfigurations|
      ensures Lower(filenames[i]) != FoldedConfigurations[k].0
    {
      assert !Present(filenames, FoldedConfigurations[k].0);
    }
  }

  /** A configuration present is named by some filename. */
  lemma NamedWhenPresent(filenames: seq<string>, k: int)
    requires 0 <= k < |FoldedConfigurations| && Present(filenames, FoldedConfigurations[k].0)
    ensures exists i :: 0 <= i < |filenames| && NamedTool(filenames[i]).Some?
  {
    var i :| 0 <= i < |filenames| && Lower(filenames[i]) == FoldedConfigurations[k].0;
    assert NamedTool(filenames[i]).Some?;
  }

  /** The precedence scan from table entry `k` on. */
  function PrecedenceFrom(filenames: seq<string>, k: nat): (r: Option<string>)
    requires k <= |FoldedConfigurations|
    ensures r.None? <==>
              forall j :: k <= j < |FoldedConfigurations| ==> !Present(filenames, FoldedConfigurations[j].0)
    ensures r.Some? ==>
              exists j :: k <= j < |FoldedConfigurations|
                && r.value == FoldedConfigurations[j].1
                && Present(filenames, FoldedConfigurations[j].0)
                && forall m :: k <= m < j ==> !Present(filenames, FoldedConfigurations[m].0)
    decreases |FoldedConfigurations| - k
  {
    if k == |FoldedConfigurations| then None
    else if Present(filenames, FoldedConfigurations[k].0) then Some(FoldedConfigurations[k].1)
    else PrecedenceFrom(filenames, k + 1)
  }

  /** The detector as written depends on nothing but the first filename. */
  lemma CiToolOnlyInspectsFirst(a: seq<string>, b: seq<string>)
    requires |a| > 0 && |b| > 0 && a[0] == b[0]
    ensures CiTool(a) == CiTool(b)
  {
  }

  /** On a single filename the detector as written and the intended one
      agree, except that only the intended one reports Jenkins. */
  lemma CiToolAgreesOnOneFile(f: string)
    ensures CiTool([f]) == WithoutJenkins(CiToolByPrecedence([f]))
  {
    var fs := [f];
    var r := CiToolByPrecedence(fs);
    if r.Some? {
      var k :| 0 <= k < |FoldedConfigurations| && r.value == FoldedConfigurations[k].1
                && Present(fs, FoldedConfigurations[k].0)
                && forall j :: 0 <= j < k ==> !Present(fs, FoldedConfigurations[j].0);
      assert Lower(f) == FoldedConfigurations[k].0;
      forall j | 0 <= j < k
        ensures Lower(f) != FoldedConfigurations[j].0
      {
        assert !Present(fs, FoldedConfigurations[j].0);
      }
      FirstEntry(Lower(f), FoldedConfigurations, 0, k);
    }
  }

  /** A lookup answers the first entry equal to `lowered`. */
  lemma {:induction false} FirstEntry(lowered: string, table: seq<(string, string)>, from: nat, k: nat)
    requires from <= k < |table| && lowered == table[k].0
    requires forall j :: from <= j < k ==> lowered != table[j].0
    ensures ConfigTool(lowered, table, from) == Some(table[k].1)
    decreases k - from
  {
    if from < k {
      FirstEntry(lowered, table, from + 1, k);
    }
  }

  /** A configuration after a non-configuration first name goes unseen,
      where the intended detector finds it. */
  lemma CiToolMissesLaterConfiguration(first: string, later: string)
    requires NamedTool(first).None? && NamedTool(later).Some?
    ensures CiTool([first, later]).None?
    ensures CiToolByPrecedence([first, later]).Some?
  {
    assert [first, later][1] == later;
  }

  /** A Travis configuration anywhere in the list wins in the intended
      detector, whatever precedes it. */
  lemma TravisTakesPrecedence(filenames: seq<string>, i: nat)
    requires i < |filenames| && Lower(filenames[i]) == ".travis.yml"
    ensures CiToolByPrecedence(filenames) == Some("Travis CI")
  {
    assert Present(filenames, FoldedConfigurations[0].0);
    assert PrecedenceFrom(filenames, 0) == Some("Travis CI");
  }

  /** With a Drone file listed before a Travis file, the detector as
      written reports Drone and the intended one reports Travis. */
  lemma PrecedenceOverFileOrder()
    ensures CiTool([".drone.yml", ".travis.yml"]) == Some("Drone CI")
    ensures CiToolByPrecedence([".drone.yml", ".travis.yml"]) == Some("Travis CI")
  {
    var fs := [".drone.yml", ".travis.yml"];
    assert Lower(fs[0]) == fs[0];
    assert Lower(fs[1]) == fs[1];
    TravisTakesPrecedence(fs, 1);
    assert FoldedConfigurations[2] == (".drone.yml", "Drone CI");
    FirstEntry(fs[0], FoldedConfigurations, 0, 2);
  }

  /** A Jenkins pipeline file is recognised by the intended detector, never
      by the detector as written. */
  lemma JenkinsfileDetected()
    ensures CiToolByPrecedence(["Jenkinsfile"]) == Some("Jenkins")
    ensures CiTool(["Jenkinsfile"]).None?
  {
    var fs := ["Jenkinsfile"];
    var folded := "jenkinsfile";
    assert Lower("Jenkinsfile") == folded;
    forall k | 0 <= k < 5
      ensures !Present(fs, FoldedConfigurations[k].0)
    {
      assert FoldedConfigurations[k].0[0] == '.';
    }
    assert fs[0] == "Jenkinsfile" && FoldedConfigurations[5].0 == folded;
    assert Present(fs, FoldedConfigurations[5].0);
    assert PrecedenceFrom(fs, 5) == Some("Jenkins");
    assert PrecedenceFrom(fs, 4) == Some("Jenkins");
    assert PrecedenceFrom(fs, 3) == Some("Jenkins");
    assert PrecedenceFrom(fs, 2) == Some("Jenkins");
    assert PrecedenceFrom(fs, 1) == Some("Jenkins");
    CiToolAgreesOnOneFile("Jenkinsfile");
  }

  // ---------------------------------------------------------------------
  // `process_repo`

  /** Every endpoint answer the aggregation may use. */
  datatype RepoApi = RepoApi(
    contributors: Option<seq<Object>>,
    tree: Listing,
    commits: Option<seq<Object>>,
    issues: Option<seq<Issue>>,
    pulls: Option<seq<PullRequest>>,
    tags: Option<seq<Tag>>,
    sbom: Option<Sbom>)

  /** The requests issued, in order. */
  datatype Endpoint =
    | Contributors
    | Contents(path: string)
    | Commits
    | Issues
    | Pulls
    | Tags
    | DependencyGraph

  datatype Processed = Processed(row: Object, calls: seq<Endpoint>)

  const EnrichmentKeys: set<string> :=
    {"filenames", "commits_count", "issues_count", "pull_requests_count",
     "tags", "dependencies", "ci_cd_tool"}

  /** The inclusion gate: more than one contributor. */
  predicate Included(count: Option<nat>) {
    count.Some? && count.value > 1
  }

  function IssueCountsValue(c: Option<IssueCounts>): Value {
    match c
    case None => Null
    case Some(k) => Dict(map["open" := Int(k.open), "closed" := Int(k.closed)])
  }

  function PullCountsValue(c: Option<PullCounts>): Value {
    match c
    case None => Null
    case Some(k) => Dict(map["open" := Int(k.open), "closed" := Int(k.closed), "merged" := Int(k.merged)])
  }

  function OptStrList(xs: Option<seq<string>>): Value {
    match xs
    case None => Null
    case Some(v) => StrList(v)
  }

  function ContentsCalls(paths: seq<string>): (r: seq<Endpoint>)
    ensures |r| == |paths|
    ensures forall i :: 0 <= i < |paths| ==> r[i] == Contents(paths[i])
  {
    seq(|paths|, i requires 0 <= i < |paths| => Contents(paths[i]))
  }

  /** `process_repo`: `contributor_count` is always written. Below the gate
      nothing else changes and no other endpoint is requested
      (`ProcessRepoSkips`); above it the seven enrichment keys are written,
      `ci_cd_tool` from the `filenames` just stored (`ProcessRepoKeys`). */
  function ProcessRepo(row: Object, api: RepoApi): (r: Processed)
    ensures "contributor_count" in r.row
    ensures r.row["contributor_count"] == OptInt(ContributorCount(api.contributors))
  {
    var count := ContributorCount(api.contributors);
    var row1 := row["contributor_count" := OptInt(count)];
    if !Included(count) then
      Processed(row1, [Contributors])
    else
      Processed(Overwrite(row1, Enrichment(api)), EnrichmentCalls(WalkRequests(api.tree)))
  }

  /** Below the gate only `contributor_count` is written and only the
      contributors are requested. */
  lemma ProcessRepoSkips(row: Object, api: RepoApi)
    requires !Included(ContributorCount(api.contributors))
    ensures var r := ProcessRepo(row, api);
            && r.row.Keys == row.Keys + {"contributor_count"}
            && (forall k :: k in row && k != "contributor_count" ==> r.row[k] == row[k])
            && r.calls == [Contributors]
  {
  }

  /** Above the gate the seven enrichment keys are added, every other
      column is kept, and six requests are issued besides the walk's. */
  lemma ProcessRepoKeys(row: Object, api: RepoApi)
    requires Included(ContributorCount(api.contributors))
    ensures var r := ProcessRepo(row, api);
            && r.row.Keys == row.Keys + {"contributor_count"} + EnrichmentKeys
            && (forall k :: k in row && k != "contributor_count" && k !in EnrichmentKeys ==>
                  r.row[k] == row[k])
            && |r.calls| == 6 + |WalkRequests(api.tree)|
  {
  }

  /** Above the gate, the file list, the CI tool read from it and the
      commit count are stored; the contributors are requested first, then
      the contents of every directory the walk enters, then the five
      other endpoints in order. */
  lemma ProcessRepoEnriches(row: Object, api: RepoApi)
    requires Included(ContributorCount(api.contributors))
    ensures var r := ProcessRepo(row, api);
            && r.row["filenames"] == StrList(Walk(api.tree))
            && r.row["ci_cd_tool"] == OptStr(CiTool(Walk(api.tree)))
            && r.row["commits_count"] == Int(CommitCount(api.commits))
            && r.calls[0] == Contributors
            && r.calls[1..1 + |WalkRequests(api.tree)|] == ContentsCalls(WalkRequests(api.tree))
            && r.calls[|r.calls| - 5..] == [Commits, Issues, Pulls, Tags, DependencyGraph]
  {
    EnrichmentValues(api);
  }

  /** Above the gate, the issue and pull-request counts, the tag names and
      the dependency names are stored, each from its own endpoint. */
  lemma ProcessRepoSummaries(row: Object, api: RepoApi)
    requires Included(ContributorCount(api.contributors))
    ensures var r := ProcessRepo(row, api).row;
            && r["issues_count"] == IssueCountsValue(CountIssues(api.issues))
            && r["pull_requests_count"] == PullCountsValue(CountPulls(api.pulls))
            && r["tags"] == OptStrList(TagNames(api.tags))
            && r["dependencies"] == OptStrList(Dependencies(api.sbom))
  {
    EnrichmentValues(api);
  }

  /** `row.update(e)` */
  function Overwrite(row: Object, e: Object): (r: Object)
    ensures r.Keys == row.Keys + e.Keys
    ensures forall k :: k in e ==> r[k] == e[k]
    ensures forall k :: k in row && k !in e ==> r[k] == row[k]
  {
    row + e
  }

  /** The requests of an included repository: its contributors, the
      contents of every directory the walk lists, then the five other
      endpoints in order. */
  function EnrichmentCalls(paths: seq<string>): (r: seq<Endpoint>)
    ensures |r| == 6 + |paths|
    ensures r[0] == Contributors
    ensures r[1..1 + |paths|] == ContentsCalls(paths)
    ensures r[|r| - 5..] == [Commits, Issues, Pulls, Tags, DependencyGraph]
  {
    [Contributors] + ContentsCalls(paths) + [Commits, Issues, Pulls, Tags, DependencyGraph]
  }

  /** The seven cells an included repository gains, the CI tool read from
      the freshly walked file list. */
  function Enrichment(api: RepoApi): (e: Object)
    ensures e.Keys == EnrichmentKeys && "contributor_count" !in e
  {
    var files := Walk(api.tree);
    EnrichmentCells(StrList(files), Int(CommitCount(api.commits)),
                    IssueCountsValue(CountIssues(api.issues)), PullCountsValue(CountPulls(api.pulls)),
                    OptStrList(TagNames(api.tags)), OptStrList(Dependencies(api.sbom)),
                    OptStr(CiTool(files)))
  }

  /** Each enrichment cell holds the summary of its own endpoint. */
  lemma EnrichmentValues(api: RepoApi)
    ensures var e := Enrichment(api);
            && e["filenames"] == StrList(Walk(api.tree))
            && e["ci_cd_tool"] == OptStr(CiTool(Walk(api.tree)))
            && e["commits_count"] == Int(CommitCount(api.commits))
            && e["issues_count"] == IssueCountsValue(CountIssues(api.issues))
            && e["pull_requests_count"] == PullCountsValue(CountPulls(api.pulls))
            && e["tags"] == OptStrList(TagNames(api.tags))
            && e["dependencies"] == OptStrList(Dependencies(api.sbom))
  {
  }

  /** The seven enrichment cells, in the order `process_repo` assigns them. */
  function EnrichmentCells(filenames: Value, commits: Value, issues: Value, pulls: Value,
                           tags: Value, dependencies: Value, ciTool: Value): (e: Object)
    ensures e.Keys == EnrichmentKeys && "contributor_count" !in e
    ensures e["filenames"] == filenames && e["ci_cd_tool"] == ciTool
    ensures e["commits_count"] == commits
    ensures e["issues_count"] == issues && e["pull_requests_count"] == pulls
    ensures e["tags"] == tags && e["dependencies"] == dependencies
  {
    map["filenames" := filenames,
        "commits_count" := commits,
        "issues_count" := issues,
        "pull_requests_count" := pulls,
        "tags" := tags,
        "dependencies" := dependencies,
        "ci_cd_tool" := ciTool]
  }
}

=== FILE: text.dfy ===
/** String operations the modelled Python code relies on: `str.lower`,
    `in` on strings, `startswith`/`endswith`, `split` on a one-character
    separator and `join`.

    `Lower` folds only the ASCII letters A-Z; Python's `str.lower` also folds
    the rest of Unicode, which no constant of the modelled code needs. */
module Text {

  import opened Wrappers

  predicate IsUpper(c: char) {
    'A' <= c <= 'Z'
  }

  function LowerChar(c: char): char {
    if IsUpper(c) then (c as int + 32) as char else c
  }

  /** `s.lower()` restricted to ASCII letters. */
  function Lower(s: string): (r: string)
    ensures |r| == |s|
    ensures forall i :: 0 <= i < |s| ==> r[i] == LowerChar(s[i])
  {
    seq(|s|, i requires 0 <= i < |s| => LowerChar(s[i]))
  }

  /** A lowered string holds no upper-case letter, so it never equals a
      literal that does. */
  lemma LowerHasNoUpper(s: string)
    ensures forall i :: 0 <= i < |Lower(s)| ==> !IsUpper(Lower(s)[i])
  {
  }

  /** `s.startswith(p)` */
  predicate StartsWith(s: string, p: string) {
    |p| <= |s| && s[..|p|] == p
  }

  /** `s.endswith(p)` */
  predicate EndsWith(s: string, p: string) {
    |p| <= |s| && s[|s| - |p|..] == p
  }

  /** `sub in s` for strings: `sub` occurs as a contiguous slice of `s`. */
  predicate Contains(s: string, sub: string) {
    exists i :: 0 <= i <= |s| && StartsWith(s[i..], sub)
  }

  /** `sep.join(parts)` */
  function JoinWith(parts: seq<string>, sep: string): string
  {
    if |parts| == 0 then ""
    else if |parts| == 1 then parts[0]
    else parts[0] + sep + JoinWith(parts[1..], sep)
  }

  /** `s.split(c)` for a one-character separator: the maximal runs between
      separators, always at least one (possibly empty) part. */
  function Split(s: string, c: char): (parts: seq<string>)
    ensures |parts| >= 1
    ensures forall i :: 0 <= i < |parts| ==> c !in parts[i]
    decreases |s|
  {
    if |s| == 0 then [""]
    else
      var rest := Split(s[1..], c);
      if s[0] == c then [""] + rest
      else [[s[0]] + rest[0]] + rest[1..]
  }

  /** Joining the parts back with the separator gives the original string. */
  lemma {:induction false} SplitThenJoin(s: string, c: char)
    ensures JoinWith(Split(s, c), [c]) == s
    decreases |s|
  {
    if |s| > 0 {
      var rest := Split(s[1..], c);
      SplitThenJoin(s[1..], c);
      if s[0] == c {
        assert Split(s, c) == [""] + rest;
        assert ([""] + rest)[1..] == rest;
        assert s == [c] + s[1..];
      } else {
        var parts := Split(s, c);
        assert parts == [[s[0]] + rest[0]] + rest[1..];
        if |rest| == 1 {
          assert s == [s[0]] + s[1..];
        } else {
          assert parts[1..] == rest[1..];
          assert JoinWith(rest, [c]) == rest[0] + [c] + JoinWith(rest[1..], [c]);
          assert s == [s[0]] + s[1..];
        }
      }
    }
  }

  /** Splitting a string that starts with a separator-free run `a`. */
  lemma {:induction false} SplitAfterRun(a: string, t: string, c: char)
    requires c !in a
    ensures Split(a + t, c) == [a + Split(t, c)[0]] + Split(t, c)[1..]
    decreases |a|
  {
    if |a| > 0 {
      SplitAfterRun(a[1..], t, c);
      assert (a + t)[1..] == a[1..] + t;
      assert (a + t)[0] == a[0];
      assert [a[0]] + (a[1..] + Split(t, c)[0]) == a + Split(t, c)[0];
    } else {
      var parts := Split(t, c);
      assert a + t == t;
      assert a + parts[0] == parts[0];
      assert parts == [parts[0]] + parts[1..];
    }
  }

  /** Splitting around one separator splits both sides independently. */
  lemma {:induction false} SplitConcat(a: string, t: string, c: char)
    ensures Split(a + [c] + t, c) == Split(a, c) + Split(t, c)
    decreases |a|
  {
    var s := a + [c] + t;
    var rt := Split(t, c);
    if |a| == 0 {
      assert s == [c] + t;
      assert s[1..] == t;
      assert Split(s, c) == [""] + rt;
      assert Split(a, c) == [""];
    } else {
      assert s[0] == a[0];
      assert s[1..] == a[1..] + [c] + t;
      SplitConcat(a[1..], t, c);
      var ra := Split(a[1..], c);
      assert Split(s[1..], c) == ra + rt;
      if a[0] == c {
        assert Split(s, c) == [""] + (ra + rt);
        assert Split(a, c) == [""] + ra;
        Associative([""], ra, rt);
      } else {
        var head := [a[0]] + ra[0];
        assert (ra + rt)[0] == ra[0];
        assert (ra + rt)[1..] == ra[1..] + rt;
        assert Split(s, c) == [head] + (ra[1..] + rt);
        assert Split(a, c) == [head] + ra[1..];
        Associative([head], ra[1..], rt);
      }
    }
  }

  /** Concatenation regroups freely. */
  lemma Associative<T>(x: seq<T>, y: seq<T>, z: seq<T>)
    ensures (x + y) + z == x + (y + z)
  {
  }

  /** Splitting the join of separator-free parts gives the parts back. */
  lemma {:induction false} JoinThenSplit(parts: seq<string>, c: char)
    requires |parts| >= 1
    requires forall i :: 0 <= i < |parts| ==> c !in parts[i]
    ensures Split(JoinWith(parts, [c]), c) == parts
    decreases |parts|
  {
    var a := parts[0];
    if |parts| == 1 {
      SplitAfterRun(a, "", c);
      assert Split("", c) == [""];
      assert a + "" == a;
    } else {
      var u := JoinWith(parts[1..], [c]);
      JoinThenSplit(parts[1..], c);
      SplitAfterRun(a, [c] + u, c);
      assert a + [c] + u == a + ([c] + u);
      assert ([c] + u)[1..] == u;
      assert JoinWith(parts, [c]) == a + [c] + u;
      assert ([c] + u)[0] == c;
      assert Split([c] + u, c) == [""] + parts[1..];
      assert a + "" == a;
      assert parts == [a] + parts[1..];
    }
  }

  lemma {:induction false} JoinLastPart(parts: seq<string>, sep: string)
    requires |parts| >= 2
    ensures JoinWith(parts, sep)
         == JoinWith(parts[..|parts| - 1], sep) + sep + parts[|parts| - 1]
    decreases |parts|
  {
    var q := parts[1..];
    if |q| >= 2 {
      JoinLastPart(q, sep);
      assert parts[..|parts| - 1][1..] == q[..|q| - 1];
    }
  }

  /** `r` is the text of `s` after its last `c`: a `c`-free suffix of `s`
      that is all of `s` or preceded by `c`. */
  predicate AfterLast(s: string, r: string, c: char) {
    c !in r && EndsWith(s, r) && (|r| < |s| ==> s[|s| - |r| - 1] == c)
  }

  /** `s.split(c)[-1]`: the text after the last `c`, or all of `s` when it
      holds no `c`. */
  function LastSegment(s: string, c: char): (r: string)
    ensures AfterLast(s, r, c)
    ensures c !in s ==> r == s
  {
    var parts := Split(s, c);
    SplitThenJoin(s, c);
    if |parts| >= 2 then
      JoinLastPart(parts, [c]);
      parts[|parts| - 1]
    else
      parts[0]
  }

  /** `s.split(c)[-2]`, which raises IndexError when `s` holds no `c`. */
  function SecondToLastSegment(s: string, c: char): (r: Option<string>)
    ensures r.None? <==> c !in s
    ensures r.Some? ==> c !in r.value
  {
    var parts := Split(s, c);
    SplitThenJoin(s, c);
    if |parts| >= 2 then
      JoinLastPart(parts, [c]);
      assert s[|s| - |parts[|parts| - 1]| - 1] == c;
      Some(parts[|parts| - 2])
    else
      None
  }

  /** The last two `c`-separated segments, with the separator between them,
      form a suffix of `s` that is preceded by `c` or is all of `s`. */
  lemma LastTwoSegments(s: string, c: char)
    requires c in s
    ensures var p := Split(s, c);
            |p| >= 2 &&
            var t := p[|p| - 2] + [c] + p[|p| - 1];
            EndsWith(s, t) && (|t| < |s| ==> s[|s| - |t| - 1] == c)
  {
    var p := Split(s, c);
    var n := |p|;
    SplitThenJoin(s, c);
    var t := p[n - 2] + [c] + p[n - 1];
    JoinLastPart(p, [c]);
    var front := p[..n - 1];
    if n == 2 {
      assert front == [p[0]];
      assert s == t;
    } else {
      JoinLastPart(front, [c]);
      assert front[..n - 2] == p[..n - 2];
      var h := JoinWith(p[..n - 2], [c]);
      assert s == h + [c] + t;
      assert s[|s| - |t|..] == t;
      assert s[|s| - |t| - 1] == c;
    }
  }

  /** The characters Python treats as whitespace (`str.isspace`), which
      `str.strip()` removes and `int()` skips: the ASCII tab-to-carriage-
      return range, the four information separators 0x1C-0x1F, the space,
      and the Unicode separators. */
  predicate IsSpace(c: char) {
    var n := c as int;
    || 9 <= n <= 13
    || 0x1C <= n <= 0x20
    || n == 0x85 || n == 0xA0 || n == 0x1680
    || 0x2000 <= n <= 0x200A
    || n == 0x2028 || n == 0x2029 || n == 0x202F || n == 0x205F || n == 0x3000
  }

  function TrimStart(s: string): (r: string)
    ensures |r| <= |s| && r == s[|s| - |r|..]
  {
    if |s| > 0 && IsSpace(s[0]) then TrimStart(s[1..]) else s
  }

  function TrimEnd(s: string): (r: string)
    ensures |r| <= |s| && r == s[..|r|]
  {
    if |s| > 0 && IsSpace(s[|s| - 1]) then TrimEnd(s[..|s| - 1]) else s
  }

  /** `s.strip()` */
  function Strip(s: string): string {
    TrimEnd(TrimStart(s))
  }
}

=== FILE: user_extractor.dfy ===
/** The profile of a repository's owner: the owner's login is read from
    the repository's web address, and nine fields of the user answer are
    kept under names of the collection's own. */
module UserExtractor {

  import opened Wrappers
  import opened Text
  import opened Json
  import GitHubApi
  import ReposExtractor

  /** `repo_html_url.split("/")[-2]`, IndexError when there is no '/'. */
  function Owner(htmlUrl: string): (r: Result<string>)
    ensures r.Err? <==> '/' !in htmlUrl
    ensures r.Err? ==> r.error == IndexError
    ensures r.Ok? ==> '/' !in r.value
  {
    match SecondToLastSegment(htmlUrl, '/')
    case None => Err(IndexError)
    case Some(owner) => Ok(owner)
  }

  /** `user_url` */
  function UserUrl(htmlUrl: string): (r: Result<string>)
    ensures r.Err? <==> '/' !in htmlUrl
    ensures r.Ok? ==> StartsWith(r.value, GitHubApi.ApiUsers)
                      && '/' !in r.value[|GitHubApi.ApiUsers|..]
  {
    var owner :- Owner(htmlUrl);
    var url := GitHubApi.ApiUsers + owner;
    assert url[|GitHubApi.ApiUsers|..] == owner;
    Ok(url)
  }

  /** The owner of `<prefix>/<owner>/<repo>` is `owner`, whatever the
      prefix. */
  lemma OwnerOfRepositoryUrl(prefix: string, owner: string, repo: string)
    requires '/' !in owner && '/' !in repo
    ensures Owner(prefix + "/" + owner + "/" + repo) == Ok(owner)
    ensures UserUrl(prefix + "/" + owner + "/" + repo) == Ok(GitHubApi.ApiUsers + owner)
  {
    var tail := owner + "/" + repo;
    assert prefix + "/" + owner + "/" + repo == prefix + ['/'] + tail;
    SplitConcat(prefix, tail, '/');
    JoinThenSplit([owner, repo], '/');
    assert JoinWith([owner, repo], "/") == tail;
    var p := Split(prefix, '/') + [owner, repo];
    assert p[|p| - 2] == owner;
  }

  /** The user extractor and the repository extractor read the same owner
      from a repository address. */
  lemma OwnerAgreesWithRepoCoordinates(htmlUrl: string)
    ensures Owner(htmlUrl).Ok? <==> ReposExtractor.RepoCoordinates(htmlUrl).Ok?
    ensures Owner(htmlUrl).Ok? ==> Owner(htmlUrl).value == ReposExtractor.RepoCoordinates(htmlUrl).value.0
  {
  }

  /** The profile columns, each with the field of the user answer it is
      copied from. */
  const ProfileRename: map<string, string> := map[
    "name" := "name",
    "company" := "company",
    "location" := "location",
    "bio" := "bio",
    "repos_num" := "public_repos",
    "gists_num" := "public_gists",
    "followers" := "followers",
    "following" := "following",
    "last_user_commit" := "updated_at"]

  /** The projection of a decoded user answer onto the profile columns;
      `get` yields None for a missing field. */
  function Project(data: Object): (p: Object)
    ensures p.Keys == ProfileRename.Keys
    ensures forall k :: k in p ==> p[k] == Get(data, ProfileRename[k])
  {
    map k | k in ProfileRename :: Get(data, ProfileRename[k])
  }

  /** `get_user_profile` on the answer `_get` gave: None for a falsy answer;
      a truthy answer that is not an object has no `get`. */
  function UserProfile(data: Option<Value>): (r: Result<Option<Object>>)
    ensures r == Ok(None) <==> data.None? || !Truthy(data.value)
    ensures r.Err? <==> data.Some? && Truthy(data.value) && !data.value.Dict?
    ensures r.Err? ==> r.error == AttributeError("get")
    ensures r.Ok? && r.value.Some? ==> data.value.Dict? && r.value.value.Keys == ProfileRename.Keys
    ensures r.Ok? && r.value.Some? ==> r.value.value == Project(data.value.fields)
  {
    if data.None? || !Truthy(data.value) then Ok(None)
    else if data.value.Dict? then Ok(Some(Project(data.value.fields)))
    else Err(AttributeError("get"))
  }

  /** The full profile lookup for a repository row, `answers` being what
      `_get` answers for each address (absent: None). */
  function GetUserProfile(htmlUrl: string, answers: map<string, Value>): (r: Result<Option<Object>>)
    ensures '/' !in htmlUrl ==> r == Err(IndexError)
    ensures '/' in htmlUrl ==> (UserUrl(htmlUrl).value !in answers ==> r == Ok(None))
    ensures '/' in htmlUrl && UserUrl(htmlUrl).value in answers ==>
              r == UserProfile(Some(answers[UserUrl(htmlUrl).value]))
  {
    var url :- UserUrl(htmlUrl);
    UserProfile(if url in answers then Some(answers[url]) else None)
  }

  /** Only the nine source fields reach the profile: two answers that agree
      on them give the same profile, and a missing field reads as None. */
  lemma ProfileReadsOnlySourceFields(a: Object, b: Object)
    requires forall f :: f in ProfileRename.Values ==> Get(a, f) == Get(b, f)
    ensures Project(a) == Project(b)
    ensures forall k :: k in ProfileRename && ProfileRename[k] !in a ==> Project(a)[k] == Null
  {
    forall k | k in ProfileRename
      ensures Project(a)[k] == Project(b)[k]
    {
      assert ProfileRename[k] in ProfileRename.Values;
    }
  }

  /** The renamed columns: the repository count, gist count and last update
      come from `public_repos`, `public_gists` and `updated_at`. */
  lemma RenamedColumns(data: Object)
    ensures Project(data)["repos_num"] == Get(data, "public_repos")
    ensures Project(data)["gists_num"] == Get(data, "public_gists")
    ensures Project(data)["last_user_commit"] == Get(data, "updated_at")
    ensures "public_repos" !in Project(data) && "updated_at" !in Project(data)
  {
  }
}

=== FILE: wrappers.dfy ===
/** Failure-carrying datatypes shared by every module of the model.

    Python code signals errors by raising; the model makes every raise an
    `Err` carrying the exception class the interpreter would raise, so that a
    contract can say exactly when an operation fails and with what. */
module Wrappers {

  datatype Option<+T> = None | Some(value: T) {

    /** The value, or `default` when absent. */
    function GetOr(default: T): T {
      match this
      case Some(v) => v
      case None => default
    }
  }

  /** The Python exception classes the modelled code can raise. */
  datatype Exception =
    | ValueError(message: string)
    | KeyError(key: string)
    | TypeError(message: string)
    | AttributeError(name: string)
    | IndexError
    | StopIteration

  /** Either the value a Python call returns or the exception it raises. */
  datatype Result<+T> = Ok(value: T) | Err(error: Exception) {

    predicate IsFailure() {
      Err?
    }

    function PropagateFailure<U>(): Result<U>
      requires Err?
    {
      Err(error)
    }

    function Extract(): T
      requires Ok?
    {
      value
    }
  }
}
